=== FILE: README.md ===
# Gelatik / StuDeaf — a Dafny model of the client's validators and the server's rules

Gelatik (package `com.example.bckc`, shown in the app as StuDeaf) is an Android
app for deaf and hard-of-hearing students with a FastAPI server behind it. This
project models, as pure Dafny functions over immutable datatypes, the parts of
both that decide something:

- **Client (Kotlin).** The registration and password-change validators:
  - the password policies and the email patterns;
  - the `DD/MM/YYYY` birth-date mask and its conversion to `YYYY-MM-DD`.

  The registration draft held by `AuthViewModel` over the `PreferenceManager`
  key-value store. The session bootstrap in `TokenManager` and the start route
  chosen from it. The mapping of HTTP outcomes to `Resource`, `Result` and UI
  states in the repositories and view models. The JBI translator search filter.
  The dirty tracking of the edit-profile screen.
- **Server (Python).** The Pydantic field constraints, as predicates that list
  the failing fields. The user, auth, feedback, translation, summary and forum
  rules, each a function from a database value and a request to either a reply
  or an HTTP error with its status and detail.

Each module follows one source file and carries that file's name. `Wrappers`,
`Chars`, `Seqs`, `Toggles` and `Security` are shared. `CrossChecks` relates the
client's rules to the server's:

- A birth date typed into the registration screen reaches the server in ISO order.
- Every password the change-password screen accepts is one the server accepts.
- The registration use case is looser than the server: it lets through
  `Abcd1234_`, which the server refuses for lacking a special character.

Environment inputs are parameters:
- HTTP replies are a `Call` value (a body or none, an error status, or an exception).
- Password hashing and verification are a `Security.Hasher` value.
- A decoded JWT is a `Security.Decoded` value.
- The clock is an integer number of seconds.

Where the parts of the code disagree with one another, the model follows
each function as written. For example, the translation service passes an
extra `translator_id` to the repository's `create_order`, which takes no such
parameter. The model keeps the repository's signature, so the order takes
its translator id from the request body.

## Model

| member | source | states |
|---|---|---|
| RegisterUseCase.Decide | Frontend/app/src/main/java/com/example/bckc/domain/usecase/auth/RegisterUseCase.kt:18-42 | checks run blank, then email, then match, then policy, and only the first failure is reported with its message; the repository is asked iff every check passes, with the six arguments unchanged |
| RegisterUseCase.Invoke | Frontend/app/src/main/java/com/example/bckc/domain/usecase/auth/RegisterUseCase.kt:10-43 | a rejected input gives `Error(message)`; otherwise the repository's result is returned as it is |
| RegisterUseCase.AnythingAfterAtIsAccepted | Frontend/app/src/main/java/com/example/bckc/domain/usecase/auth/RegisterUseCase.kt:23-25 | a local part of `[A-Za-z0-9+_.-]` then `@` then any non-empty rest without line terminators passes the email pattern |
| RegisterUseCase.DoubleAtIsAccepted | Frontend/app/src/main/java/com/example/bckc/domain/usecase/auth/RegisterUseCase.kt:23 | a single witness: the address `a@b@c` passes, so the pattern does not refuse a second `@` |
| RegisterUseCase.EmptyDomainIsRejected | Frontend/app/src/main/java/com/example/bckc/domain/usecase/auth/RegisterUseCase.kt:23-25 | an address ending in its only `@` fails the pattern |
| RegisterUseCase.ShortPasswordIsRefused | Frontend/app/src/main/java/com/example/bckc/domain/usecase/auth/RegisterUseCase.kt:32-40 | `abc`/`abc` with otherwise valid fields passes the match check and is refused by the policy |
| LoginUseCase.Decide | Frontend/app/src/main/java/com/example/bckc/domain/usecase/auth/LoginUseCase.kt:11-14 | the login is refused iff the email or the password is blank, with "Email and password cannot be empty"; otherwise both values go to the repository unchanged |
| LoginUseCase.Invoke | Frontend/app/src/main/java/com/example/bckc/domain/usecase/auth/LoginUseCase.kt:10-15 | a blank field gives the error without a repository call; otherwise the repository's result is returned unchanged |
| LoginUseCase.WhitespaceIsBlank | Frontend/app/src/main/java/com/example/bckc/domain/usecase/auth/LoginUseCase.kt:11 | an email or password of spaces or tabs only is refused |
| TokenManager.Init | Frontend/app/src/main/java/com/example/bckc/utils/TokenManager.kt:14-15 | the validity flag starts unknown |
| TokenManager.ValidateToken | Frontend/app/src/main/java/com/example/bckc/utils/TokenManager.kt:17-44 | no stored token gives false without a server call; otherwise the result is true iff the profile request got a 2xx status; a false result clears the token; the flag equals the result |
| TokenManager.ClearToken | Frontend/app/src/main/java/com/example/bckc/utils/TokenManager.kt:46-49 | the session token is removed, every other key kept, and the flag set false |
| TokenManager.ValidationLeavesFlagInSync | Frontend/app/src/main/java/com/example/bckc/utils/TokenManager.kt:21-42 | after validation the flag says exactly whether a session token is still stored |
| TokenManager.StartRoute | Frontend/app/src/main/java/com/example/bckc/MainActivity.kt:42-46 | the start route is Home iff the token was valid, else Login |
| TokenManager.StartsAtHomeIffServerAccepts | Frontend/app/src/main/java/com/example/bckc/MainActivity.kt:40-47 | the app opens on Home iff a token is stored and the server accepted it; opening on Login leaves no session token |
| PreferenceManager.SaveToken | Frontend/app/src/main/java/com/example/bckc/utils/PreferenceManager.kt:10-16 | reading the token back gives the saved value; no other key changes |
| PreferenceManager.ClearToken | Frontend/app/src/main/java/com/example/bckc/utils/PreferenceManager.kt:14-20 | the token then reads back as null; no other key changes |
| PreferenceManager.SaveRegistrationData | Frontend/app/src/main/java/com/example/bckc/utils/PreferenceManager.kt:23-44 | reading the draft back gives the four saved values; exactly the four `reg_*` keys are written |
| PreferenceManager.ClearRegistrationData | Frontend/app/src/main/java/com/example/bckc/utils/PreferenceManager.kt:37-53 | exactly the four `reg_*` keys are removed, so every draft field reads back as "" |
| PreferenceManager.SaveProfileData | Frontend/app/src/main/java/com/example/bckc/utils/PreferenceManager.kt:56-80 | reading the profile back gives the saved values, a null picture URL included; only the five `profile_*` keys change |
| PreferenceManager.ClearProfileData | Frontend/app/src/main/java/com/example/bckc/utils/PreferenceManager.kt:72-90 | exactly the five `profile_*` keys are removed: text fields read back as "" and the picture URL as null |
| PreferenceManager.SaveVerificationToken | Frontend/app/src/main/java/com/example/bckc/utils/PreferenceManager.kt:92-98 | the verification token reads back as saved; no other key changes |
| PreferenceManager.ClearVerificationToken | Frontend/app/src/main/java/com/example/bckc/utils/PreferenceManager.kt:96-102 | the verification token then reads back as null; no other key changes |
| PreferenceManager.TokensAreIndependent | Frontend/app/src/main/java/com/example/bckc/utils/PreferenceManager.kt:105-116 | saving the verification token leaves the session token, and saving the session token leaves the verification token |
| PreferenceManager.RegistrationIsIndependent | Frontend/app/src/main/java/com/example/bckc/utils/PreferenceManager.kt:105-116 | saving or clearing the registration draft changes neither the session token nor the profile snapshot, and clearing the session token leaves the draft |
| PreferenceManager.ProfileIsIndependent | Frontend/app/src/main/java/com/example/bckc/utils/PreferenceManager.kt:105-116 | saving the profile snapshot leaves the draft, and clearing it leaves the verification token |
| AuthRepositoryImpl.MakeRegisterRequest | Frontend/app/src/main/java/com/example/bckc/data/repository/AuthRepositoryImpl.kt:40-47 | the request carries the six arguments unchanged |
| AuthRepositoryImpl.MapAuthResponse | Frontend/app/src/main/java/com/example/bckc/data/repository/AuthRepositoryImpl.kt:17-28 | the result is never Loading; it is Success(access token) iff the reply is 2xx with a body; an empty 2xx body, a non-2xx status and an exception give the three distinct errors |
| AuthRepositoryImpl.Login | Frontend/app/src/main/java/com/example/bckc/data/repository/AuthRepositoryImpl.kt:16-29 | 2xx with a body gives Success(access_token); 2xx without one gives "Empty response body"; non-2xx gives "Login failed: " + message; an exception gives its message or "An error occurred" |
| AuthRepositoryImpl.Register | Frontend/app/src/main/java/com/example/bckc/data/repository/AuthRepositoryImpl.kt:31-59 | the same mapping with "Registration failed: " for non-2xx |
| AuthRepositoryImpl.LoginAndRegisterDifferOnlyOnRejection | Frontend/app/src/main/java/com/example/bckc/data/repository/AuthRepositoryImpl.kt:16-59 | login and register map every outcome identically except a non-2xx status, where both give an error |
| UserRepositoryImpl.VerifyPassword | Frontend/app/src/main/java/com/example/bckc/data/repository/UserRepositoryImpl.kt:13-20 | success iff the call returned, carrying its verification token; a thrown exception becomes a failure |
| UserRepositoryImpl.MakeChangePasswordRequest | Frontend/app/src/main/java/com/example/bckc/data/repository/UserRepositoryImpl.kt:28-34 | the token and both passwords go into the request unchanged |
| UserRepositoryImpl.ChangePassword | Frontend/app/src/main/java/com/example/bckc/data/repository/UserRepositoryImpl.kt:22-39 | success iff the call returned, carrying the server's message; an exception becomes a failure |
| UserRepositoryImpl.GetProfile | Frontend/app/src/main/java/com/example/bckc/data/repository/UserRepositoryImpl.kt:41-48 | the body is returned iff the reply is 2xx with a body; an empty body and a non-2xx status throw their messages |
| SecurityViewModel.Verify | Frontend/app/src/main/java/com/example/bckc/presentation/screens/profile/viewmodel/SecurityViewModel.kt:46-60 | the current password is sent to `verifyPassword` unchanged; loading is raised and then lowered; on success the token is stored in memory and in preferences and NavigateToChangePassword is emitted; on failure ShowError(message or "Unknown error occurred") is emitted and no token is stored |
| SecurityViewModel.Change | Frontend/app/src/main/java/com/example/bckc/presentation/screens/profile/viewmodel/SecurityViewModel.kt:62-98 | the errors come in the order mismatch, policy, missing token, and none of them sends anything; the request is sent iff all three pass, with the stored token and both passwords unchanged; success clears the stored token and emits PasswordChanged then NavigateToProfile |
| SecurityViewModel.Reset | Frontend/app/src/main/java/com/example/bckc/presentation/screens/profile/viewmodel/SecurityViewModel.kt:38-42 | the state returns to its default, the in-memory token becomes null and the stored one is cleared |
| SecurityViewModel.OnEvent | Frontend/app/src/main/java/com/example/bckc/presentation/screens/profile/viewmodel/SecurityViewModel.kt:30-44 | each event is routed to its handler, and ResetState emits nothing |
| SecurityViewModel.LoadingNeverSticks | Frontend/app/src/main/java/com/example/bckc/presentation/screens/profile/viewmodel/SecurityViewModel.kt:48-96 | `isLoading` is false after every event, whatever the outcome |
| SecurityViewModel.VerifyThenChange | Frontend/app/src/main/java/com/example/bckc/presentation/screens/profile/viewmodel/SecurityViewModel.kt:50-92 | a verification followed by a valid change sends the token just obtained, and a second change finds no stored token |
| ChangePasswordScreen.Requirements | Frontend/app/src/main/java/com/example/bckc/presentation/screens/profile/ChangePasswordScreen.kt:40-46 | exactly five requirements in display order (length at least 8, lower case, digit, one of `!@#$`, upper case), each with its text |
| ChangePasswordScreen.ChecklistMatchesViewModel | Frontend/app/src/main/java/com/example/bckc/presentation/screens/profile/ChangePasswordScreen.kt:40-46 | all five are shown as met iff the view model's `isPasswordValid` accepts the same string |
| ChangePasswordScreen.OnPasswordChange | Frontend/app/src/main/java/com/example/bckc/presentation/screens/profile/ChangePasswordScreen.kt:120-123 | editing the password replaces it, keeps the confirmation and clears the shown error |
| ChangePasswordScreen.OnConfirmChange | Frontend/app/src/main/java/com/example/bckc/presentation/screens/profile/ChangePasswordScreen.kt:159-162 | editing the confirmation replaces it, keeps the password and clears the shown error |
| ChangePasswordScreen.OnUiEvent | Frontend/app/src/main/java/com/example/bckc/presentation/screens/profile/ChangePasswordScreen.kt:48-56 | only ShowError changes the screen, by showing its message |
| ChangePasswordScreen.OnSave | Frontend/app/src/main/java/com/example/bckc/presentation/screens/profile/ChangePasswordScreen.kt:171-180 | Save sends `ChangePassword(password, confirmPassword)` unchanged iff both fields are non-empty and nothing is loading |
| ChangePasswordScreen.EditClearsShownError | Frontend/app/src/main/java/com/example/bckc/presentation/screens/profile/ChangePasswordScreen.kt:120-162 | an error shown by the view model is gone after the next edit of either field |
| RegisterPasswordScreen.PasswordChecks | Frontend/app/src/main/java/com/example/bckc/presentation/screens/auth/RegisterPasswordScreen.kt:66-70 | the five live checks; the special-character check accepts any character that is neither letter nor digit |
| RegisterPasswordScreen.ValidFormPassesUseCasePasswordChecks | Frontend/app/src/main/java/com/example/bckc/presentation/screens/auth/RegisterPasswordScreen.kt:66-74 | a valid form (five checks, a non-empty matching confirmation, terms accepted) passes the use case's match and policy checks, and neither password is blank |
| RegisterPasswordScreen.PopsBackOnEntry | Frontend/app/src/main/java/com/example/bckc/presentation/screens/auth/RegisterPasswordScreen.kt:52-63 | the screen pops back on entry iff any of the four stored registration fields is blank |
| RegisterPasswordScreen.OnRegisterClick | Frontend/app/src/main/java/com/example/bckc/presentation/screens/auth/RegisterPasswordScreen.kt:272-287 | register is called iff the form is valid and no stored field is blank; a valid form with a blank stored field shows the snackbar; an invalid form does nothing |
| RegisterPasswordScreen.OnRegisterState | Frontend/app/src/main/java/com/example/bckc/presentation/screens/auth/RegisterPasswordScreen.kt:85-104 | Success navigates home, Error shows its message, and both reset the register state; no state and Loading change nothing |
| RegisterPasswordScreen.RegisterStateIsConsumed | Frontend/app/src/main/java/com/example/bckc/presentation/screens/auth/RegisterPasswordScreen.kt:86-104 | whenever the repository's answer is a finished one, the screen's reaction to `register` leaves no register state |
| RegisterScreen.Format | Frontend/app/src/main/java/com/example/bckc/presentation/screens/auth/RegisterScreen.kt:169-175 | with at most 3 digits there is no slash; with 4 or 5 digits one slash follows the 2nd; from 6 digits on slashes follow the 2nd and the 4th |
| RegisterScreen.OnBirthDateChange | Frontend/app/src/main/java/com/example/bckc/presentation/screens/auth/RegisterScreen.kt:167-178 | an input longer than 10 characters leaves the field unchanged; otherwise the value is the formatted input and the error is non-empty iff that value is blank |
| RegisterScreen.FormatKeepsDigits | Frontend/app/src/main/java/com/example/bckc/presentation/screens/auth/RegisterScreen.kt:169-175 | removing the slashes from the formatted text gives exactly the input's digits, in order |
| RegisterScreen.FormatIsIdempotent | Frontend/app/src/main/java/com/example/bckc/presentation/screens/auth/RegisterScreen.kt:169-176 | formatting the formatted text changes nothing |
| RegisterScreen.RetypingIsStable | Frontend/app/src/main/java/com/example/bckc/presentation/screens/auth/RegisterScreen.kt:167-178 | feeding the field its own value again leaves it unchanged |
| RegisterScreen.EmptyErrorIffNoDigits | Frontend/app/src/main/java/com/example/bckc/presentation/screens/auth/RegisterScreen.kt:177 | the birth-date error shows iff the input held no digit |
| RegisterScreen.DotsFormOneBlock | Frontend/app/src/main/java/com/example/bckc/presentation/screens/auth/RegisterScreen.kt:55-56 | an address with a dot, a letter and another dot after the `@` (a multi-label domain) does not match |
| RegisterScreen.UpperCaseDomainRejected | Frontend/app/src/main/java/com/example/bckc/presentation/screens/auth/RegisterScreen.kt:55-56 | an upper-case letter after the `@` makes the address fail |
| RegisterScreen.DotRightAfterAtRejected | Frontend/app/src/main/java/com/example/bckc/presentation/screens/auth/RegisterScreen.kt:55-56 | a dot right after the `@` makes the address fail, since the domain label before the dots needs at least one letter |
| RegisterScreen.Examples | Frontend/app/src/main/java/com/example/bckc/presentation/screens/auth/RegisterScreen.kt:55-56 | `budi@gmail.com` matches; `x@mail.ui.ac.id`, `x@Gmail.com` and `x@.com` do not |
| RegisterScreen.FullNameError | Frontend/app/src/main/java/com/example/bckc/presentation/screens/auth/RegisterScreen.kt:138-141 | the name error shows iff the name is blank, with "Nama tidak boleh kosong" |
| RegisterScreen.EmailError | Frontend/app/src/main/java/com/example/bckc/presentation/screens/auth/RegisterScreen.kt:213-219 | blank gives "Email tidak boleh kosong", a mismatch gives "Format email tidak valid", and the error is empty iff the address is non-blank and matches |
| RegisterScreen.NoIdentityStillContinues | Frontend/app/src/main/java/com/example/bckc/presentation/screens/auth/RegisterScreen.kt:59-62 | as written, Continue is enabled with no identity chosen; the intended predicate refuses that input |
| RegisterScreen.ContinueIffNoErrors | Frontend/app/src/main/java/com/example/bckc/presentation/screens/auth/RegisterScreen.kt:59-62 | the intended Continue predicate holds iff neither the name nor the email shows an error, the birth date is non-blank and an identity is chosen |
| AuthViewModel.Init | Frontend/app/src/main/java/com/example/bckc/presentation/screens/auth/viewmodel/AuthViewModel.kt:32-41 | a new view model has no login or register state, takes the four basic fields from the store, and has empty passwords |
| AuthViewModel.UpdateRegistrationData | Frontend/app/src/main/java/com/example/bckc/presentation/screens/auth/viewmodel/AuthViewModel.kt:43-70 | every field whose argument is null is kept; the four basic fields are persisted iff at least one of them was supplied, and the stored values are the updated draft's |
| AuthViewModel.DraftSurvivesRestart | Frontend/app/src/main/java/com/example/bckc/presentation/screens/auth/viewmodel/AuthViewModel.kt:63-70 | only the four `reg_*` keys change, passwords never reach the store, and a view model rebuilt from the store recovers the saved basic fields |
| AuthViewModel.ConvertBirthDate | Frontend/app/src/main/java/com/example/bckc/presentation/screens/auth/viewmodel/AuthViewModel.kt:106-112 | a value that does not split into exactly three `/`-separated parts is passed through |
| AuthViewModel.ConvertReordersThreeParts | Frontend/app/src/main/java/com/example/bckc/presentation/screens/auth/viewmodel/AuthViewModel.kt:107-109 | `a/b/c` with slash-free parts becomes `c-b-a` |
| AuthViewModel.ConvertKeepsOtherShapes | Frontend/app/src/main/java/com/example/bckc/presentation/screens/auth/viewmodel/AuthViewModel.kt:107-112 | a value without exactly two slashes is sent as typed |
| AuthViewModel.Merged | Frontend/app/src/main/java/com/example/bckc/presentation/screens/auth/viewmodel/AuthViewModel.kt:84-91 | the stored basic fields override the in-memory ones; the passwords come from memory |
| AuthViewModel.RequestArgs | Frontend/app/src/main/java/com/example/bckc/presentation/screens/auth/viewmodel/AuthViewModel.kt:117-124 | the use case gets the merged fields unchanged, except the birth date, which is converted |
| AuthViewModel.Register | Frontend/app/src/main/java/com/example/bckc/presentation/screens/auth/viewmodel/AuthViewModel.kt:77-132 | a blank merged field gives "All fields must be filled" without calling the use case; otherwise the use case runs on the request arguments, the states are Loading and then its result, which is the use case's own error message when it rejects them and the repository's result when it passes them on; only a Success clears the draft and the stored registration keys |
| AuthViewModel.ConvertKeepsNonBlank | Frontend/app/src/main/java/com/example/bckc/presentation/screens/auth/viewmodel/AuthViewModel.kt:106-112 | converting a non-blank birth date never gives a blank one |
| AuthViewModel.UseCaseSeesNoBlankField | Frontend/app/src/main/java/com/example/bckc/presentation/screens/auth/viewmodel/AuthViewModel.kt:94-124 | the use case's own blank check can never fire on what `register` sends it |
| AuthViewModel.Login | Frontend/app/src/main/java/com/example/bckc/presentation/screens/auth/viewmodel/AuthViewModel.kt:134-139 | the login state is Loading and then the use case's result: the repository's `login` receives the email and password unchanged iff neither is blank, and its answer becomes the state; otherwise the state is the use case's empty-field error |
| AuthViewModel.ResetLoginState | Frontend/app/src/main/java/com/example/bckc/presentation/screens/auth/viewmodel/AuthViewModel.kt:141-143 | only the login state changes, to null |
| AuthViewModel.ResetRegisterState | Frontend/app/src/main/java/com/example/bckc/presentation/screens/auth/viewmodel/AuthViewModel.kt:145-147 | only the register state changes, to null |
| AuthViewModel.ClearRegistrationData | Frontend/app/src/main/java/com/example/bckc/presentation/screens/auth/viewmodel/AuthViewModel.kt:149-152 | the draft becomes empty and the registration keys are removed; the states are kept |
| AuthViewModel.SuccessLeavesNoDraft | Frontend/app/src/main/java/com/example/bckc/presentation/screens/auth/viewmodel/AuthViewModel.kt:126-152 | whenever `register` ends in a Success, a restarted view model finds an empty draft |
| ProfileViewModel.ToUser | Frontend/app/src/main/java/com/example/bckc/presentation/screens/profile/viewmodel/ProfileViewModel.kt:34-43 | every field of the domain user is copied from the response |
| ProfileViewModel.CopyLosesNothing | Frontend/app/src/main/java/com/example/bckc/presentation/screens/profile/viewmodel/ProfileViewModel.kt:34-43 | copying the user back into a response gives the original response |
| ProfileViewModel.FetchUserProfile | Frontend/app/src/main/java/com/example/bckc/presentation/screens/profile/viewmodel/ProfileViewModel.kt:27-55 | the state is Loading, then Success(user) iff the reply is 2xx with a body; an empty body, a non-2xx status and an exception give their three errors |
| ProfileViewModel.AgreesWithRepository | Frontend/app/src/main/java/com/example/bckc/presentation/screens/profile/viewmodel/ProfileViewModel.kt:31-50 | the view model succeeds on exactly the outcomes where the user repository returns a profile, and reads the same user |
| ForumViewModel.LoadForumData | Frontend/app/src/main/java/com/example/bckc/presentation/screens/forum/viewmodel/ForumViewModel.kt:40-57 | the list is Success(forums) unchanged iff the reply is 2xx with a body; otherwise "No data available", "Failed to load forum data" or the exception's message; the query and the tab are kept |
| ForumViewModel.SetSearchQuery | Frontend/app/src/main/java/com/example/bckc/presentation/screens/forum/viewmodel/ForumViewModel.kt:32-34 | only the search query changes |
| ForumViewModel.SetSelectedTab | Frontend/app/src/main/java/com/example/bckc/presentation/screens/forum/viewmodel/ForumViewModel.kt:36-38 | only the selected tab changes |
| ForumViewModel.SettersCommuteWithLoad | Frontend/app/src/main/java/com/example/bckc/presentation/screens/forum/viewmodel/ForumViewModel.kt:32-57 | the setters and the load touch disjoint fields, so either order gives the same state |
| JBIViewModel.FilteredTranslators | Frontend/app/src/main/java/com/example/bckc/presentation/screens/jbi/viewmodel/JBIViewModel.kt:56-66 | an empty query gives every translator in order; otherwise a translator is kept iff its lower-cased `alamat` or `name` contains the lower-cased query; the result is always an order-preserving subsequence of the list, as long as the number of translators that match |
| JBIViewModel.NameMatchIsKept | Frontend/app/src/main/java/com/example/bckc/presentation/screens/jbi/viewmodel/JBIViewModel.kt:61-64 | a translator whose name contains the query, in any letter case, is kept |
| JBIViewModel.OnSearchQueryChange | Frontend/app/src/main/java/com/example/bckc/presentation/screens/jbi/viewmodel/JBIViewModel.kt:52-54 | only the query changes |
| JBIViewModel.OnTabSelected | Frontend/app/src/main/java/com/example/bckc/presentation/screens/jbi/viewmodel/JBIViewModel.kt:45-50 | the tab is set, and orders are refetched iff the tab is 1 and no order is loaded |
| JBIViewModel.Start | Frontend/app/src/main/java/com/example/bckc/presentation/screens/jbi/viewmodel/JBIViewModel.kt:70-92 | a fetch starts by raising loading and clearing the error |
| JBIViewModel.FetchTranslators | Frontend/app/src/main/java/com/example/bckc/presentation/screens/jbi/viewmodel/JBIViewModel.kt:68-87 | loading is off at the end; 2xx with a body replaces the list; 2xx without one changes neither the list nor the error; non-2xx sets "Failed to fetch translators"; an exception sets its message |
| JBIViewModel.FetchTranslationOrders | Frontend/app/src/main/java/com/example/bckc/presentation/screens/jbi/viewmodel/JBIViewModel.kt:89-108 | the same for the orders, with "Failed to fetch translation orders" |
| JBIViewModel.LoadedOrdersAreNotRefetched | Frontend/app/src/main/java/com/example/bckc/presentation/screens/jbi/viewmodel/JBIViewModel.kt:45-98 | once a non-empty order list has loaded, selecting the orders tab does not refetch |
| EditProfileViewModel.IdentityOf | Frontend/app/src/main/java/com/example/bckc/presentation/screens/profile/viewmodel/EditProfileViewModel.kt:72 | the text `"tuli"` gives TULI and every other text gives DENGAR |
| EditProfileViewModel.IdentityName | Frontend/app/src/main/java/com/example/bckc/presentation/screens/profile/viewmodel/EditProfileViewModel.kt:107 | the lower-cased enum name is `"tuli"` or `"dengar"` |
| EditProfileViewModel.IdentityRoundTrip | Frontend/app/src/main/java/com/example/bckc/presentation/screens/profile/viewmodel/EditProfileViewModel.kt:72 | both enum values survive a save and a reload; a text survives iff it is one of the two names |
| EditProfileViewModel.CheckForChanges | Frontend/app/src/main/java/com/example/bckc/presentation/screens/profile/viewmodel/EditProfileViewModel.kt:90-113 | there is an unsaved change iff the form differs from the snapshot on name, birth date, lower-cased identity, institution or picture URL; the email is not compared |
| EditProfileViewModel.UpdateFullName | Frontend/app/src/main/java/com/example/bckc/presentation/screens/profile/viewmodel/EditProfileViewModel.kt:115-123 | only the name, validity and dirty flag change; the form is valid iff the name is non-blank and a birth date is present |
| EditProfileViewModel.UpdateEmail | Frontend/app/src/main/java/com/example/bckc/presentation/screens/profile/viewmodel/EditProfileViewModel.kt:125-130 | only the email and the dirty flag change, and the flag ignores the email |
| EditProfileViewModel.UpdateBirthDate | Frontend/app/src/main/java/com/example/bckc/presentation/screens/profile/viewmodel/EditProfileViewModel.kt:132-140 | only the date, validity and dirty flag change; the form is valid iff the name is non-blank |
| EditProfileViewModel.UpdateIdentityType | Frontend/app/src/main/java/com/example/bckc/presentation/screens/profile/viewmodel/EditProfileViewModel.kt:142-147 | only the identity and the dirty flag change |
| EditProfileViewModel.UpdateInstitution | Frontend/app/src/main/java/com/example/bckc/presentation/screens/profile/viewmodel/EditProfileViewModel.kt:149-154 | only the institution and the dirty flag change |
| EditProfileViewModel.UpdateProfilePicture | Frontend/app/src/main/java/com/example/bckc/presentation/screens/profile/viewmodel/EditProfileViewModel.kt:156-161 | only the picture URL and the dirty flag change |
| EditProfileViewModel.EditAndRevertIsClean | Frontend/app/src/main/java/com/example/bckc/presentation/screens/profile/viewmodel/EditProfileViewModel.kt:105-161 | editing a field away from the snapshot and back leaves no unsaved change |
| EditProfileViewModel.SaveBody | Frontend/app/src/main/java/com/example/bckc/presentation/screens/profile/viewmodel/EditProfileViewModel.kt:170-176 | the body always holds `full_name`, `birth_date` ("" when absent) and `institution`; it holds `profile_picture_url` iff one is set; it never holds the identity |
| EditProfileViewModel.SaveChanges | Frontend/app/src/main/java/com/example/bckc/presentation/screens/profile/viewmodel/EditProfileViewModel.kt:163-211 | any 2xx reply stores the form as the new snapshot and sets no unsaved change, success and no error; a failure sets the error and clears success, leaving the snapshot; loading is off at the end |
| EditProfileViewModel.SaveMakesSnapshotCurrent | Frontend/app/src/main/java/com/example/bckc/presentation/screens/profile/viewmodel/EditProfileViewModel.kt:180-195 | after a successful save the form equals the snapshot, so a later no-op edit finds no change |
| EditProfileViewModel.LoadUserProfileAsWritten | Frontend/app/src/main/java/com/example/bckc/presentation/screens/profile/viewmodel/EditProfileViewModel.kt:48-88 | as written, a 2xx reply without a body leaves the state as it was when loading started; every other outcome is as in the corrected load |
| EditProfileViewModel.EmptyBodyLeavesSpinnerOn | Frontend/app/src/main/java/com/example/bckc/presentation/screens/profile/viewmodel/EditProfileViewModel.kt:53-80 | as written, an empty 2xx reply leaves `isLoading` true |
| EditProfileViewModel.LoadUserProfile | Frontend/app/src/main/java/com/example/bckc/presentation/screens/profile/viewmodel/EditProfileViewModel.kt:48-88 | loading is off at the end; a body sets the snapshot and the form from the loaded values, with a valid form and no unsaved change; a non-2xx reply sets "Failed to load profile"; an exception sets its message |
| EditProfileViewModel.LoadIsCleanIffKnownIdentity | Frontend/app/src/main/java/com/example/bckc/presentation/screens/profile/viewmodel/EditProfileViewModel.kt:59-109 | after a load, a no-op edit finds no change iff the identity text is "tuli" or "dengar" |
| EditProfileViewModel.OnCleared | Frontend/app/src/main/java/com/example/bckc/presentation/screens/profile/viewmodel/EditProfileViewModel.kt:213-216 | the profile snapshot is cleared and the form kept |
| UserSchemas.CheckPassword | Backend/app/api/v1/schemas/user_schemas.py:13-26 | the password is accepted iff it has at least 8 characters, a lower-case letter, an upper-case letter, a digit and one of `!@#$%^&*(),.?":{}\|<>`; the first failing test, in that order, is the one reported |
| UserSchemas.CheckPasswordPair | Backend/app/api/v1/schemas/user_schemas.py:12-32 | no error iff the policy passes and the confirmation is equal; a mismatch is reported only when the password itself passed |
| UserSchemas.CheckUserCreate | Backend/app/api/v1/schemas/user_schemas.py:6-32 | a signup body is accepted iff the identity is `tuli` or `dengar`, the password passes the policy and the confirmation matches; a wrong identity is always reported |
| UserSchemas.CheckChangePasswordRequest | Backend/app/api/v1/schemas/user_schemas.py:79-100 | `new_password` and its confirmation follow the same policy and match rule as signup |
| UserSchemas.MismatchHiddenByPolicyFailure | Backend/app/api/v1/schemas/user_schemas.py:28-32 | while the password fails the policy, the confirmation is never compared: any confirmation gives the same errors, no mismatch is reported, and the last error is the policy's, for sign-up and for a password change alike |
| UserRepository.GetUserByEmail | Backend/app/repositories/user_repository.py:13-14 | a row is found iff some row has that email, and the row found has it |
| UserRepository.FoundRowIsTheOnlyOne | Backend/app/repositories/user_repository.py:13-14 | with unique emails the lookup returns exactly the row holding the email |
| UserRepository.UpdateProfile | Backend/app/repositories/user_repository.py:19-33 | a field changes only when the request gives a non-None value for it, and then takes that value; id, email, identity, password hash and points never change |
| UserRepository.UpdateProfileIsIdempotent | Backend/app/repositories/user_repository.py:19-33 | applying an update twice equals applying it once, and an empty update changes nothing |
| UserRepository.VerifyPassword | Backend/app/repositories/user_repository.py:35-38 | True iff the hash verifies the password; otherwise `InvalidPasswordError`, never False |
| UserRepository.InvalidateToken | Backend/app/repositories/user_repository.py:40-48 | afterwards the token counts as used, and every other token's status is unchanged |
| UserRepository.ChangePassword | Backend/app/repositories/user_repository.py:50-65 | a used token gives 400 "This verification token has already been used" and changes nothing; otherwise the token is recorded and the new password's hash stored |
| UserRepository.TokenIsSingleUse | Backend/app/repositories/user_repository.py:52-65 | a token that changed the password once is refused the second time |
| UserRepository.DeleteUser | Backend/app/repositories/user_repository.py:67-74 | the row goes iff the password verifies; the remaining rows are the others, in order |
| UserEndpoint.GetCurrentUser | Backend/app/api/v1/endpoints/user.py:20-38 | as intended: the caller is found iff the token decodes, has a subject and some row has that email; every failure is the same 401 "Could not validate credentials" |
| UserEndpoint.VerifyCurrentPassword | Backend/app/api/v1/endpoints/user.py:66-95 | a correct password yields claims with `sub` the user's email, `type` "password_change" and expiry five minutes on; a wrong one gives 400 "Invalid current password" |
| UserEndpoint.ChangePassword | Backend/app/api/v1/endpoints/user.py:97-138 | as intended: an expired token gives the "expired" 400; an undecodable one, another type or another subject give 400 "Invalid verification token"; otherwise the repository decides, and success records the token and stores the new hash |
| UserEndpoint.IssuedTokenWorksOnce | Backend/app/api/v1/endpoints/user.py:77-127 | as intended: a freshly issued token changes its owner's password once, is refused the second time, and is refused for any other user |
| UserEndpoint.GetCurrentUserAsWritten | Backend/app/api/v1/endpoints/user.py:26-37 | as written: a token that does not decode, is expired or has no subject gives a 500; a subject naming no stored email gives the 401; otherwise the stored user |
| UserEndpoint.CurrentUserDiffersOnlyInsideTry | Backend/app/api/v1/endpoints/user.py:26-37 | the written and the intended handler accept exactly the same tokens, and differ exactly on the tokens refused inside the `try` block |
| UserEndpoint.ChangePasswordAsWritten | Backend/app/api/v1/endpoints/user.py:107-138 | as written: an expired token gives the "expired" 400; every other refusal, undecodable, wrong type, wrong subject or already used, is a 500; success is as intended |
| UserEndpoint.ChangePasswordDiffersOnlyInRefusals | Backend/app/api/v1/endpoints/user.py:107-138 | a success of the written handler is the intended one, and every intended refusal other than an expired token is a 500 as written |
| UserEndpoint.IssuedTokenRefusalsAreServerErrors | Backend/app/api/v1/endpoints/user.py:77-138 | as written, a freshly issued token still changes its owner's password once, but a second use and any other user get a 500 |
| AuthEndpoint.Signup | Backend/app/api/v1/endpoints/auth.py:29-62 | a registered email gives 400 `EMAIL_EXISTS` and adds no row; otherwise one row is appended with the password's hash, no institution or picture and 0 points, and the bearer token's subject is the new email, valid 30 minutes |
| AuthEndpoint.SignupKeepsEmailsUnique | Backend/app/api/v1/endpoints/auth.py:42-62 | signup never puts one email on two rows |
| AuthEndpoint.Authenticate | Backend/app/api/v1/endpoints/auth.py:67-106 | a token is issued iff a row has the email and the hash verifies the password; every failure is the same 401 `INVALID_CREDENTIALS`; the token's subject is the stored email |
| AuthEndpoint.LoginWithForm | Backend/app/api/v1/endpoints/auth.py:64-84 | access is granted iff a user with the form's `username` as email exists and the password verifies against its stored hash; the token names that email, and every failure is `INVALID_CREDENTIALS` |
| AuthEndpoint.LoginWithJson | Backend/app/api/v1/endpoints/auth.py:86-106 | access is granted iff a user with that email exists and the password verifies against its stored hash; the token names that email, and every failure is `INVALID_CREDENTIALS` |
| AuthEndpoint.LoginFailuresLookAlike | Backend/app/api/v1/endpoints/auth.py:68-100 | an unknown email and a wrong password give the identical 401, and the form and JSON logins decide alike |
| AuthEndpoint.SignupThenLogin | Backend/app/api/v1/endpoints/auth.py:33-106 | after a signup the same email and password log in, with a token for that email |
| FeedbackSchemas.CheckFeedback | Backend/app/api/v1/schemas/feedback_schemas.py:5-7 | the rating is rejected iff it lies outside 1..5, a description is rejected iff it is present and empty or over 1000 characters, and no error is reported iff the body is valid |
| FeedbackRepository.GetByUser | Backend/app/repositories/feedback_repository.py:16-20 | a user's feedback is found iff some row has that user id, and the row returned belongs to that user |
| FeedbackRepository.Get | Backend/app/repositories/feedback_repository.py:68-72 | a feedback is found iff some row has that id, and the row returned carries it |
| FeedbackRepository.Create | Backend/app/repositories/feedback_repository.py:22-42 | the new row takes the next id, the caller's user id and the body's rating and description, and is appended; the id was unused before and is found afterwards |
| FeedbackRepository.Update | Backend/app/repositories/feedback_repository.py:44-66 | a missing id returns None and changes nothing; otherwise only that row's rating and description change, to the body's values, and every id and owner is kept |
| FeedbackRepository.GetAll | Backend/app/repositories/feedback_repository.py:74-82 | a negative `skip` or `limit` gives a 500, as PostgreSQL refuses a negative `OFFSET` or `LIMIT`; otherwise the page holds exactly `min(limit, rows - min(skip, rows))` rows, row i being the table's row `skip + i`, and the total is the number of rows in the table |
| FeedbackRepository.Delete | Backend/app/repositories/feedback_repository.py:84-98 | True iff the id existed; then exactly one row is gone, otherwise the table is unchanged |
| FeedbackRepository.DeleteRemovesExactlyOne | Backend/app/repositories/feedback_repository.py:84-90 | after a delete no row has that id, every other row is still there, and ids stay unique |
| FeedbackService.Create | Backend/app/services/feedback_service.py:18-38 | a user who already has feedback of that kind gets 400 with the kind's message; otherwise the repository's row is appended to that kind's table only |
| FeedbackService.Update | Backend/app/services/feedback_service.py:40-70 | a missing id gives 404 `Feedback not found`, a caller who is neither admin nor owner gets 403; otherwise the row takes the new rating and description |
| FeedbackService.GetAll | Backend/app/services/feedback_service.py:72-86 | everyone but an admin gets 403 `Only admins can view all feedback`; an admin gets the repository's answer, which succeeds exactly when `skip` and `limit` are not negative, with the table's row count as total |
| FeedbackService.Delete | Backend/app/services/feedback_service.py:88-118 | 404 for a missing id, 403 for a caller who is neither admin nor owner, otherwise the row is deleted and True returned |
| FeedbackService.CreateKeepsOnePerUser | Backend/app/services/feedback_service.py:18-38 | if every user has at most one feedback of a kind, a successful create keeps it that way |
| FeedbackService.ChangesKeepOnePerUser | Backend/app/services/feedback_service.py:40-118 | updates and deletes keep at most one feedback per user |
| FeedbackService.SecondCreateIsRefused | Backend/app/services/feedback_service.py:20-25 | a second feedback of the same kind by the same user is refused with 400 |
| TranslationSchemas.ReadTranslator | Backend/app/api/v1/schemas/translation_schemas.py:28-32 | an omitted `availability` reads as True; name, address and picture are taken as sent |
| TranslationSchemas.UserIdentityType | Backend/app/api/v1/schemas/translation_schemas.py:68-72 | None iff the order has no user; otherwise the user's identity type in lower case, of the same length and equal to it ignoring case |
| TranslationSchemas.PatternIsAnchored | Backend/app/api/v1/schemas/translation_schemas.py:57 | the status pattern is anchored: any status with something non-empty added before or after it fails, as do `pending `, `xconfirmed` and `Completed` |
| TranslationRepository.CreateTranslator | Backend/app/repositories/translation_repository.py:12-23 | the new translator takes the next id, the body's fields and the caller's user id, with an empty picture stored as None, and is appended |
| TranslationRepository.GetTranslator | Backend/app/repositories/translation_repository.py:25-26 | found iff some translator has that id, and the one returned carries it |
| TranslationRepository.GetTranslatorByUserId | Backend/app/repositories/translation_repository.py:28-29 | found iff some translator belongs to that user, and the one returned does |
| TranslationRepository.GetTranslators | Backend/app/repositories/translation_repository.py:31-34 | the page holds exactly `min(limit, n - min(skip, n))` of the n translators, entry i being translator `skip + i`, and the total counts them all |
| TranslationRepository.UpdateTranslator | Backend/app/repositories/translation_repository.py:36-48 | a missing translator gives 404 `Translator not found`; otherwise every body field overwrites that translator, its id and owner are kept, and nothing else changes |
| TranslationRepository.CreateOrder | Backend/app/repositories/translation_repository.py:50-72 | 404 for a missing translator, 400 `Translator is not available` for an unavailable one; otherwise a `pending` order of the caller with that translator is appended under the next id |
| TranslationRepository.GetUserOrders | Backend/app/repositories/translation_repository.py:74-83 | the total counts the user's orders, and the page is the `skip`/`limit` window of them in table order |
| TranslationRepository.GetTranslatorOrders | Backend/app/repositories/translation_repository.py:85-94 | the total counts the translator's orders, and the page is the `skip`/`limit` window of them in table order |
| TranslationRepository.FullPageListsEveryOrder | Backend/app/repositories/translation_repository.py:74-83 | a first page at least as long as the total lists every order of the user |
| TranslationRepository.GetOrder | Backend/app/repositories/translation_repository.py:96-97 | found iff some order has that id, and the one returned carries it |
| TranslationRepository.UpdateOrderStatus | Backend/app/repositories/translation_repository.py:99-112 | 404 for a missing order; 403 unless the caller is the client or owns the order's translator; otherwise only that order's status changes |
| TranslationService.CreateTranslator | Backend/app/services/translation_service.py:68-75 | a caller whose identity is not `admin` in any case gets 403; an admin's translator is created by the repository under the admin's user id |
| TranslationService.GetTranslator | Backend/app/services/translation_service.py:77-84 | a missing translator gives 404 `Translator not found`; otherwise the stored translator with that id |
| TranslationService.GetTranslators | Backend/app/services/translation_service.py:86-91 | the page and the total of all translators |
| TranslationService.UpdateTranslator | Backend/app/services/translation_service.py:93-105 | 404 for a missing translator, 403 for a caller who does not own it, otherwise the repository's update |
| TranslationService.CreateOrder | Backend/app/services/translation_service.py:107-147 | `jbi` and `dengar` users get 403 before any lookup; then 404, 400 for an unavailable translator, 400 for a slot outside the 21 listed; a created order is `pending` and belongs to the caller |
| TranslationService.GetUserOrders | Backend/app/services/translation_service.py:149-154 | the repository's page and total of the caller's orders; every listed order is the caller's |
| TranslationService.GetTranslatorOrders | Backend/app/services/translation_service.py:156-168 | a caller with no translator profile gets 404; otherwise the orders placed with the caller's translator profile |
| TranslationService.UpdateOrderStatus | Backend/app/services/translation_service.py:170-195 | 404 for a missing order; `confirmed`/`cancelled` need an admin; `completed` needs the owner and a confirmed order; whenever these checks pass, for any status, the answer is the repository's own update, with its client-or-translator check |
| TranslationService.CompleteOrder | Backend/app/services/translation_service.py:197-220 | 404, then 403 for a caller who is not the owner, then 400 unless the order is confirmed; otherwise the order becomes `completed`, the table holds it under its id, and every other order and all translators are unchanged |
| TranslationService.AdminsAreStillGated | Backend/app/services/translation_service.py:170-195 | an admin who is neither the client nor the order's translator still gets the repository's 403 when confirming or cancelling |
| TranslationService.CompletionHappensOnce | Backend/app/services/translation_service.py:197-220 | completing an order a second time fails with 400, since it is no longer confirmed |
| TranslationService.TimeSlotsAreOfficeHours | Backend/app/services/translation_service.py:131-138 | every bookable slot reads `HH.00 - HH.00`, starts between 08.00 and 18.00 and lasts one or two hours, and no slot is listed twice |
| SummaryRepository.FormatSummary | Backend/app/repositories/summary_repository.py:12-36 | no row gives no response; otherwise the summary and author name are kept, missing counts read 0, the flags are true only when the query said true, and the comment list is empty |
| SummaryRepository.CommentsOf | Backend/app/repositories/summary_repository.py:78-120 | exactly the comments on that summary |
| SummaryRepository.GetSummary | Backend/app/repositories/summary_repository.py:78-120 | 404 for a missing summary, 403 for an unpublished summary of another user; otherwise the summary with exactly its comments |
| SummaryRepository.GetSummaries | Backend/app/repositories/summary_repository.py:122-162 | with `published_only` a summary is listed iff it is published; otherwise with `private_only` iff it is the caller's own; otherwise iff it is published or the caller's own |
| SummaryRepository.ListingsCombine | Backend/app/repositories/summary_repository.py:147-159 | the unfiltered listing is the published listing plus the private one; `published_only` wins over `private_only`; nothing listed is hidden from the caller |
| SummaryRepository.UpdateSummary | Backend/app/repositories/summary_repository.py:164-185 | 404, then 403 for another user's summary; otherwise only the text changes |
| SummaryRepository.PublishSummary | Backend/app/repositories/summary_repository.py:187-214 | 404, then 403 for another user's summary, then 400 if already published; otherwise title, subtitle, topic and text are set and the summary is published |
| SummaryRepository.CommentsNotOn | Backend/app/migrations/versions/63e52f2757e5_add_translation_and_order_tables.py:94 | exactly the comments on other summaries, in their order and with their number |
| SummaryRepository.DeleteSummary | Backend/app/repositories/summary_repository.py:216-232 | 404, then 403 for another user's summary; otherwise that summary is gone, every other one keeps its value, and the database's cascade removes exactly its comments (the rest keep their order and number), its likes and its bookmarks |
| SummaryRepository.CreateComment | Backend/app/repositories/summary_repository.py:234-268 | 404, then 400 for an unpublished summary; otherwise a comment by the caller is appended under the next id |
| SummaryRepository.ToggleLike | Backend/app/repositories/summary_repository.py:270-297 | 404, then 400 for an unpublished summary; otherwise the caller's like flips and True means it was added |
| SummaryRepository.ToggleBookmark | Backend/app/repositories/summary_repository.py:299-325 | 404, then 400 for an unpublished summary; otherwise the caller's bookmark flips and True means it was added |
| SummaryRepository.TogglesUndoThemselves | Backend/app/repositories/summary_repository.py:270-325 | liking or bookmarking twice restores the previous state |
| SummaryRepository.PublishIsOneWay | Backend/app/repositories/summary_repository.py:187-214 | a published summary cannot be published again, stays published through an update, and accepts likes and comments |
| SummaryEndpoint.CheckGet | Backend/app/api/v1/endpoints/summary.py:51-72 | 404 for a missing summary, 403 for an unpublished one of another user, otherwise the summary |
| SummaryEndpoint.CheckUpdate | Backend/app/api/v1/endpoints/summary.py:74-102 | 404, then 403 for another user's summary, then 400 `Cannot update published summaries`; only an own unpublished summary passes |
| SummaryEndpoint.CheckDelete | Backend/app/api/v1/endpoints/summary.py:105-126 | 404, then 403 for another user's summary; only an own summary passes |
| SummaryEndpoint.CheckPublish | Backend/app/api/v1/endpoints/summary.py:129-159 | 404, then 403, then 400 if already published; only an own unpublished summary passes |
| SummaryEndpoint.HandlersAgreeWithRepository | Backend/app/api/v1/endpoints/summary.py:51-159 | the handlers' checks decide get, delete and publish exactly as the repository does, with the same errors; for update the handler also refuses published summaries, which the repository would change |
| ForumSchemas.CheckFields | Backend/app/api/v1/schemas/forum_schemas.py:5-10 | each field error is reported iff its bound is broken: title 1..255, subtitle at most 255, topic 1..100, non-empty body, image URL at most 500 |
| ForumSchemas.CheckForum | Backend/app/api/v1/schemas/forum_schemas.py:5-16 | no error iff the forum body is valid |
| ForumSchemas.CheckUpdate | Backend/app/api/v1/schemas/forum_schemas.py:15-16 | an update body has no error iff the forum it describes is valid |
| ForumRepository.FormatForum | Backend/app/repositories/forum_repository.py:12-33 | no row gives no response; otherwise the forum and author name are kept, missing counts read 0, `has_liked` is true only when the query said true, and the comment list is empty |
| ForumRepository.GetForums | Backend/app/repositories/forum_repository.py:69-104 | a forum is listed iff it has the given topic (when one is given) and contains the search text, ignoring case, in its title, subtitle or body (when a search is given) |
| ForumRepository.FilterCases | Backend/app/repositories/forum_repository.py:90-101 | no filter, or empty filter fields, list every forum; a topic alone lists exactly the forums with that topic |
| ForumRepository.SearchIgnoresCase | Backend/app/repositories/forum_repository.py:97-101 | for any text, searching for it and for its lower-case form lists the same forums |
| ForumRepository.CommentsOf | Backend/app/repositories/forum_repository.py:106-161 | exactly the comments on that forum |
| ForumRepository.GetForum | Backend/app/repositories/forum_repository.py:106-161 | 404 `Forum not found` iff the forum is missing; otherwise the forum with exactly its comments |
| ForumRepository.UpdateForum | Backend/app/repositories/forum_repository.py:163-186 | 404, then 403 for another user's forum; otherwise title, topic and body are replaced, subtitle and image only when sent, and nothing else changes |
| ForumRepository.CommentsNotOn | Backend/app/repositories/forum_repository.py:188-204 | exactly the comments on other forums, in their order and with their number |
| ForumRepository.DeleteForum | Backend/app/repositories/forum_repository.py:188-204 | 404, then 403 for another user's forum; otherwise the forum, its comments and its likes are gone; every other forum keeps its value, the other comments keep their order and number, and the comment counter is unchanged |
| ForumRepository.CreateComment | Backend/app/repositories/forum_repository.py:206-235 | 404 iff the forum is missing; otherwise a comment by the caller is appended under the next id |
| ForumRepository.ToggleLike | Backend/app/repositories/forum_repository.py:237-262 | 404 iff the forum is missing; otherwise the caller's like flips, and True means it is now present |
| ForumRepository.LikeTwiceRestores | Backend/app/repositories/forum_repository.py:237-262 | liking twice restores the likes, and the second answer is the opposite of the first |
| Toggles.Toggle | Backend/app/repositories/forum_repository.py:237-262 | the pair is added iff it was absent, the answer says which, and no other pair changes |
| Toggles.ToggleIsInvolution | Backend/app/repositories/forum_repository.py:237-262 | toggling twice restores the set, and the two answers are opposite |
| CrossChecks.BirthDateReachesServerInIsoOrder | Frontend/app/src/main/java/com/example/bckc/presentation/screens/auth/viewmodel/AuthViewModel.kt:106-112 | a birth date typed with at least six digits, once masked as DD/MM/YYYY on screen, is sent to the server as year-month-day made of those digits |
| CrossChecks.SpecialIsServerSpecial | Frontend/app/src/main/java/com/example/bckc/presentation/screens/profile/viewmodel/SecurityViewModel.kt:100-106 | every special character the change-password screen accepts is one the server accepts |
| CrossChecks.ChangePolicyImpliesServerPolicy | Frontend/app/src/main/java/com/example/bckc/presentation/screens/profile/viewmodel/SecurityViewModel.kt:100-106 | a password the change-password screen accepts passes every server password rule |
| CrossChecks.ServerAcceptsMoreThanChangeScreen | Backend/app/api/v1/schemas/user_schemas.py:17-25 | the server accepts `Abcdefg1%`, which the change-password screen rejects |
| CrossChecks.ServerSpecialIsNotLetterOrDigit | Backend/app/api/v1/schemas/user_schemas.py:24-25 | every server special character is neither letter nor digit |
| CrossChecks.ServerPolicyImpliesRegistrationPolicy | Frontend/app/src/main/java/com/example/bckc/domain/usecase/auth/RegisterUseCase.kt:31-39 | a password the server accepts meets the registration use case's policy |
| CrossChecks.RegistrationPolicyIsLooser | Frontend/app/src/main/java/com/example/bckc/domain/usecase/auth/RegisterUseCase.kt:31-39 | the registration use case accepts `Abcd1234_`, which the server rejects for lacking a special character |

## Left out

- Compose layout, colours, dialogs, snackbars and navigation wiring: they hold no behaviour beyond the predicates modelled here.
- Retrofit, OkHttp and dependency injection: an HTTP exchange is the `Call` datatype.
- Coroutines, flows and the timing of emitted events: each operation is one sequential step. Two JBI fetches can race on the shared `isLoading` flag; the model does not represent this race.
- SQLAlchemy sessions, commits and query building. The counts and flags in the forum and summary statistics come from a join, and the model does not compute them: they are inputs to `FormatForum` and `FormatSummary`. The forum and summary listings have no order, so they are sets.
- The `%` and `_` wildcards of SQL `ILIKE` in forum search text: the search is a plain case-insensitive substring test.
- bcrypt hashing and JWT encoding are abstract (`Security.Hasher`, `Security.Decoded`). Wall-clock time is an integer.
- Characters are ASCII. Kotlin's Unicode `isLowerCase`, `isUpperCase`, `isDigit` and `isLetterOrDigit` are not modelled. Dates are strings, and `SimpleDateFormat`/`java.time` parsing is not modelled.
- Pydantic types `HttpUrl`, `EmailStr` and `date` are not checked. The model uses the fields' lengths and literals only. Pydantic's own error messages are library text and appear only as error kinds.
- FastAPI's order of checking dependencies and bodies is not modelled: each handler is modelled on an already validated body.
- Database unique constraints are not modelled in the repositories. Their effect is stated where the code relies on it: `UniqueEmails` and `OnePerUser`.
- `is_admin` is an attribute of the caller; how it is stored is not part of this model. The storage of the identity enum is not modelled either.
- Calls that do not line up in the source are modelled per function, not as a call chain:
  - the `TranslationService` methods at `translation_service.py` lines 14-66 use an undefined `self.db`, and are left out;
  - the arity of `create_order` differs between the endpoint, the service and the repository;
  - `summary.py` calls `get_user_summaries`, `get_summary`, `update_summary`, `delete_summary(summary)` (line 125) and `publish_summary(summary, publish_data)` (line 160) with arguments the repository does not take;
  - `ForumViewModel` calls `getSummaries`;
  - `AuthRepositoryImpl` returns `Resource<String>` where the interface says `Resource<Boolean>`;
  - the summary repository's formatter reads `content` and `title` where the model has `isi` and `judul`;
  - the ORM user model declares the column `hashed_password` (`user_model.py` line 20), while `user_repository.py` (lines 36, 62, 69) and `auth.py` (lines 40, 69, 91) read and write `user.password`; the model follows the repository and the endpoints and calls the field `passwordHash`;
  - `auth.py` imports `ErrorResponse` and `ErrorResponseWithHeaders` from `user_schemas.py`, which defines neither (they live in `auth_schemas.py`);
  - `summary_repository.py` (line 3) imports `SummaryLike`, `SummaryComment` and `SummaryBookmark` from `summary_model.py`, which defines only `Summary` (line 5); `api.py` (lines 5, 14) includes the summary router, so as written the server stops at import and none of the summary code runs. The summary model describes the code as if those tables existed;
  - `user.py` imports `jwt` (PyJWT), which has no `JWTError`. Python evaluates `except jwt.JWTError` for every exception that reaches that clause, so any exception raised inside the two `try` blocks, the handlers' own `HTTPException`s and the repository's included, becomes an `AttributeError`, a 500. Only the expired token in `change_password` (caught first, line 129) and the unknown email after the block in `get_current_user` (lines 35-37) get their intended status. The two rows under "## Findings" record this.
- GetCurrentUser: states the intended 401 for every refused token; as written, an undecodable, expired or subject-less token is a 500 (UserEndpoint.GetCurrentUserAsWritten).
- ChangePassword: states the intended 400s; as written, every refusal except the expired token is a 500 (UserEndpoint.ChangePasswordAsWritten).
- IssuedTokenWorksOnce: states the intended 400s for the second use and for another user; as written, both are 500s (UserEndpoint.IssuedTokenRefusalsAreServerErrors).
- Every `Resource.Error` is built with a message, so `RegisterPasswordScreen`'s "Registration failed" fallback cannot be reached. It is modelled as such.
- `AuthViewModel.register` reads the stored draft with a default of `""`, which is never null. The fallback to the in-memory value is therefore dead, and the stored value (or `""`) always wins.
- Pass-through files are not part of this model: `user_service.py`, `user_usecases.py`, and the translation, forum and feedback endpoints. So are migrations, `database.py`, `config.py`, `main.py`, the ORM model files and the unreferenced `auth_schemas.py`.
- CrossChecks.BirthDateReachesServerInIsoOrder: stated only for inputs with at least six digits, where the mask inserts both slashes. Shorter inputs keep fewer than three parts, and the conversion passes them through unchanged.

## Findings

| source | as written | input that shows it | evidently intended | confidence | as-written member | corrected member |
|---|---|---|---|---|---|---|
| Frontend/app/src/main/java/com/example/bckc/presentation/screens/auth/RegisterScreen.kt:59-62 | Continue is enabled when `selectedIdentity != null`. That state is a non-null `String` that starts as `""`, so the test always holds | name `Budi`, birth date `01/02/2000`, email `budi@gmail.com`, no identity chosen: Continue is enabled | Continue also needs a chosen identity (a non-blank `selectedIdentity`) | not executed | RegisterScreen.NoIdentityStillContinues | RegisterScreen.ContinueIffNoErrors |
| Frontend/app/src/main/java/com/example/bckc/presentation/screens/profile/viewmodel/EditProfileViewModel.kt:53-80 | `isLoading` is cleared only when the 2xx reply has a body, or when the call fails | a 2xx profile reply with an empty body: `isLoading` stays true and no error is shown | every outcome of the load ends with `isLoading` false | not executed | EditProfileViewModel.EmptyBodyLeavesSpinnerOn | EditProfileViewModel.LoadUserProfile |
| Backend/app/api/v1/endpoints/user.py:26-32 | `get_current_user` raises its 401 inside `try` and guards it with `except jwt.JWTError`, but the module imported as `jwt` has no `JWTError`, so evaluating the clause raises `AttributeError` | an expired token, an undecodable one, or a token without `sub`: the caller gets a 500 | every refused token gives 401 "Could not validate credentials" | not executed | UserEndpoint.CurrentUserDiffersOnlyInsideTry | UserEndpoint.GetCurrentUser |
| Backend/app/api/v1/endpoints/user.py:107-138 | `change_password` raises its 400s (and the repository raises its used-token 400) inside `try`; only `except jwt.ExpiredSignatureError` can match, and reaching `except jwt.JWTError` raises `AttributeError` | a token used a second time, or a token issued for another user: the caller gets a 500 | 400 "This verification token has already been used" and 400 "Invalid verification token" | not executed | UserEndpoint.IssuedTokenRefusalsAreServerErrors | UserEndpoint.IssuedTokenWorksOnce |

=== FILE: AuthEndpoint.dfy ===
/** The server's `/auth` handlers: signup and the two login forms. Their
    errors are JSON bodies with a status, an error code and a message. */
module AuthEndpoint {
  import opened Wrappers
  import opened Seqs
  import opened UserRepository
  import Security
  import UserSchemas

  datatype Response<+T> = Granted(value: T) | ErrorBody(statusCode: int, errorCode: string, message: string)

  const EmailExists := ErrorBody(400, "EMAIL_EXISTS", "Email already registered")
  const InvalidCredentials := ErrorBody(401, "INVALID_CREDENTIALS", "Incorrect email or password")

  /** The users table with the id the database hands out next. */
  datatype UserDb = UserDb(users: seq<UserRow>, nextId: int)

  predicate EmailTaken(users: seq<UserRow>, email: string) {
    exists i :: 0 <= i < |users| && users[i].email == email
  }

  datatype Signed = Signed(db: UserDb, token: Security.AccessToken)

  /** `signup` on an already validated request: the unique email column
      turns a second registration into 400 `EMAIL_EXISTS` with the table
      rolled back; otherwise the new row holds the hash of the password and
      the token's subject is its email. */
  function Signup(db: UserDb, user: UserSchemas.UserCreate, h: Security.Hasher): (r: Response<Signed>)
    ensures r == EmailExists <==> EmailTaken(db.users, user.email)
    ensures r.Granted? <==> !EmailTaken(db.users, user.email)
    ensures r.Granted? ==> r.value.token == Security.AccessToken(user.email, Security.AccessTokenExpireMinutes)
    ensures r.Granted? ==> r.value.db == UserDb(
      db.users + [UserRow(db.nextId, user.email, user.fullName, user.birthDate, user.identityType,
                          None, None, h.hash(user.password), 0)],
      db.nextId + 1)
  {
    if GetUserByEmail(db.users, user.email).Some? then EmailExists
    else
      var row := UserRow(db.nextId, user.email, user.fullName, user.birthDate, user.identityType,
                         None, None, h.hash(user.password), 0);
      Granted(Signed(UserDb(db.users + [row], db.nextId + 1), Security.AccessToken(row.email, Security.AccessTokenExpireMinutes)))
  }

  /** Signup keeps every email on at most one row. */
  lemma {:induction false} SignupKeepsEmailsUnique(db: UserDb, user: UserSchemas.UserCreate, h: Security.Hasher)
    requires UniqueEmails(db.users)
    ensures Signup(db, user, h).Granted? ==> UniqueEmails(Signup(db, user, h).value.db.users)
  {
    var r := Signup(db, user, h);
    if r.Granted? {
      var us := r.value.db.users;
      assert |us| == |db.users| + 1 && us[|db.users|].email == user.email;
      forall i, j | 0 <= i < j < |us| ensures us[i].email != us[j].email {
        assert us[i] == db.users[i];
        if j < |db.users| {
          assert us[j] == db.users[j];
        }
      }
    }
  }

  /** The decision both login forms share: the same 401 whether the email is
      unknown or the password wrong. */
  function Authenticate(users: seq<UserRow>, email: string, password: string, h: Security.Hasher)
    : (r: Response<Security.AccessToken>)
    ensures r.Granted? <==> GetUserByEmail(users, email).Some? && h.verify(password, GetUserByEmail(users, email).value.passwordHash)
    ensures r.ErrorBody? ==> r == InvalidCredentials
    ensures r.Granted? ==> r.value == Security.AccessToken(GetUserByEmail(users, email).value.email, Security.AccessTokenExpireMinutes)
  {
    match GetUserByEmail(users, email)
    case None => InvalidCredentials
    case Some(u) =>
      if !h.verify(password, u.passwordHash) then InvalidCredentials
      else Granted(Security.AccessToken(u.email, Security.AccessTokenExpireMinutes))
  }

  /** `login_with_form`: the form's `username` is the email. */
  function LoginWithForm(users: seq<UserRow>, username: string, password: string, h: Security.Hasher)
    : (r: Response<Security.AccessToken>)
    ensures r.Granted? ==> r.value.sub == username && EmailTaken(users, username)
    ensures r.Granted? <==>
      (EmailTaken(users, username) && h.verify(password, GetUserByEmail(users, username).value.passwordHash))
    ensures r.ErrorBody? ==> r == InvalidCredentials
  {
    Authenticate(users, username, password, h)
  }

  /** `login_with_json`. */
  function LoginWithJson(users: seq<UserRow>, email: string, password: string, h: Security.Hasher)
    : (r: Response<Security.AccessToken>)
    ensures r.Granted? ==> r.value.sub == email && EmailTaken(users, email)
    ensures r.Granted? <==>
      (EmailTaken(users, email) && h.verify(password, GetUserByEmail(users, email).value.passwordHash))
    ensures r.ErrorBody? ==> r == InvalidCredentials
  {
    Authenticate(users, email, password, h)
  }

  /** An unknown email and a wrong password cannot be told apart, and the
      two login forms decide alike. */
  lemma LoginFailuresLookAlike(users: seq<UserRow>, email: string, p: string, h: Security.Hasher)
    ensures !EmailTaken(users, email) ==> LoginWithJson(users, email, p, h) == InvalidCredentials
    ensures EmailTaken(users, email) && !h.verify(p, GetUserByEmail(users, email).value.passwordHash)
      ==> LoginWithJson(users, email, p, h) == InvalidCredentials
    ensures LoginWithForm(users, email, p, h) == LoginWithJson(users, email, p, h)
  {
  }

  /** After a signup the same email and password log in, when the hasher
      accepts the hash it produced. */
  lemma {:induction false} SignupThenLogin(db: UserDb, user: UserSchemas.UserCreate, h: Security.Hasher)
    requires Signup(db, user, h).Granted?
    requires h.verify(user.password, h.hash(user.password))
    ensures LoginWithJson(Signup(db, user, h).value.db.users, user.email, user.password, h)
      == Granted(Security.AccessToken(user.email, Security.AccessTokenExpireMinutes))
  {
    var us := Signup(db, user, h).value.db.users;
    var k := |db.users|;
    assert us[k].email == user.email;
    var found := GetUserByEmail(us, user.email);
    assert found.Some?;
    forall i | 0 <= i < k ensures us[i].email != user.email {
      assert us[i] == db.users[i];
    }
    var i := FindFirst(us, u => HasEmail(u, user.email)).value;
    assert i == k;
  }
}

=== FILE: AuthRepositoryImpl.dfy ===
/** The client's auth repository: maps the login and register HTTP outcomes
    into a `Resource` carrying the access token. Neither call touches the
    preference store, so the model takes none. */
module AuthRepositoryImpl {
  import opened Wrappers
  import opened ClientModels

  /** The body the register endpoint is sent; `register` copies its six
      arguments into it. */
  datatype RegisterRequest = RegisterRequest(
    email: string, fullName: string, birthDate: string, identityType: string,
    password: string, passwordConfirm: string)

  function MakeRegisterRequest(email: string, fullName: string, birthDate: string, identityType: string,
                               password: string, passwordConfirm: string): (r: RegisterRequest)
    ensures r.email == email && r.fullName == fullName && r.birthDate == birthDate
    ensures r.identityType == identityType && r.password == password && r.passwordConfirm == passwordConfirm
  {
    RegisterRequest(email, fullName, birthDate, identityType, password, passwordConfirm)
  }

  /** The shared mapping; only the prefix of the non-2xx message differs. */
  function MapAuthResponse(call: Call<AuthResponse>, failurePrefix: string): (r: Resource<string>)
    ensures r != Loading
    ensures r.Success? <==> call.Ok? && call.body.Some?
    ensures r.Success? ==> r.data == call.body.value.accessToken
    ensures call.Ok? && call.body.None? ==> r == Error("Empty response body")
    ensures call.Fail? ==> r == Error(failurePrefix + call.message)
    ensures call.Exn? ==> r == Error(call.error.GetOr("An error occurred"))
  {
    match call
    case Ok(Some(b)) => Success(b.accessToken)
    case Ok(None) => Error("Empty response body")
    case Fail(_, m) => Error(failurePrefix + m)
    case Exn(e) => Error(e.GetOr("An error occurred"))
  }

  function Login(call: Call<AuthResponse>): (r: Resource<string>)
    ensures r.Success? <==> call.Ok? && call.body.Some?
    ensures r.Success? ==> r.data == call.body.value.accessToken
    ensures call.Ok? && call.body.None? ==> r == Error("Empty response body")
    ensures call.Fail? ==> r == Error("Login failed: " + call.message)
    ensures call.Exn? ==> r == Error(call.error.GetOr("An error occurred"))
  {
    MapAuthResponse(call, "Login failed: ")
  }

  /** `call` is the outcome of sending `MakeRegisterRequest` of the arguments. */
  function Register(call: Call<AuthResponse>): (r: Resource<string>)
    ensures r.Success? <==> call.Ok? && call.body.Some?
    ensures r.Success? ==> r.data == call.body.value.accessToken
    ensures call.Ok? && call.body.None? ==> r == Error("Empty response body")
    ensures call.Fail? ==> r == Error("Registration failed: " + call.message)
    ensures call.Exn? ==> r == Error(call.error.GetOr("An error occurred"))
  {
    MapAuthResponse(call, "Registration failed: ")
  }

  /** Login and register map every outcome the same way except a non-2xx
      reply, whose message carries the operation's own prefix. */
  lemma LoginAndRegisterDifferOnlyOnRejection(call: Call<AuthResponse>)
    ensures !call.Fail? ==> Login(call) == Register(call)
    ensures call.Fail? ==> Login(call).Error? && Register(call).Error?
  {
  }
}

=== FILE: AuthViewModel.dfy ===
/** The auth view model: the registration draft (kept in memory and, for its
    four basic fields, in the preference store), the register and login
    states, and the birth-date conversion sent to the server. */
module AuthViewModel {
  import opened Wrappers
  import opened Chars
  import Seqs
  import PM = PreferenceManager
  import UC = RegisterUseCase
  import LUC = LoginUseCase

  datatype RegistrationData = RegistrationData(
    email: string, fullName: string, birthDate: string, identityType: string,
    password: string, passwordConfirm: string)

  const EmptyDraft := RegistrationData("", "", "", "", "", "")

  /** A state of `null` is None. */
  datatype AuthVm = AuthVm(
    loginState: Option<Resource<string>>, registerState: Option<Resource<string>>,
    data: RegistrationData, prefs: PM.Prefs)

  function Basic(d: RegistrationData): PM.RegistrationFields {
    PM.RegistrationFields(d.email, d.fullName, d.birthDate, d.identityType)
  }

  /** The draft starts from the stored basic fields and empty passwords. */
  function Init(prefs: PM.Prefs): (r: AuthVm)
    ensures r.loginState == None && r.registerState == None && r.prefs == prefs
    ensures Basic(r.data) == PM.GetRegistrationData(prefs)
    ensures r.data.password == "" && r.data.passwordConfirm == ""
  {
    var saved := PM.GetRegistrationData(prefs);
    AuthVm(None, None, RegistrationData(saved.email, saved.fullName, saved.birthDate, saved.identityType, "", ""), prefs)
  }

  /** The arguments of `updateRegistrationData`; None is an omitted (null) argument. */
  datatype DraftUpdate = DraftUpdate(
    email: Option<string>, fullName: Option<string>, birthDate: Option<string>,
    identityType: Option<string>, password: Option<string>, passwordConfirm: Option<string>)

  predicate TouchesBasic(u: DraftUpdate) {
    u.email.Some? || u.fullName.Some? || u.birthDate.Some? || u.identityType.Some?
  }

  function UpdateRegistrationData(vm: AuthVm, u: DraftUpdate): (r: AuthVm)
    ensures r.data.email == u.email.GetOr(vm.data.email)
    ensures r.data.fullName == u.fullName.GetOr(vm.data.fullName)
    ensures r.data.birthDate == u.birthDate.GetOr(vm.data.birthDate)
    ensures r.data.identityType == u.identityType.GetOr(vm.data.identityType)
    ensures r.data.password == u.password.GetOr(vm.data.password)
    ensures r.data.passwordConfirm == u.passwordConfirm.GetOr(vm.data.passwordConfirm)
    ensures TouchesBasic(u) ==> r.prefs == PM.SaveRegistrationData(vm.prefs, Basic(r.data))
    ensures !TouchesBasic(u) ==> r.prefs == vm.prefs
    ensures r.loginState == vm.loginState && r.registerState == vm.registerState
  {
    var d := RegistrationData(
      u.email.GetOr(vm.data.email), u.fullName.GetOr(vm.data.fullName),
      u.birthDate.GetOr(vm.data.birthDate), u.identityType.GetOr(vm.data.identityType),
      u.password.GetOr(vm.data.password), u.passwordConfirm.GetOr(vm.data.passwordConfirm));
    vm.(data := d, prefs := if TouchesBasic(u) then PM.SaveRegistrationData(vm.prefs, Basic(d)) else vm.prefs)
  }

  /** Passwords never reach the store: whatever is updated, only the four
      `reg_*` keys can change, and a fresh view model built from the store
      recovers the basic fields of any draft that was saved. */
  lemma DraftSurvivesRestart(vm: AuthVm, u: DraftUpdate)
    requires TouchesBasic(u)
    ensures var r := UpdateRegistrationData(vm, u);
            PM.SameOutside(r.prefs, vm.prefs, PM.RegistrationKeys) &&
            Basic(Init(r.prefs).data) == Basic(r.data) &&
            Init(r.prefs).data.password == ""
  {
  }

  /** `split("/")` into exactly three parts `a/b/c` becomes `c-b-a`; any
      other value is passed through. */
  function ConvertBirthDate(s: string): (r: string)
    ensures |Seqs.Split(s, '/')| != 3 ==> r == s
  {
    var parts := Seqs.Split(s, '/');
    if |parts| == 3 then parts[2] + "-" + parts[1] + "-" + parts[0] else s
  }

  lemma {:induction false} ConvertReordersThreeParts(a: string, b: string, c: string)
    requires '/' !in a && '/' !in b && '/' !in c
    ensures ConvertBirthDate(a + "/" + b + "/" + c) == c + "-" + b + "-" + a
  {
    Seqs.SplitThree(a, b, c, '/');
  }

  /** A value without exactly two slashes is sent as typed. */
  lemma {:induction false} ConvertKeepsOtherShapes(s: string)
    requires Seqs.Occurrences(s, '/') != 2
    ensures ConvertBirthDate(s) == s
  {
    Seqs.SplitLength(s, '/');
  }

  predicate AnyBlank(d: RegistrationData) {
    IsBlank(d.email) || IsBlank(d.fullName) || IsBlank(d.birthDate) ||
    IsBlank(d.identityType) || IsBlank(d.password) || IsBlank(d.passwordConfirm)
  }

  /** The draft `register` works on: stored basic fields replace the
      in-memory ones (a missing key reads as "" and still wins). */
  function Merged(vm: AuthVm): (r: RegistrationData)
    ensures Basic(r) == PM.GetRegistrationData(vm.prefs)
    ensures r.password == vm.data.password && r.passwordConfirm == vm.data.passwordConfirm
  {
    var saved := PM.GetRegistrationData(vm.prefs);
    vm.data.(email := saved.email, fullName := saved.fullName, birthDate := saved.birthDate, identityType := saved.identityType)
  }

  /** The use-case arguments built from a merged draft. */
  function RequestArgs(d: RegistrationData): (r: UC.RegisterArgs)
    ensures r.email == d.email && r.fullName == d.fullName && r.identityType == d.identityType
    ensures r.password == d.password && r.passwordConfirm == d.passwordConfirm
    ensures r.birthDate == ConvertBirthDate(d.birthDate)
  {
    UC.RegisterArgs(d.email, d.fullName, ConvertBirthDate(d.birthDate), d.identityType, d.password, d.passwordConfirm)
  }

  /** One `register` run: the successive register states, the arguments the
      use case was called with (None if it was not), and the final view model. */
  datatype RegisterRun = RegisterRun(states: seq<Resource<string>>, called: Option<UC.RegisterArgs>, vm: AuthVm)

  /** `register`: the blank check on the merged draft, then the use case on
      the request arguments; `repository` is what the repository's
      `register` returns for them. Only a Success clears the draft. */
  function Register(vm: AuthVm, repository: Resource<string>): (r: RegisterRun)
    ensures AnyBlank(Merged(vm)) ==>
              r.called == None && r.states == [Error("All fields must be filled")] &&
              r.vm == vm.(registerState := Some(Error("All fields must be filled")))
    ensures !AnyBlank(Merged(vm)) ==>
              r.called == Some(RequestArgs(Merged(vm))) && |r.states| == 2 && r.states[0] == Loading &&
              r.vm.registerState == Some(r.states[1]) && r.vm.loginState == vm.loginState
    ensures !AnyBlank(Merged(vm)) && UC.Decide(RequestArgs(Merged(vm))).Reject? ==>
              r.states[1] == Error(UC.Decide(RequestArgs(Merged(vm))).message)
    ensures !AnyBlank(Merged(vm)) && UC.Decide(RequestArgs(Merged(vm))).Delegate? ==>
              r.states[1] == repository
    ensures r.vm.registerState.Some? && r.vm.registerState.value.Success? ==>
              r.vm.data == EmptyDraft && r.vm.prefs == PM.ClearRegistrationData(vm.prefs)
    ensures !(r.vm.registerState.Some? && r.vm.registerState.value.Success?) ==>
              r.vm.data == vm.data && r.vm.prefs == vm.prefs
  {
    var d := Merged(vm);
    if AnyBlank(d) then
      RegisterRun([Error("All fields must be filled")], None, vm.(registerState := Some(Error("All fields must be filled"))))
    else
      var result := UC.Invoke(RequestArgs(d), repository);
      var after := vm.(registerState := Some(result));
      RegisterRun([Loading, result], Some(RequestArgs(d)), if result.Success? then ClearRegistrationData(after) else after)
  }

  /** The conversion never makes a field blank, so the use case's own blank
      check cannot fire on what `register` sends it. */
  lemma ConvertKeepsNonBlank(s: string)
    requires !IsBlank(s)
    ensures !IsBlank(ConvertBirthDate(s))
  {
    var parts := Seqs.Split(s, '/');
    if |parts| == 3 {
      var r := parts[2] + "-" + parts[1] + "-" + parts[0];
      assert r[|parts[2]|] == '-';
    }
  }

  lemma UseCaseSeesNoBlankField(vm: AuthVm, repository: Resource<string>)
    ensures var run := Register(vm, repository);
            run.called.Some? ==> !UC.AnyBlank(run.called.value)
  {
    if !AnyBlank(Merged(vm)) {
      ConvertKeepsNonBlank(Merged(vm).birthDate);
    }
  }

  /** The login states in order, the view model after them, and the
      arguments the repository's `login` received, if it was called. */
  datatype LoginRun = LoginRun(states: seq<Resource<string>>, vm: AuthVm, called: Option<(string, string)>)

  /** `login`: the use case runs on the two arguments as given; `repository`
      is what the repository's `login` returns for them. */
  function Login(vm: AuthVm, email: string, password: string, repository: Resource<string>): (r: LoginRun)
    ensures |r.states| == 2 && r.states[0] == Loading
    ensures r.called.Some? <==> !IsBlank(email) && !IsBlank(password)
    ensures r.called.Some? ==> r.called.value == (email, password) && r.states[1] == repository
    ensures r.called.None? ==> r.states[1] == Error(LUC.EmptyMessage)
    ensures r.vm == vm.(loginState := Some(r.states[1]))
  {
    var result := LUC.Invoke(email, password, repository);
    var called := match LUC.Decide(email, password)
      case Delegate(e, p) => Some((e, p))
      case Reject(_) => None;
    LoginRun([Loading, result], vm.(loginState := Some(result)), called)
  }

  function ResetLoginState(vm: AuthVm): (r: AuthVm)
    ensures r.loginState == None && r == vm.(loginState := None)
  {
    vm.(loginState := None)
  }

  function ResetRegisterState(vm: AuthVm): (r: AuthVm)
    ensures r.registerState == None && r == vm.(registerState := None)
  {
    vm.(registerState := None)
  }

  function ClearRegistrationData(vm: AuthVm): (r: AuthVm)
    ensures r.data == EmptyDraft
    ensures r.prefs == PM.ClearRegistrationData(vm.prefs)
    ensures r.loginState == vm.loginState && r.registerState == vm.registerState
  {
    vm.(data := EmptyDraft, prefs := PM.ClearRegistrationData(vm.prefs))
  }

  /** After a successful registration, a restarted view model finds no draft. */
  lemma SuccessLeavesNoDraft(vm: AuthVm, repository: Resource<string>)
    ensures var run := Register(vm, repository);
            run.vm.registerState.Some? && run.vm.registerState.value.Success? ==> Init(run.vm.prefs).data == EmptyDraft
  {
  }
}

=== FILE: ChangePasswordScreen.dfy ===
/** The change-password screen: its requirement checklist, error clearing on
    edit and the Save button. */
module ChangePasswordScreen {
  import opened Wrappers
  import opened Chars
  import SVM = SecurityViewModel

  datatype Requirement = Requirement(text: string, met: bool)

  /** The checklist, in display order. */
  function Requirements(p: string): (r: seq<Requirement>)
    ensures |r| == 5
    ensures r[0] == Requirement("Minimal 8 karakter", |p| >= 8)
    ensures r[1] == Requirement("Karakter huruf kecil", HasLower(p))
    ensures r[2] == Requirement("Karakter angka", HasDigit(p))
    ensures r[3] == Requirement("Karakter unik (!@#$)", HasCharIn(p, SVM.SpecialChars))
    ensures r[4] == Requirement("Karakter huruf besar", HasUpper(p))
  {
    [Requirement("Minimal 8 karakter", |p| >= 8),
     Requirement("Karakter huruf kecil", HasLower(p)),
     Requirement("Karakter angka", HasDigit(p)),
     Requirement("Karakter unik (!@#$)", HasCharIn(p, SVM.SpecialChars)),
     Requirement("Karakter huruf besar", HasUpper(p))]
  }

  predicate AllMet(rs: seq<Requirement>) { forall i :: 0 <= i < |rs| ==> rs[i].met }

  /** The checklist shows all five as met exactly when the view model would
      accept the password. */
  lemma ChecklistMatchesViewModel(p: string)
    ensures AllMet(Requirements(p)) <==> SVM.IsPasswordValid(p)
  {
    var rs := Requirements(p);
    if SVM.IsPasswordValid(p) {
      forall i | 0 <= i < 5 ensures rs[i].met { }
    } else {
      assert !rs[0].met || !rs[1].met || !rs[2].met || !rs[3].met || !rs[4].met;
    }
  }

  datatype ScreenState = ScreenState(password: string, confirmPassword: string, showError: Option<string>)

  function OnPasswordChange(s: ScreenState, v: string): (r: ScreenState)
    ensures r.password == v && r.confirmPassword == s.confirmPassword && r.showError == None
  {
    s.(password := v, showError := None)
  }

  function OnConfirmChange(s: ScreenState, v: string): (r: ScreenState)
    ensures r.confirmPassword == v && r.password == s.password && r.showError == None
  {
    s.(confirmPassword := v, showError := None)
  }

  /** Only `ShowError` changes the screen; the other events are handled elsewhere. */
  function OnUiEvent(s: ScreenState, e: SVM.UiEvent): (r: ScreenState)
    ensures e.ShowError? ==> r == s.(showError := Some(e.message))
    ensures !e.ShowError? ==> r == s
  {
    match e
    case ShowError(m) => s.(showError := Some(m))
    case _ => s
  }

  predicate SaveEnabled(s: ScreenState, isLoading: bool) {
    |s.password| > 0 && |s.confirmPassword| > 0 && !isLoading
  }

  /** A click on Save; a disabled button sends nothing. */
  function OnSave(s: ScreenState, isLoading: bool): (r: Option<SVM.SecurityEvent>)
    ensures r.Some? <==> |s.password| > 0 && |s.confirmPassword| > 0 && !isLoading
    ensures r.Some? ==> r.value == SVM.ChangePassword(s.password, s.confirmPassword)
  {
    if SaveEnabled(s, isLoading) then Some(SVM.ChangePassword(s.password, s.confirmPassword)) else None
  }

  /** An error shown by the view model disappears at the next keystroke in
      either field. */
  lemma EditClearsShownError(s: ScreenState, m: string, v: string)
    ensures OnPasswordChange(OnUiEvent(s, SVM.ShowError(m)), v).showError == None
    ensures OnConfirmChange(OnUiEvent(s, SVM.ShowError(m)), v).showError == None
  {
  }
}

=== FILE: Chars.dfy ===
/** Character classes and string helpers, restricted to ASCII. Kotlin's
    `isLowerCase`/`isUpperCase`/`isDigit`/`isLetterOrDigit`/`isWhitespace` and
    Python's `[a-z]`/`[A-Z]`/`\d` agree with these on ASCII input. */
module Chars {

  predicate IsLower(c: char) { 'a' <= c <= 'z' }
  predicate IsUpper(c: char) { 'A' <= c <= 'Z' }
  predicate IsDigit(c: char) { '0' <= c <= '9' }
  predicate IsLetterOrDigit(c: char) { IsLower(c) || IsUpper(c) || IsDigit(c) }

  /** Kotlin's `Char.isWhitespace` on ASCII: tab through carriage return, the
      four separators U+001C..U+001F, and space. */
  predicate IsWhitespace(c: char) { c == ' ' || '\t' <= c <= '\r' || '\U{1C}' <= c <= '\U{1F}' }

  predicate IsAscii(s: string) { forall i :: 0 <= i < |s| ==> s[i] < '\U{80}' }

  /** Kotlin's `isBlank`: empty or whitespace only. */
  predicate IsBlank(s: string) { forall i :: 0 <= i < |s| ==> IsWhitespace(s[i]) }

  predicate HasLower(s: string) { exists i :: 0 <= i < |s| && IsLower(s[i]) }
  predicate HasUpper(s: string) { exists i :: 0 <= i < |s| && IsUpper(s[i]) }
  predicate HasDigit(s: string) { exists i :: 0 <= i < |s| && IsDigit(s[i]) }
  predicate HasNonLetterOrDigit(s: string) { exists i :: 0 <= i < |s| && !IsLetterOrDigit(s[i]) }

  /** Some character of `s` occurs in `set`. */
  predicate HasCharIn(s: string, chars: string) { exists i :: 0 <= i < |s| && s[i] in chars }

  function LowerChar(c: char): (r: char)
    ensures IsUpper(c) ==> IsLower(r)
    ensures !IsUpper(c) ==> r == c
  {
    if IsUpper(c) then (c as int + 32) as char else c
  }

  /** `lowercase()` / `str.lower()` on ASCII. */
  function ToLower(s: string): (r: string)
    ensures |r| == |s|
    ensures forall i :: 0 <= i < |s| ==> r[i] == LowerChar(s[i])
  {
    seq(|s|, i requires 0 <= i < |s| => LowerChar(s[i]))
  }

  /** Lower-casing twice is lower-casing once. */
  lemma ToLowerIsIdempotent(s: string)
    ensures ToLower(ToLower(s)) == ToLower(s)
  {
  }

  /** `t` occurs in `s` as a contiguous block (`s.contains(t)`, `t in s`). */
  predicate Contains(s: string, t: string) {
    exists i :: 0 <= i <= |s| && OccursAt(s, t, i)
  }

  predicate OccursAt(s: string, t: string, i: int) {
    0 <= i && i + |t| <= |s| && s[i..i + |t|] == t
  }

  lemma ContainsEmpty(s: string)
    ensures Contains(s, "")
  {
    assert OccursAt(s, "", 0);
  }

  /** Case-insensitive substring test, as `lowercase().contains(q.lowercase())`. */
  predicate ContainsIgnoreCase(s: string, t: string) { Contains(ToLower(s), ToLower(t)) }
}

=== FILE: ClientModels.dfy ===
/** The client's response and domain records (`UserResponse`, `User`,
    `TranslatorResponse`, `TranslationOrderResponse`, `ForumResponse`).
    Order and forum records keep only the fields the client logic reads or
    that identify a row; timestamps, nested users and counters are dropped. */
module ClientModels {
  import opened Wrappers

  datatype UserResponse = UserResponse(
    id: int, email: string, fullName: string, birthDate: string, identityType: string,
    institution: Option<string>, profilePictureUrl: Option<string>, points: int)

  datatype User = User(
    id: int, email: string, fullName: string, birthDate: string, identityType: string,
    institution: Option<string>, profilePictureUrl: Option<string>, points: int)

  datatype TranslatorResponse = TranslatorResponse(
    name: string, alamat: string, availability: bool, profilePic: Option<string>, id: int, userId: int)

  datatype TranslatorListResponse = TranslatorListResponse(items: seq<TranslatorResponse>, total: int)

  datatype TranslationOrderResponse = TranslationOrderResponse(
    id: int, tanggal: string, timeSlot: string, description: string, status: string, userId: int)

  datatype TranslationOrderListResponse = TranslationOrderListResponse(items: seq<TranslationOrderResponse>, total: int)

  datatype ForumResponse = ForumResponse(id: int, content: string, title: string, topic: string, userId: int)

  datatype AuthResponse = AuthResponse(accessToken: string, tokenType: string)
}

=== FILE: CrossChecks.dfy ===
/** Properties that relate the client's checks to the server's: what the
    registration screens hand to the backend, and whether the two sides'
    password policies agree. */
module CrossChecks {
  import opened Wrappers
  import opened Chars
  import RegisterScreen
  import AuthViewModel
  import SecurityViewModel
  import RegisterUseCase
  import UserSchemas

  /** A birth date typed as digits is shown as `DD/MM/YYYY` and sent as
      `YYYY-MM-DD` (eight digits `ddmmyyyy` arrive as `yyyy-mm-dd`): the
      formatter's slashes are exactly where the converter splits. */
  lemma BirthDateReachesServerInIsoOrder(input: string)
    requires |RegisterScreen.Digits(input)| >= 6
    ensures var d := RegisterScreen.Digits(input);
            AuthViewModel.ConvertBirthDate(RegisterScreen.Format(input)) == d[4..] + "-" + d[2..4] + "-" + d[..2]
  {
    var d := RegisterScreen.Digits(input);
    assert forall c :: c in d ==> IsDigit(c);
    assert '/' !in d[..2] && '/' !in d[2..4] && '/' !in d[4..] by {
      forall c | c in d[..2] || c in d[2..4] || c in d[4..] ensures c != '/' {
        assert c in d;
      }
    }
    AuthViewModel.ConvertReordersThreeParts(d[..2], d[2..4], d[4..]);
  }

  lemma SpecialIsServerSpecial(c: char)
    requires c in SecurityViewModel.SpecialChars
    ensures c in UserSchemas.ServerSpecials
  {
    assert c == '!' || c == '@' || c == '#' || c == '$';
  }

  /** A new password the change-password screen accepts also passes the
      server's schema. */
  lemma ChangePolicyImpliesServerPolicy(p: string)
    requires SecurityViewModel.IsPasswordValid(p)
    ensures UserSchemas.ServerPolicy(p)
    ensures UserSchemas.CheckPassword(p).None?
  {
    var i :| 0 <= i < |p| && p[i] in SecurityViewModel.SpecialChars;
    SpecialIsServerSpecial(p[i]);
  }

  /** The converse fails: the server also accepts specials the client does
      not list, so the client is the stricter side. */
  lemma ServerAcceptsMoreThanChangeScreen()
    ensures UserSchemas.ServerPolicy("Abcdefg1%")
    ensures !SecurityViewModel.IsPasswordValid("Abcdefg1%")
  {
    var p := "Abcdefg1%";
    assert IsLower(p[1]) && IsUpper(p[0]) && IsDigit(p[7]);
    assert p[8] in UserSchemas.ServerSpecials;
    assert forall i :: 0 <= i < |p| ==> p[i] !in SecurityViewModel.SpecialChars;
  }

  lemma ServerSpecialIsNotLetterOrDigit(c: char)
    requires c in UserSchemas.ServerSpecials
    ensures !IsLetterOrDigit(c)
  {
  }

  /** Every password the server accepts passes the registration use case's
      policy ... */
  lemma ServerPolicyImpliesRegistrationPolicy(p: string)
    requires UserSchemas.ServerPolicy(p)
    ensures RegisterUseCase.MeetsPolicy(p)
  {
    var i :| 0 <= i < |p| && p[i] in UserSchemas.ServerSpecials;
    ServerSpecialIsNotLetterOrDigit(p[i]);
  }

  /** ... but not conversely: an underscore counts as special on the client,
      and the server then refuses the signup for lacking a special. */
  lemma RegistrationPolicyIsLooser()
    ensures RegisterUseCase.MeetsPolicy("Abcd1234_")
    ensures UserSchemas.CheckPassword("Abcd1234_") == Some(UserSchemas.NoSpecial)
  {
    var p := "Abcd1234_";
    assert IsLower(p[1]) && IsUpper(p[0]) && IsDigit(p[4]) && !IsLetterOrDigit(p[8]);
    assert forall i :: 0 <= i < |p| ==> p[i] !in UserSchemas.ServerSpecials;
  }
}

=== FILE: EditProfileViewModel.dfy ===
/** The edit-profile view model: the form state, dirty tracking against the
    profile snapshot in the preference store, loading and saving. Dates are
    kept as their `yyyy-MM-dd` text. */
module EditProfileViewModel {
  import opened Wrappers
  import opened Chars
  import opened ClientModels
  import PM = PreferenceManager

  datatype IdentityType = Tuli | Dengar

  /** `identity_type == "tuli"` gives TULI; anything else gives DENGAR. */
  function IdentityOf(s: string): (r: IdentityType)
    ensures r == Tuli <==> s == "tuli"
  {
    if s == "tuli" then Tuli else Dengar
  }

  /** `name.lowercase()`. */
  function IdentityName(t: IdentityType): (r: string)
    ensures r == "tuli" || r == "dengar"
  {
    match t
    case Tuli => "tuli"
    case Dengar => "dengar"
  }

  /** Both values survive a save and a reload; other texts do not. */
  lemma IdentityRoundTrip(t: IdentityType, s: string)
    ensures IdentityOf(IdentityName(t)) == t
    ensures IdentityName(IdentityOf(s)) == s <==> s == "tuli" || s == "dengar"
  {
  }

  datatype EditState = EditState(
    fullName: string, email: string, birthDate: Option<string>, identityType: IdentityType,
    institution: string, profilePictureUrl: Option<string>,
    isLoading: bool, error: Option<string>, isFormValid: bool, updateSuccess: bool, hasUnsavedChanges: bool)

  const InitialState := EditState("", "", None, Tuli, "", None, false, None, false, false, false)

  datatype EditVm = EditVm(ui: EditState, prefs: PM.Prefs)

  /** The form as it would be written to the snapshot. */
  function Snapshot(s: EditState): PM.ProfileFields {
    PM.ProfileFields(s.fullName, s.birthDate.GetOr(""), IdentityName(s.identityType), s.institution, s.profilePictureUrl)
  }

  /** `checkForChanges`; the email is not compared. */
  function CheckForChanges(s: EditState, prefs: PM.Prefs): (r: bool)
    ensures r <==> Snapshot(s) != PM.GetProfileData(prefs)
  {
    var saved := PM.GetProfileData(prefs);
    s.fullName != saved.fullName || s.birthDate.GetOr("") != saved.birthDate ||
    IdentityName(s.identityType) != saved.identityType || s.institution != saved.institution ||
    s.profilePictureUrl != saved.profilePictureUrl
  }

  function Refresh(vm: EditVm, s: EditState): EditVm {
    EditVm(s.(hasUnsavedChanges := CheckForChanges(s, vm.prefs)), vm.prefs)
  }

  function UpdateFullName(vm: EditVm, v: string): (r: EditVm)
    ensures r.prefs == vm.prefs
    ensures r.ui == vm.ui.(fullName := v, isFormValid := r.ui.isFormValid, hasUnsavedChanges := r.ui.hasUnsavedChanges)
    ensures r.ui.isFormValid <==> !IsBlank(v) && vm.ui.birthDate.Some?
    ensures r.ui.hasUnsavedChanges <==> Snapshot(r.ui) != PM.GetProfileData(vm.prefs)
  {
    Refresh(vm, vm.ui.(fullName := v, isFormValid := !IsBlank(v) && vm.ui.birthDate.Some?))
  }

  function UpdateEmail(vm: EditVm, v: string): (r: EditVm)
    ensures r.prefs == vm.prefs
    ensures r.ui == vm.ui.(email := v, hasUnsavedChanges := r.ui.hasUnsavedChanges)
    ensures r.ui.hasUnsavedChanges <==> Snapshot(vm.ui) != PM.GetProfileData(vm.prefs)
  {
    Refresh(vm, vm.ui.(email := v))
  }

  /** `date` is the picked date's `yyyy-MM-dd` text. */
  function UpdateBirthDate(vm: EditVm, date: string): (r: EditVm)
    ensures r.prefs == vm.prefs
    ensures r.ui == vm.ui.(birthDate := Some(date), isFormValid := r.ui.isFormValid, hasUnsavedChanges := r.ui.hasUnsavedChanges)
    ensures r.ui.isFormValid <==> !IsBlank(vm.ui.fullName)
    ensures r.ui.hasUnsavedChanges <==> Snapshot(r.ui) != PM.GetProfileData(vm.prefs)
  {
    Refresh(vm, vm.ui.(birthDate := Some(date), isFormValid := !IsBlank(vm.ui.fullName)))
  }

  function UpdateIdentityType(vm: EditVm, t: IdentityType): (r: EditVm)
    ensures r.prefs == vm.prefs
    ensures r.ui == vm.ui.(identityType := t, hasUnsavedChanges := r.ui.hasUnsavedChanges)
    ensures r.ui.hasUnsavedChanges <==> Snapshot(r.ui) != PM.GetProfileData(vm.prefs)
  {
    Refresh(vm, vm.ui.(identityType := t))
  }

  function UpdateInstitution(vm: EditVm, v: string): (r: EditVm)
    ensures r.prefs == vm.prefs
    ensures r.ui == vm.ui.(institution := v, hasUnsavedChanges := r.ui.hasUnsavedChanges)
    ensures r.ui.hasUnsavedChanges <==> Snapshot(r.ui) != PM.GetProfileData(vm.prefs)
  {
    Refresh(vm, vm.ui.(institution := v))
  }

  function UpdateProfilePicture(vm: EditVm, url: string): (r: EditVm)
    ensures r.prefs == vm.prefs
    ensures r.ui == vm.ui.(profilePictureUrl := Some(url), hasUnsavedChanges := r.ui.hasUnsavedChanges)
    ensures r.ui.hasUnsavedChanges <==> Snapshot(r.ui) != PM.GetProfileData(vm.prefs)
  {
    Refresh(vm, vm.ui.(profilePictureUrl := Some(url)))
  }

  /** Editing a field away from the snapshot and back again leaves no unsaved
      change, whatever the field. */
  lemma EditAndRevertIsClean(vm: EditVm, v: string, w: string)
    requires Snapshot(vm.ui) == PM.GetProfileData(vm.prefs)
    ensures !UpdateFullName(UpdateFullName(vm, v), vm.ui.fullName).ui.hasUnsavedChanges
    ensures !UpdateInstitution(UpdateInstitution(vm, v), vm.ui.institution).ui.hasUnsavedChanges
    ensures !UpdateIdentityType(UpdateIdentityType(vm, Dengar), vm.ui.identityType).ui.hasUnsavedChanges
    ensures vm.ui.birthDate == Some(w) ==> !UpdateBirthDate(UpdateBirthDate(vm, v), w).ui.hasUnsavedChanges
  {
  }

  /** The update request body. */
  function SaveBody(s: EditState): (r: map<string, string>)
    ensures "full_name" in r && r["full_name"] == s.fullName
    ensures "birth_date" in r && r["birth_date"] == s.birthDate.GetOr("")
    ensures "institution" in r && r["institution"] == s.institution
    ensures "profile_picture_url" in r <==> s.profilePictureUrl.Some?
    ensures s.profilePictureUrl.Some? ==> r["profile_picture_url"] == s.profilePictureUrl.value
    ensures r.Keys <= {"full_name", "birth_date", "institution", "profile_picture_url"}
  {
    var body := map["full_name" := s.fullName, "birth_date" := s.birthDate.GetOr(""), "institution" := s.institution];
    match s.profilePictureUrl
    case Some(u) => body["profile_picture_url" := u]
    case None => body
  }

  /** The state right after the operation starts, the state at its end, and
      (for a save) the body sent. */
  datatype Run = Run(started: EditVm, finished: EditVm, body: map<string, string>)

  /** Any 2xx reply counts as success, whatever its body. */
  function SaveChanges(vm: EditVm, call: Call<UserResponse>): (r: Run)
    ensures r.started == EditVm(vm.ui.(isLoading := true), vm.prefs)
    ensures r.body == SaveBody(vm.ui)
    ensures !r.finished.ui.isLoading
    ensures call.Ok? ==>
              r.finished.prefs == PM.SaveProfileData(vm.prefs, Snapshot(vm.ui)) &&
              r.finished.ui == vm.ui.(isLoading := false, error := None, updateSuccess := true, hasUnsavedChanges := false)
    ensures call.Fail? ==>
              r.finished.prefs == vm.prefs &&
              r.finished.ui == vm.ui.(isLoading := false, error := Some("Failed to update profile"), updateSuccess := false)
    ensures call.Exn? ==>
              r.finished.prefs == vm.prefs &&
              r.finished.ui == vm.ui.(isLoading := false, error := call.error, updateSuccess := false)
  {
    var started := EditVm(vm.ui.(isLoading := true), vm.prefs);
    var s := started.ui;
    var finished := match call
      case Ok(_) => EditVm(s.(isLoading := false, error := None, updateSuccess := true, hasUnsavedChanges := false),
                           PM.SaveProfileData(vm.prefs, Snapshot(s)))
      case Fail(_, _) => EditVm(s.(isLoading := false, error := Some("Failed to update profile"), updateSuccess := false), vm.prefs)
      case Exn(e) => EditVm(s.(isLoading := false, error := e, updateSuccess := false), vm.prefs);
    Run(started, finished, SaveBody(vm.ui))
  }

  /** After a successful save the flag is right: the form equals the new
      snapshot, so no change is pending and a later no-op edit finds none. */
  lemma SaveMakesSnapshotCurrent(vm: EditVm, u: Option<UserResponse>)
    ensures var f := SaveChanges(vm, Ok(u)).finished;
            !CheckForChanges(f.ui, f.prefs) && !UpdateEmail(f, vm.ui.email).ui.hasUnsavedChanges
  {
  }

  /** The snapshot a loaded profile is saved as. */
  function LoadedSnapshot(u: UserResponse): PM.ProfileFields {
    PM.ProfileFields(u.fullName, u.birthDate, u.identityType, u.institution.GetOr(""), u.profilePictureUrl)
  }

  function Loaded(s: EditState, u: UserResponse): EditState {
    s.(fullName := u.fullName, email := u.email, birthDate := Some(u.birthDate),
       identityType := IdentityOf(u.identityType), institution := u.institution.GetOr(""),
       profilePictureUrl := u.profilePictureUrl, isLoading := false, isFormValid := true, hasUnsavedChanges := false)
  }

  /** `loadUserProfile` as written: a 2xx reply without a body changes
      nothing after the start, so `isLoading` stays true. */
  function LoadUserProfileAsWritten(vm: EditVm, call: Call<UserResponse>): (r: Run)
    ensures r.started == EditVm(vm.ui.(isLoading := true), vm.prefs)
    ensures call.Ok? && call.body.None? ==> r.finished == r.started
    ensures !(call.Ok? && call.body.None?) ==> r.finished == LoadUserProfile(vm, call).finished
  {
    var started := EditVm(vm.ui.(isLoading := true), vm.prefs);
    match call
    case Ok(None) => Run(started, started, map[])
    case _ => LoadUserProfile(vm, call)
  }

  /** An empty 2xx reply leaves the spinner on for good. */
  lemma EmptyBodyLeavesSpinnerOn(vm: EditVm)
    ensures LoadUserProfileAsWritten(vm, Ok(None)).finished.ui.isLoading
  {
  }

  /** `loadUserProfile` with the loading flag also cleared on an empty 2xx
      reply, as every other outcome clears it. */
  function LoadUserProfile(vm: EditVm, call: Call<UserResponse>): (r: Run)
    ensures r.started == EditVm(vm.ui.(isLoading := true), vm.prefs)
    ensures !r.finished.ui.isLoading
    ensures call.Ok? && call.body.Some? ==>
              r.finished.prefs == PM.SaveProfileData(vm.prefs, LoadedSnapshot(call.body.value)) &&
              r.finished.ui == Loaded(vm.ui, call.body.value)
    ensures call.Ok? && call.body.None? ==> r.finished == EditVm(vm.ui.(isLoading := false), vm.prefs)
    ensures call.Fail? ==> r.finished == EditVm(vm.ui.(error := Some("Failed to load profile"), isLoading := false), vm.prefs)
    ensures call.Exn? ==> r.finished == EditVm(vm.ui.(error := call.error, isLoading := false), vm.prefs)
  {
    var started := EditVm(vm.ui.(isLoading := true), vm.prefs);
    var s := started.ui;
    var finished := match call
      case Ok(Some(u)) => EditVm(Loaded(s, u), PM.SaveProfileData(vm.prefs, LoadedSnapshot(u)))
      case Ok(None) => EditVm(s.(isLoading := false), vm.prefs)
      case Fail(_, _) => EditVm(s.(error := Some("Failed to load profile"), isLoading := false), vm.prefs)
      case Exn(e) => EditVm(s.(error := e, isLoading := false), vm.prefs);
    Run(started, finished, map[])
  }

  /** A loaded profile whose identity is one of the two known values leaves
      the form equal to the snapshot, so `hasUnsavedChanges = false` is the
      truth; with any other identity text the first edit, even a no-op one,
      reports a change. */
  lemma LoadIsCleanIffKnownIdentity(vm: EditVm, u: UserResponse)
    ensures var f := LoadUserProfile(vm, Ok(Some(u))).finished;
            (!UpdateEmail(f, u.email).ui.hasUnsavedChanges <==> u.identityType == "tuli" || u.identityType == "dengar")
  {
    var f := LoadUserProfile(vm, Ok(Some(u))).finished;
    assert Snapshot(f.ui).identityType == IdentityName(IdentityOf(u.identityType));
    assert PM.GetProfileData(f.prefs) == LoadedSnapshot(u);
  }

  function OnCleared(vm: EditVm): (r: EditVm)
    ensures r.ui == vm.ui && r.prefs == PM.ClearProfileData(vm.prefs)
    ensures PM.GetProfileData(r.prefs) == PM.NoProfile
  {
    EditVm(vm.ui, PM.ClearProfileData(vm.prefs))
  }
}

=== FILE: FeedbackRepository.dfy ===
/** The server's feedback repository over one feedback table; the system
    and dosen tables are two values of the same shape. */
module FeedbackRepository {
  import opened Wrappers
  import opened Seqs
  import opened FeedbackSchemas

  datatype FeedbackRow = FeedbackRow(id: int, userId: int, rating: int, description: Option<string>)

  /** The rows in query order and the id the database hands out next. */
  datatype FeedbackTable = FeedbackTable(rows: seq<FeedbackRow>, nextId: int)

  /** Ids are unique and below `nextId`. */
  predicate WellFormed(t: FeedbackTable) {
    (forall i, j :: 0 <= i < j < |t.rows| ==> t.rows[i].id != t.rows[j].id) &&
    (forall i :: 0 <= i < |t.rows| ==> t.rows[i].id < t.nextId)
  }

  predicate ById(f: FeedbackRow, id: int) { f.id == id }
  predicate ByUser(f: FeedbackRow, userId: int) { f.userId == userId }

  predicate HasId(t: FeedbackTable, id: int) { exists i :: 0 <= i < |t.rows| && t.rows[i].id == id }

  /** `get_feedback_by_user` / `get_feedback_dosen_by_user`. */
  function GetByUser(t: FeedbackTable, userId: int): (r: Option<FeedbackRow>)
    ensures r.Some? <==> exists i :: 0 <= i < |t.rows| && t.rows[i].userId == userId
    ensures r.Some? ==> r.value in t.rows && r.value.userId == userId
  {
    match FindFirst(t.rows, f => ByUser(f, userId))
    case None => None
    case Some(i) => Some(t.rows[i])
  }

  /** `get_feedback` / `get_feedback_dosen`. */
  function Get(t: FeedbackTable, id: int): (r: Option<FeedbackRow>)
    ensures r.Some? <==> HasId(t, id)
    ensures r.Some? ==> r.value in t.rows && r.value.id == id
  {
    match FindFirst(t.rows, f => ById(f, id))
    case None => None
    case Some(i) => Some(t.rows[i])
  }

  /** `create_feedback` / `create_feedback_dosen`: stores exactly the given
      user, rating and description under a fresh id. */
  function Create(t: FeedbackTable, userId: int, data: FeedbackCreate): (r: (FeedbackTable, FeedbackRow))
    ensures r.1 == FeedbackRow(t.nextId, userId, data.rating, data.description)
    ensures r.0 == FeedbackTable(t.rows + [r.1], t.nextId + 1)
    ensures WellFormed(t) ==> WellFormed(r.0) && !HasId(t, r.1.id) && Get(r.0, r.1.id) == Some(r.1)
  {
    var row := FeedbackRow(t.nextId, userId, data.rating, data.description);
    var t' := FeedbackTable(t.rows + [row], t.nextId + 1);
    if WellFormed(t) then
      assert forall i :: 0 <= i < |t.rows| ==> t'.rows[i] == t.rows[i];
      assert t'.rows[|t.rows|] == row;
      (t', row)
    else (t', row)
  }

  /** `update_feedback` / `update_feedback_dosen`: overwrites rating and
      description of the row with that id; a missing id gives None and no
      change. */
  function Update(t: FeedbackTable, id: int, data: FeedbackUpdate): (r: (FeedbackTable, Option<FeedbackRow>))
    ensures r.1.None? <==> !HasId(t, id)
    ensures r.1.None? ==> r.0 == t
    ensures r.1.Some? ==> r.1 == Some(Get(t, id).value.(rating := data.rating, description := data.description))
    ensures r.0.nextId == t.nextId && |r.0.rows| == |t.rows|
    ensures forall i :: 0 <= i < |t.rows| && t.rows[i].id != id ==> r.0.rows[i] == t.rows[i]
    ensures forall i :: 0 <= i < |t.rows| ==> r.0.rows[i].id == t.rows[i].id && r.0.rows[i].userId == t.rows[i].userId
    ensures r.1.Some? ==> r.1.value in r.0.rows
  {
    match FindFirst(t.rows, f => ById(f, id))
    case None => (t, None)
    case Some(i) =>
      var row := t.rows[i].(rating := data.rating, description := data.description);
      (t.(rows := t.rows[i := row]), Some(row))
  }

  /** `get_all_feedback` / `get_all_feedback_dosen`: one page of rows and the
      number of all rows. `skip` and `limit` reach `OFFSET` and `LIMIT`
      unchecked; PostgreSQL refuses a negative value, and the error
      surfaces as a 500. */
  function GetAll(t: FeedbackTable, skip: int, limit: int): (r: Reply<(seq<FeedbackRow>, nat)>)
    ensures r.Raise? <==> skip < 0 || limit < 0
    ensures r.Raise? ==> r == Raise(500, InternalServerError)
    ensures r.Done? ==> r.value.1 == |t.rows|
    ensures r.Done? ==> |r.value.0| <= limit
    ensures r.Done? ==> |r.value.0| == Seqs.Min(limit, |t.rows| - Seqs.Min(skip, |t.rows|))
    ensures r.Done? ==> forall i :: 0 <= i < |r.value.0| ==> skip + i < |t.rows| && r.value.0[i] == t.rows[skip + i]
  {
    if skip < 0 || limit < 0 then Raise(500, InternalServerError)
    else Done((Page(t.rows, skip, limit), |t.rows|))
  }

  /** `delete_feedback` / `delete_feedback_dosen`: True iff the row existed. */
  function Delete(t: FeedbackTable, id: int): (r: (FeedbackTable, bool))
    ensures r.1 <==> HasId(t, id)
    ensures !r.1 ==> r.0 == t
    ensures r.0.nextId == t.nextId
    ensures forall x :: x in r.0.rows ==> x in t.rows
    ensures r.1 ==> |r.0.rows| == |t.rows| - 1
  {
    match FindFirst(t.rows, f => ById(f, id))
    case None => (t, false)
    case Some(i) =>
      RemoveAtKeepsOthers(t.rows, i);
      (t.(rows := RemoveAt(t.rows, i)), true)
  }

  /** With unique ids, a deleted row is gone, every other row stays, and the
      table stays well formed. */
  lemma DeleteRemovesExactlyOne(t: FeedbackTable, id: int)
    requires WellFormed(t)
    ensures !HasId(Delete(t, id).0, id)
    ensures forall x :: x in t.rows && x.id != id ==> x in Delete(t, id).0.rows
    ensures WellFormed(Delete(t, id).0)
  {
    var i := FindFirst(t.rows, f => ById(f, id));
    if i.Some? {
      DeletedRowIsGone(t, id, i.value);
      RemoveAtKeepsOthers(t.rows, i.value);
      forall x | x in t.rows && x.id != id ensures x in Delete(t, id).0.rows {
        var m :| 0 <= m < |t.rows| && t.rows[m] == x;
      }
      RemoveAtKeepsWellFormed(t, i.value);
    }
  }

  lemma DeletedRowIsGone(t: FeedbackTable, id: int, k: nat)
    requires WellFormed(t) && k < |t.rows| && t.rows[k].id == id
    ensures !HasId(FeedbackTable(RemoveAt(t.rows, k), t.nextId), id)
  {
    var rest := RemoveAt(t.rows, k);
    forall j | 0 <= j < |rest| ensures rest[j].id != id {
      if j < k { assert rest[j] == t.rows[j]; } else { assert rest[j] == t.rows[j + 1]; }
    }
  }

  lemma RemoveAtKeepsWellFormed(t: FeedbackTable, k: nat)
    requires WellFormed(t) && k < |t.rows|
    ensures WellFormed(FeedbackTable(RemoveAt(t.rows, k), t.nextId))
  {
    var rest := RemoveAt(t.rows, k);
    forall a | 0 <= a < |rest| ensures rest[a] == t.rows[if a < k then a else a + 1] {
    }
  }
}

=== FILE: FeedbackSchemas.dfy ===
/** The server's feedback request schemas: one shape, shared by the system
    and dosen variants of create and update. */
module FeedbackSchemas {
  import opened Wrappers

  const MinRating := 1
  const MaxRating := 5
  const MaxDescription := 1000

  /** `FeedbackBase`; `FeedbackCreate`, `FeedbackUpdate`, `FeedbackDosenCreate`
      and `FeedbackDosenUpdate` add nothing to it. */
  datatype FeedbackBase = FeedbackBase(rating: int, description: Option<string>)

  type FeedbackCreate = FeedbackBase
  type FeedbackUpdate = FeedbackBase
  type FeedbackDosenCreate = FeedbackBase
  type FeedbackDosenUpdate = FeedbackBase

  datatype FieldError = RatingOutOfRange | DescriptionTooShort | DescriptionTooLong

  /** The field constraints, as a list of violations in field order. */
  function CheckFeedback(f: FeedbackBase): (r: seq<FieldError>)
    ensures RatingOutOfRange in r <==> !(MinRating <= f.rating <= MaxRating)
    ensures DescriptionTooShort in r <==> f.description == Some("")
    ensures DescriptionTooLong in r <==> f.description.Some? && |f.description.value| > MaxDescription
    ensures r == [] <==> ValidFeedback(f)
  {
    (if MinRating <= f.rating <= MaxRating then [] else [RatingOutOfRange]) +
    (match f.description
     case None => []
     case Some(d) =>
       if |d| < 1 then [DescriptionTooShort]
       else if |d| > MaxDescription then [DescriptionTooLong]
       else [])
  }

  /** A rating from 1 to 5 and, when given, a description of 1 to 1000
      characters. */
  predicate ValidFeedback(f: FeedbackBase) {
    MinRating <= f.rating <= MaxRating &&
    (f.description.None? || 1 <= |f.description.value| <= MaxDescription)
  }
}

=== FILE: FeedbackService.dfy ===
/** The server's feedback service: one feedback per user in each of the
    system and dosen tables, changes by an admin or the owner, and listing
    by admins only. `is_admin` is an attribute of the caller. */
module FeedbackService {
  import opened Wrappers
  import opened FeedbackSchemas
  import opened FeedbackRepository
  import Seqs

  datatype Caller = Caller(id: int, isAdmin: bool)

  datatype Kind = System | Dosen

  datatype FeedbackDb = FeedbackDb(system: FeedbackTable, dosen: FeedbackTable)

  function TableOf(db: FeedbackDb, kind: Kind): FeedbackTable {
    match kind
    case System => db.system
    case Dosen => db.dosen
  }

  function WithTable(db: FeedbackDb, kind: Kind, t: FeedbackTable): (r: FeedbackDb)
    ensures TableOf(r, kind) == t
    ensures forall k :: k != kind ==> TableOf(r, k) == TableOf(db, k)
  {
    match kind
    case System => db.(system := t)
    case Dosen => db.(dosen := t)
  }

  const NotFound := "Feedback not found"
  const NotAuthorizedToUpdate := "Not authorized to update this feedback"
  const NotAuthorizedToDelete := "Not authorized to delete this feedback"
  const AdminsOnly := "Only admins can view all feedback"

  function AlreadySubmitted(kind: Kind): string {
    match kind
    case System => "User has already submitted feedback"
    case Dosen => "User has already submitted feedback for dosen"
  }

  /** No user has two rows in one table. */
  predicate OnePerUser(t: FeedbackTable) {
    forall i, j :: 0 <= i < j < |t.rows| ==> t.rows[i].userId != t.rows[j].userId
  }

  /** `create_feedback` / `create_feedback_dosen`. */
  function Create(db: FeedbackDb, kind: Kind, user: Caller, data: FeedbackCreate): (r: Reply<(FeedbackDb, FeedbackRow)>)
    ensures r.Raise? <==> GetByUser(TableOf(db, kind), user.id).Some?
    ensures r.Raise? ==> r == Raise(400, AlreadySubmitted(kind))
    ensures r.Done? ==> r.value.1 == FeedbackRow(TableOf(db, kind).nextId, user.id, data.rating, data.description)
    ensures r.Done? ==> r.value.0 == WithTable(db, kind, FeedbackRepository.Create(TableOf(db, kind), user.id, data).0)
  {
    var t := TableOf(db, kind);
    if GetByUser(t, user.id).Some? then Raise(400, AlreadySubmitted(kind))
    else
      var (t', row) := FeedbackRepository.Create(t, user.id, data);
      Done((WithTable(db, kind, t'), row))
  }

  /** The admin-or-owner rule, after the row was found. */
  predicate MayChange(user: Caller, f: FeedbackRow) { user.isAdmin || f.userId == user.id }

  /** `update_feedback` / `update_feedback_dosen`: 404 before 403. */
  function Update(db: FeedbackDb, kind: Kind, id: int, user: Caller, data: FeedbackUpdate)
    : (r: Reply<(FeedbackDb, Option<FeedbackRow>)>)
    ensures !HasId(TableOf(db, kind), id) ==> r == Raise(404, NotFound)
    ensures HasId(TableOf(db, kind), id) && !MayChange(user, Get(TableOf(db, kind), id).value)
      ==> r == Raise(403, NotAuthorizedToUpdate)
    ensures r.Done? <==> HasId(TableOf(db, kind), id) && MayChange(user, Get(TableOf(db, kind), id).value)
    ensures r.Done? ==> r.value.1.Some? && r.value.1.value.rating == data.rating && r.value.1.value.description == data.description
    ensures r.Done? ==> r.value.0 == WithTable(db, kind, FeedbackRepository.Update(TableOf(db, kind), id, data).0)
  {
    var t := TableOf(db, kind);
    match Get(t, id)
    case None => Raise(404, NotFound)
    case Some(f) =>
      if !MayChange(user, f) then Raise(403, NotAuthorizedToUpdate)
      else
        var (t', row) := FeedbackRepository.Update(t, id, data);
        Done((WithTable(db, kind, t'), row))
  }

  /** `get_all_feedback` / `get_all_feedback_dosen`: admins only. */
  function GetAll(db: FeedbackDb, kind: Kind, user: Caller, skip: int, limit: int): (r: Reply<(seq<FeedbackRow>, nat)>)
    ensures !user.isAdmin ==> r == Raise(403, AdminsOnly)
    ensures user.isAdmin ==> r == FeedbackRepository.GetAll(TableOf(db, kind), skip, limit)
    ensures r.Done? <==> user.isAdmin && skip >= 0 && limit >= 0
    ensures r.Done? ==> r.value.1 == |TableOf(db, kind).rows|
  {
    if !user.isAdmin then Raise(403, AdminsOnly)
    else FeedbackRepository.GetAll(TableOf(db, kind), skip, limit)
  }

  /** `delete_feedback` / `delete_feedback_dosen`: 404 before 403. */
  function Delete(db: FeedbackDb, kind: Kind, id: int, user: Caller): (r: Reply<(FeedbackDb, bool)>)
    ensures !HasId(TableOf(db, kind), id) ==> r == Raise(404, NotFound)
    ensures HasId(TableOf(db, kind), id) && !MayChange(user, Get(TableOf(db, kind), id).value)
      ==> r == Raise(403, NotAuthorizedToDelete)
    ensures r.Done? <==> HasId(TableOf(db, kind), id) && MayChange(user, Get(TableOf(db, kind), id).value)
    ensures r.Done? ==> r.value.1 && r.value.0 == WithTable(db, kind, FeedbackRepository.Delete(TableOf(db, kind), id).0)
  {
    var t := TableOf(db, kind);
    match Get(t, id)
    case None => Raise(404, NotFound)
    case Some(f) =>
      if !MayChange(user, f) then Raise(403, NotAuthorizedToDelete)
      else
        var (t', deleted) := FeedbackRepository.Delete(t, id);
        Done((WithTable(db, kind, t'), deleted))
  }

  /** Creating keeps at most one feedback per user in the table written and
      leaves the other table as it was. */
  lemma {:induction false} CreateKeepsOnePerUser(db: FeedbackDb, kind: Kind, user: Caller, data: FeedbackCreate)
    requires OnePerUser(TableOf(db, kind))
    ensures Create(db, kind, user, data).Done? ==>
      OnePerUser(TableOf(Create(db, kind, user, data).value.0, kind)) &&
      forall k :: k != kind ==> TableOf(Create(db, kind, user, data).value.0, k) == TableOf(db, k)
  {
    var t := TableOf(db, kind);
    if Create(db, kind, user, data).Done? {
      var rows := FeedbackRepository.Create(t, user.id, data).0.rows;
      assert |rows| == |t.rows| + 1 && rows[|t.rows|].userId == user.id;
      forall i, j | 0 <= i < j < |rows| ensures rows[i].userId != rows[j].userId {
        assert rows[i] == t.rows[i];
        if j < |t.rows| { assert rows[j] == t.rows[j]; }
      }
    }
  }

  /** Updating and deleting keep at most one feedback per user as well. */
  lemma {:induction false} ChangesKeepOnePerUser(db: FeedbackDb, kind: Kind, id: int, user: Caller, data: FeedbackUpdate)
    requires OnePerUser(TableOf(db, kind))
    ensures Update(db, kind, id, user, data).Done? ==> OnePerUser(TableOf(Update(db, kind, id, user, data).value.0, kind))
    ensures Delete(db, kind, id, user).Done? ==> OnePerUser(TableOf(Delete(db, kind, id, user).value.0, kind))
  {
    var t := TableOf(db, kind);
    var u := FeedbackRepository.Update(t, id, data).0;
    forall i, j | 0 <= i < j < |u.rows| ensures u.rows[i].userId != u.rows[j].userId {
      assert u.rows[i].userId == t.rows[i].userId && u.rows[j].userId == t.rows[j].userId;
    }
    match Seqs.FindFirst(t.rows, f => ById(f, id)) {
      case None =>
      case Some(k) =>
        var rest := Seqs.RemoveAt(t.rows, k);
        forall a, b | 0 <= a < b < |rest| ensures rest[a].userId != rest[b].userId {
          var a' := if a < k then a else a + 1;
          var b' := if b < k then b else b + 1;
          assert rest[a] == t.rows[a'] && rest[b] == t.rows[b'];
        }
    }
  }

  /** A second create by the same user is refused, whatever the first held. */
  lemma {:induction false} SecondCreateIsRefused(db: FeedbackDb, kind: Kind, user: Caller, d1: FeedbackCreate, d2: FeedbackCreate)
    requires Create(db, kind, user, d1).Done?
    ensures Create(Create(db, kind, user, d1).value.0, kind, user, d2) == Raise(400, AlreadySubmitted(kind))
  {
    var t' := TableOf(Create(db, kind, user, d1).value.0, kind);
    assert t'.rows[|t'.rows| - 1].userId == user.id;
  }
}

=== FILE: ForumRepository.dfy ===
/** The server's forum repository: forums keyed by id, their comments, and
    likes as a set of (forum id, user id) pairs. */
module ForumRepository {
  import opened Wrappers
  import opened Chars
  import Seqs
  import opened Toggles
  import opened ForumSchemas

  datatype Forum = Forum(
    id: int, judul: string, subjudul: Option<string>, topik: string, isi: string, gambarUrl: Option<string>, userId: int)

  datatype ForumComment = ForumComment(id: int, content: string, forumId: int, userId: int)

  datatype ForumDb = ForumDb(forums: map<int, Forum>, comments: seq<ForumComment>, likes: set<(int, int)>, nextCommentId: int)

  const ForumNotFound := "Forum not found"
  const OnlyOwnUpdate := "You can only update your own forums"
  const OnlyOwnDelete := "You can only delete your own forums"

  /** The aggregate row of the statistics query; SQL NULLs are None. */
  datatype ForumStats = ForumStats(forum: Forum, userName: string, likeCount: Option<int>, commentCount: Option<int>, hasLiked: Option<bool>)

  datatype ForumView = ForumView(forum: Forum, userName: string, likeCount: int, commentCount: int, hasLiked: bool, comments: seq<ForumComment>)

  /** `_format_forum_response`: no row gives no response; missing counts
      read as 0 and a missing flag as False; comments start empty. */
  function FormatForum(data: Option<ForumStats>): (r: Option<ForumView>)
    ensures r.None? <==> data.None?
    ensures r.Some? ==> r.value.forum == data.value.forum && r.value.userName == data.value.userName
    ensures r.Some? ==> r.value.likeCount == (if data.value.likeCount.Some? then data.value.likeCount.value else 0)
    ensures r.Some? ==> r.value.commentCount == (if data.value.commentCount.Some? then data.value.commentCount.value else 0)
    ensures r.Some? ==> (r.value.hasLiked <==> data.value.hasLiked == Some(true))
    ensures r.Some? ==> r.value.comments == []
  {
    match data
    case None => None
    case Some(d) => Some(ForumView(d.forum, d.userName, d.likeCount.GetOr(0), d.commentCount.GetOr(0), d.hasLiked.GetOr(false), []))
  }

  /** A non-empty optional filter text; empty text counts as absent. */
  predicate Given(s: Option<string>) { s.Some? && s.value != "" }

  /** The search test on the three text columns; a missing subtitle never
      matches. */
  predicate MatchesSearch(f: Forum, search: string) {
    ContainsIgnoreCase(f.judul, search) ||
    (f.subjudul.Some? && ContainsIgnoreCase(f.subjudul.value, search)) ||
    ContainsIgnoreCase(f.isi, search)
  }

  predicate Kept(f: Forum, filter: Option<ForumFilter>) {
    filter.None? ||
    ((!Given(filter.value.topik) || f.topik == filter.value.topik.value) &&
     (!Given(filter.value.search) || MatchesSearch(f, filter.value.search.value)))
  }

  /** `get_forums`; the query has no order, so the result is a set. */
  function GetForums(db: ForumDb, filter: Option<ForumFilter>): (r: set<Forum>)
    ensures forall f :: f in r <==> f in db.forums.Values && Kept(f, filter)
  {
    set f | f in db.forums.Values && Kept(f, filter)
  }

  /** Without a filter, or with empty filter fields, every forum is listed;
      a topic keeps exactly the forums with that topic. */
  lemma FilterCases(db: ForumDb, topik: string)
    ensures GetForums(db, None) == db.forums.Values
    ensures GetForums(db, Some(ForumFilter(None, None))) == db.forums.Values
    ensures GetForums(db, Some(ForumFilter(Some(""), Some("")))) == db.forums.Values
    ensures topik != "" ==> forall f :: f in GetForums(db, Some(ForumFilter(Some(topik), None))) <==> f in db.forums.Values && f.topik == topik
  {
  }

  /** A search keeps a forum iff one of its texts contains the search text,
      ignoring case, whatever the case of the search text itself. */
  lemma SearchIgnoresCase(db: ForumDb, search: string)
    ensures GetForums(db, Some(ForumFilter(None, Some(search)))) == GetForums(db, Some(ForumFilter(None, Some(ToLower(search)))))
  {
    ToLowerIsIdempotent(search);
  }

  function CommentsOf(comments: seq<ForumComment>, id: int): (r: seq<ForumComment>)
    ensures forall c :: c in r <==> c in comments && c.forumId == id
    decreases |comments|
  {
    if |comments| == 0 then []
    else (if comments[0].forumId == id then [comments[0]] else []) + CommentsOf(comments[1..], id)
  }

  /** `get_forum`: 404 for an unknown id; the forum with its comments. */
  function GetForum(db: ForumDb, id: int): (r: Reply<(Forum, seq<ForumComment>)>)
    ensures r.Raise? <==> id !in db.forums
    ensures r.Raise? ==> r == Raise(404, ForumNotFound)
    ensures r.Done? ==> r.value.0 == db.forums[id] && forall c :: c in r.value.1 <==> c in db.comments && c.forumId == id
  {
    if id !in db.forums then Raise(404, ForumNotFound)
    else Done((db.forums[id], CommentsOf(db.comments, id)))
  }

  /** `update_forum`: owner only; the required fields are replaced, and the
      optional ones only when they were sent (a sent null clears them). */
  function UpdateForum(db: ForumDb, id: int, u: ForumUpdate, userId: int): (r: Reply<(ForumDb, Forum)>)
    ensures id !in db.forums ==> r == Raise(404, ForumNotFound)
    ensures id in db.forums && db.forums[id].userId != userId ==> r == Raise(403, OnlyOwnUpdate)
    ensures r.Done? <==> id in db.forums && db.forums[id].userId == userId
    ensures r.Done? ==> r.value.1.judul == u.judul && r.value.1.topik == u.topik && r.value.1.isi == u.isi
    ensures r.Done? ==> r.value.1.subjudul == (if u.subjudul.Some? then u.subjudul.value else db.forums[id].subjudul)
    ensures r.Done? ==> r.value.1.gambarUrl == (if u.gambarUrl.Some? then u.gambarUrl.value else db.forums[id].gambarUrl)
    ensures r.Done? ==> r.value.1.id == db.forums[id].id && r.value.1.userId == userId
    ensures r.Done? ==> r.value.0 == db.(forums := db.forums[id := r.value.1])
  {
    if id !in db.forums then Raise(404, ForumNotFound)
    else
      var f := db.forums[id];
      if f.userId != userId then Raise(403, OnlyOwnUpdate)
      else
        var f' := f.(judul := u.judul, topik := u.topik, isi := u.isi,
                     subjudul := if u.subjudul.Some? then u.subjudul.value else f.subjudul,
                     gambarUrl := if u.gambarUrl.Some? then u.gambarUrl.value else f.gambarUrl);
        Done((db.(forums := db.forums[id := f']), f'))
  }

  predicate OnOtherForum(c: ForumComment, id: int) { c.forumId != id }

  /** The comments on other forums, in table order: a subsequence that
      keeps every one of them, so none is dropped, duplicated or reordered. */
  function CommentsNotOn(comments: seq<ForumComment>, id: int): (r: seq<ForumComment>)
    ensures forall c :: c in r <==> c in comments && c.forumId != id
    ensures Seqs.SubseqOf(r, comments)
    ensures |r| == Seqs.Count(comments, (c: ForumComment) => c.forumId != id)
    decreases |comments|
  {
    if |comments| == 0 then []
    else
      var rest := CommentsNotOn(comments[1..], id);
      if comments[0].forumId != id then
        assert ([comments[0]] + rest)[1..] == rest;
        [comments[0]] + rest
      else rest
  }

  /** `delete_forum`: owner only; the forum goes, and with it its comments
      and likes. */
  function DeleteForum(db: ForumDb, id: int, userId: int): (r: Reply<(ForumDb, bool)>)
    ensures id !in db.forums ==> r == Raise(404, ForumNotFound)
    ensures id in db.forums && db.forums[id].userId != userId ==> r == Raise(403, OnlyOwnDelete)
    ensures r.Done? <==> id in db.forums && db.forums[id].userId == userId
    ensures r.Done? ==> r.value.1 && id !in r.value.0.forums
    ensures r.Done? ==> forall k :: k != id ==> (k in r.value.0.forums <==> k in db.forums)
    ensures r.Done? ==> forall k :: k in r.value.0.forums ==> r.value.0.forums[k] == db.forums[k]
    ensures r.Done? ==> forall c :: c in r.value.0.comments <==> c in db.comments && c.forumId != id
    ensures r.Done? ==> Seqs.SubseqOf(r.value.0.comments, db.comments) &&
                        |r.value.0.comments| == Seqs.Count(db.comments, (c: ForumComment) => c.forumId != id)
    ensures r.Done? ==> forall p :: p in r.value.0.likes <==> p in db.likes && p.0 != id
    ensures r.Done? ==> r.value.0.nextCommentId == db.nextCommentId
  {
    if id !in db.forums then Raise(404, ForumNotFound)
    else if db.forums[id].userId != userId then Raise(403, OnlyOwnDelete)
    else
      var likes := set p | p in db.likes && p.0 != id;
      Done((db.(forums := db.forums - {id}, comments := CommentsNotOn(db.comments, id), likes := likes), true))
  }

  /** `create_comment`: the forum only has to exist. */
  function CreateComment(db: ForumDb, id: int, content: string, userId: int): (r: Reply<(ForumDb, ForumComment)>)
    ensures r.Raise? <==> id !in db.forums
    ensures r.Raise? ==> r == Raise(404, ForumNotFound)
    ensures r.Done? ==> r.value.1 == ForumComment(db.nextCommentId, content, id, userId)
    ensures r.Done? ==> r.value.0 == db.(comments := db.comments + [r.value.1], nextCommentId := db.nextCommentId + 1)
  {
    if id !in db.forums then Raise(404, ForumNotFound)
    else
      var c := ForumComment(db.nextCommentId, content, id, userId);
      Done((db.(comments := db.comments + [c], nextCommentId := db.nextCommentId + 1), c))
  }

  /** `toggle_like`: True iff the user had not liked the forum. */
  function ToggleLike(db: ForumDb, id: int, userId: int): (r: Reply<(ForumDb, bool)>)
    ensures r.Raise? <==> id !in db.forums
    ensures r.Raise? ==> r == Raise(404, ForumNotFound)
    ensures r.Done? ==> (r.value.1 <==> (id, userId) !in db.likes)
    ensures r.Done? ==> ((id, userId) in r.value.0.likes <==> r.value.1)
    ensures r.Done? ==> r.value.0 == db.(likes := Toggle(db.likes, (id, userId)).0)
  {
    if id !in db.forums then Raise(404, ForumNotFound)
    else
      var (likes, added) := Toggle(db.likes, (id, userId));
      Done((db.(likes := likes), added))
  }

  /** Liking twice restores the likes; since likes form a set, a user holds
      at most one like per forum. */
  lemma {:induction false} LikeTwiceRestores(db: ForumDb, id: int, userId: int)
    requires id in db.forums
    ensures ToggleLike(ToggleLike(db, id, userId).value.0, id, userId).value.0 == db
    ensures ToggleLike(ToggleLike(db, id, userId).value.0, id, userId).value.1 == !ToggleLike(db, id, userId).value.1
  {
    ToggleIsInvolution(db.likes, (id, userId));
  }
}

=== FILE: ForumSchemas.dfy ===
/** The server's forum request schemas. */
module ForumSchemas {
  import opened Wrappers

  const MaxJudul := 255
  const MaxSubjudul := 255
  const MaxTopik := 100
  const MaxGambarUrl := 500

  /** `ForumBase`, which `ForumCreate` reuses unchanged. */
  datatype ForumBase = ForumBase(judul: string, subjudul: Option<string>, topik: string, isi: string, gambarUrl: Option<string>)

  /** `ForumUpdate` as received: the same required fields; for each optional
      field, whether it was sent (outer Option) and with what value. */
  datatype ForumUpdate = ForumUpdate(
    judul: string, subjudul: Option<Option<string>>, topik: string, isi: string, gambarUrl: Option<Option<string>>)

  datatype FieldError = JudulLength | SubjudulTooLong | TopikLength | IsiEmpty | GambarUrlTooLong

  function CheckFields(judul: string, subjudul: Option<string>, topik: string, isi: string, gambarUrl: Option<string>)
    : (r: seq<FieldError>)
    ensures JudulLength in r <==> !(1 <= |judul| <= MaxJudul)
    ensures SubjudulTooLong in r <==> subjudul.Some? && |subjudul.value| > MaxSubjudul
    ensures TopikLength in r <==> !(1 <= |topik| <= MaxTopik)
    ensures IsiEmpty in r <==> |isi| == 0
    ensures GambarUrlTooLong in r <==> gambarUrl.Some? && |gambarUrl.value| > MaxGambarUrl
  {
    (if 1 <= |judul| <= MaxJudul then [] else [JudulLength]) +
    (if subjudul.Some? && |subjudul.value| > MaxSubjudul then [SubjudulTooLong] else []) +
    (if 1 <= |topik| <= MaxTopik then [] else [TopikLength]) +
    (if |isi| == 0 then [IsiEmpty] else []) +
    (if gambarUrl.Some? && |gambarUrl.value| > MaxGambarUrl then [GambarUrlTooLong] else [])
  }

  predicate ValidForum(f: ForumBase) {
    1 <= |f.judul| <= MaxJudul && 1 <= |f.topik| <= MaxTopik && |f.isi| >= 1 &&
    (f.subjudul.None? || |f.subjudul.value| <= MaxSubjudul) &&
    (f.gambarUrl.None? || |f.gambarUrl.value| <= MaxGambarUrl)
  }

  function CheckForum(f: ForumBase): (r: seq<FieldError>)
    ensures r == [] <==> ValidForum(f)
  {
    CheckFields(f.judul, f.subjudul, f.topik, f.isi, f.gambarUrl)
  }

  function Flatten(o: Option<Option<string>>): Option<string> {
    if o.Some? then o.value else None
  }

  /** An update is held to the full base constraints: the required fields
      must be sent and valid. */
  function CheckUpdate(u: ForumUpdate): (r: seq<FieldError>)
    ensures r == [] <==> ValidForum(ForumBase(u.judul, Flatten(u.subjudul), u.topik, u.isi, Flatten(u.gambarUrl)))
  {
    CheckForum(ForumBase(u.judul, Flatten(u.subjudul), u.topik, u.isi, Flatten(u.gambarUrl)))
  }

  /** `CommentBase` / `CommentCreate`: non-empty content. */
  predicate ValidComment(content: string) { |content| >= 1 }

  /** `ForumFilter`: both fields optional. */
  datatype ForumFilter = ForumFilter(topik: Option<string>, search: Option<string>)
}

=== FILE: ForumViewModel.dfy ===
/** The forum view model: the forum list state, the search query and the
    selected tab. */
module ForumViewModel {
  import opened Wrappers
  import opened ClientModels

  datatype ForumUiState = ForumLoading | ForumSuccess(forums: seq<ForumResponse>) | ForumError(message: string)

  datatype ForumVm = ForumVm(forumState: ForumUiState, searchQuery: string, selectedTab: int)

  /** The state before the first load finishes. */
  const Initial := ForumVm(ForumLoading, "", 0)

  function LoadForumData(vm: ForumVm, call: Call<seq<ForumResponse>>): (r: ForumVm)
    ensures r.searchQuery == vm.searchQuery && r.selectedTab == vm.selectedTab
    ensures r.forumState.ForumSuccess? <==> call.Ok? && call.body.Some?
    ensures r.forumState.ForumSuccess? ==> r.forumState.forums == call.body.value
    ensures call.Ok? && call.body.None? ==> r.forumState == ForumError("No data available")
    ensures call.Fail? ==> r.forumState == ForumError("Failed to load forum data")
    ensures call.Exn? ==> r.forumState == ForumError(call.error.GetOr("Unknown error occurred"))
  {
    var s := match call
      case Ok(Some(fs)) => ForumSuccess(fs)
      case Ok(None) => ForumError("No data available")
      case Fail(_, _) => ForumError("Failed to load forum data")
      case Exn(e) => ForumError(e.GetOr("Unknown error occurred"));
    vm.(forumState := s)
  }

  function SetSearchQuery(vm: ForumVm, q: string): (r: ForumVm)
    ensures r.searchQuery == q && r.forumState == vm.forumState && r.selectedTab == vm.selectedTab
  {
    vm.(searchQuery := q)
  }

  function SetSelectedTab(vm: ForumVm, i: int): (r: ForumVm)
    ensures r.selectedTab == i && r.forumState == vm.forumState && r.searchQuery == vm.searchQuery
  {
    vm.(selectedTab := i)
  }

  /** The setters and the load touch disjoint fields, so they commute. */
  lemma SettersCommuteWithLoad(vm: ForumVm, call: Call<seq<ForumResponse>>, q: string, i: int)
    ensures SetSearchQuery(LoadForumData(vm, call), q) == LoadForumData(SetSearchQuery(vm, q), call)
    ensures SetSelectedTab(LoadForumData(vm, call), i) == LoadForumData(SetSelectedTab(vm, i), call)
  {
  }
}

=== FILE: JBIViewModel.dfy ===
/** The sign-language interpreter (JBI) view model: the translator search
    filter, tab selection and the two list fetches, each taken as one
    sequential step. */
module JBIViewModel {
  import opened Wrappers
  import opened Chars
  import opened ClientModels
  import Seqs

  datatype JbiVm = JbiVm(
    selectedTab: int, searchQuery: string,
    translators: seq<TranslatorResponse>, translationOrders: seq<TranslationOrderResponse>,
    isLoading: bool, error: Option<string>)

  /** The lower-cased `alamat` or `name` contains the (lower-cased) query. */
  predicate Matches(t: TranslatorResponse, q: string) {
    Contains(ToLower(t.alamat), q) || Contains(ToLower(t.name), q)
  }

  function FilteredTranslators(vm: JbiVm): (r: seq<TranslatorResponse>)
    ensures |vm.searchQuery| == 0 ==> r == vm.translators
    ensures forall t :: t in r <==> t in vm.translators && Matches(t, ToLower(vm.searchQuery))
    ensures Seqs.SubseqOf(r, vm.translators)
    ensures |r| == Seqs.Count(vm.translators, (t: TranslatorResponse) => Matches(t, ToLower(vm.searchQuery)))
  {
    var q := ToLower(vm.searchQuery);
    var p := (t: TranslatorResponse) => Matches(t, ToLower(vm.searchQuery));
    Seqs.FilterLength(vm.translators, p);
    if |q| == 0 then
      assert forall t :: Matches(t, q) by {
        forall t ensures Matches(t, q) { ContainsEmpty(ToLower(t.alamat)); }
      }
      Seqs.FilterAll(vm.translators, p);
      SubseqRefl(vm.translators);
      vm.translators
    else
      Seqs.FilterIsSubseq(vm.translators, p);
      Seqs.Filter(vm.translators, p)
  }

  lemma {:induction false} SubseqRefl<T>(s: seq<T>)
    ensures Seqs.SubseqOf(s, s)
    decreases |s|
  {
    if |s| > 0 {
      SubseqRefl(s[1..]);
    }
  }

  function OnSearchQueryChange(vm: JbiVm, q: string): (r: JbiVm)
    ensures r == vm.(searchQuery := q)
  {
    vm.(searchQuery := q)
  }

  /** The tab change and whether it triggers an order fetch. */
  function OnTabSelected(vm: JbiVm, index: int): (r: (JbiVm, bool))
    ensures r.0 == vm.(selectedTab := index)
    ensures r.1 <==> index == 1 && |vm.translationOrders| == 0
  {
    (vm.(selectedTab := index), index == 1 && |vm.translationOrders| == 0)
  }

  /** The state right after a fetch starts and the state when it ends. */
  datatype Fetch = Fetch(started: JbiVm, finished: JbiVm)

  function Start(vm: JbiVm): (r: JbiVm)
    ensures r == vm.(isLoading := true, error := None)
  {
    vm.(isLoading := true, error := None)
  }

  function FetchTranslators(vm: JbiVm, call: Call<TranslatorListResponse>): (r: Fetch)
    ensures r.started == Start(vm)
    ensures !r.finished.isLoading
    ensures r.finished.translationOrders == vm.translationOrders
    ensures r.finished.selectedTab == vm.selectedTab && r.finished.searchQuery == vm.searchQuery
    ensures call.Ok? && call.body.Some? ==> r.finished.translators == call.body.value.items && r.finished.error == None
    ensures call.Ok? && call.body.None? ==> r.finished.translators == vm.translators && r.finished.error == r.started.error
    ensures call.Fail? ==> r.finished.translators == vm.translators && r.finished.error == Some("Failed to fetch translators")
    ensures call.Exn? ==> r.finished.translators == vm.translators && r.finished.error == Some(call.error.GetOr("An error occurred"))
  {
    var s := Start(vm);
    var body := match call
      case Ok(Some(b)) => s.(translators := b.items)
      case Ok(None) => s
      case Fail(_, _) => s.(error := Some("Failed to fetch translators"))
      case Exn(e) => s.(error := Some(e.GetOr("An error occurred")));
    Fetch(s, body.(isLoading := false))
  }

  function FetchTranslationOrders(vm: JbiVm, call: Call<TranslationOrderListResponse>): (r: Fetch)
    ensures r.started == Start(vm)
    ensures !r.finished.isLoading
    ensures r.finished.translators == vm.translators
    ensures r.finished.selectedTab == vm.selectedTab && r.finished.searchQuery == vm.searchQuery
    ensures call.Ok? && call.body.Some? ==> r.finished.translationOrders == call.body.value.items && r.finished.error == None
    ensures call.Ok? && call.body.None? ==> r.finished.translationOrders == vm.translationOrders && r.finished.error == r.started.error
    ensures call.Fail? ==> r.finished.translationOrders == vm.translationOrders && r.finished.error == Some("Failed to fetch translation orders")
    ensures call.Exn? ==> r.finished.translationOrders == vm.translationOrders && r.finished.error == Some(call.error.GetOr("An error occurred"))
  {
    var s := Start(vm);
    var body := match call
      case Ok(Some(b)) => s.(translationOrders := b.items)
      case Ok(None) => s
      case Fail(_, _) => s.(error := Some("Failed to fetch translation orders"))
      case Exn(e) => s.(error := Some(e.GetOr("An error occurred")));
    Fetch(s, body.(isLoading := false))
  }

  /** Once orders have been loaded, going back to the orders tab never refetches. */
  lemma LoadedOrdersAreNotRefetched(vm: JbiVm, b: TranslationOrderListResponse)
    requires |b.items| > 0
    ensures !OnTabSelected(FetchTranslationOrders(vm, Ok(Some(b))).finished, 1).1
  {
  }

  /** A translator whose name contains the query, in any letter case, is kept. */
  lemma NameMatchIsKept(vm: JbiVm, t: TranslatorResponse)
    requires t in vm.translators
    requires Contains(ToLower(t.name), ToLower(vm.searchQuery))
    ensures t in FilteredTranslators(vm)
  {
  }
}

=== FILE: LoginUseCase.dfy ===
/** The login use case: a blank short-circuit, then one repository call. */
module LoginUseCase {
  import opened Wrappers
  import opened Chars

  datatype Decision = Reject(message: string) | Delegate(email: string, password: string)

  const EmptyMessage := "Email and password cannot be empty"

  function Decide(email: string, password: string): (r: Decision)
    ensures r.Reject? <==> IsBlank(email) || IsBlank(password)
    ensures r.Reject? ==> r.message == EmptyMessage
    ensures r.Delegate? ==> r.email == email && r.password == password
  {
    if IsBlank(email) || IsBlank(password) then Reject(EmptyMessage) else Delegate(email, password)
  }

  /** `repository` is what `repository.login` returns for the arguments. */
  function Invoke(email: string, password: string, repository: Resource<string>): (r: Resource<string>)
    ensures IsBlank(email) || IsBlank(password) ==> r == Error(EmptyMessage)
    ensures !IsBlank(email) && !IsBlank(password) ==> r == repository
  {
    match Decide(email, password)
    case Reject(m) => Error(m)
    case Delegate(_, _) => repository
  }

  /** Whitespace-only input counts as blank, so it never reaches the server. */
  lemma WhitespaceIsBlank(email: string, n: nat)
    ensures Decide(email, seq(n, _ => ' ')).Reject?
    ensures Decide(seq(n, _ => '\t'), email).Reject?
  {
  }
}

=== FILE: PreferenceManager.dfy ===
/** The client's key-value store (`SharedPreferences` named "StuDeafPrefs"):
    the session token, the registration draft, the profile snapshot and the
    password-change verification token. */
module PreferenceManager {
  import opened Wrappers

  type Prefs = map<string, string>

  const KeyToken := "token"
  const KeyRegEmail := "reg_email"
  const KeyRegFullName := "reg_fullname"
  const KeyRegBirthDate := "reg_birthdate"
  const KeyRegIdentity := "reg_identity"
  const KeyProfileFullName := "profile_fullname"
  const KeyProfileBirthDate := "profile_birthdate"
  const KeyProfileIdentityType := "profile_identity_type"
  const KeyProfileInstitution := "profile_institution"
  const KeyProfilePictureUrl := "profile_picture_url"
  const KeyVerificationToken := "verification_token"

  const RegistrationKeys: set<string> := {KeyRegEmail, KeyRegFullName, KeyRegBirthDate, KeyRegIdentity}
  const ProfileKeys: set<string> :=
    {KeyProfileFullName, KeyProfileBirthDate, KeyProfileIdentityType, KeyProfileInstitution, KeyProfilePictureUrl}

  /** `getString(key, default)`. */
  function Lookup(p: Prefs, key: string): Option<string> {
    if key in p then Some(p[key]) else None
  }

  /** `putString(key, value)`; a null value removes the key. */
  function Put(p: Prefs, key: string, value: Option<string>): Prefs {
    match value
    case Some(v) => p[key := v]
    case None => p - {key}
  }

  /** `p` and `q` agree on every key outside `keys`. */
  ghost predicate SameOutside(p: Prefs, q: Prefs, keys: set<string>) {
    forall k :: k !in keys ==> Lookup(p, k) == Lookup(q, k)
  }

  function SaveToken(p: Prefs, token: string): (r: Prefs)
    ensures GetToken(r) == Some(token)
    ensures SameOutside(r, p, {KeyToken})
  {
    p[KeyToken := token]
  }

  function GetToken(p: Prefs): Option<string> { Lookup(p, KeyToken) }

  function ClearToken(p: Prefs): (r: Prefs)
    ensures GetToken(r) == None
    ensures SameOutside(r, p, {KeyToken})
  {
    p - {KeyToken}
  }

  /** The four registration-draft fields, as `getRegistrationData` returns them. */
  datatype RegistrationFields = RegistrationFields(email: string, fullName: string, birthDate: string, identityType: string)

  const NoRegistration := RegistrationFields("", "", "", "")

  function SaveRegistrationData(p: Prefs, d: RegistrationFields): (r: Prefs)
    ensures GetRegistrationData(r) == d
    ensures r.Keys == p.Keys + RegistrationKeys
    ensures SameOutside(r, p, RegistrationKeys)
  {
    p[KeyRegEmail := d.email][KeyRegFullName := d.fullName][KeyRegBirthDate := d.birthDate][KeyRegIdentity := d.identityType]
  }

  /** A missing field reads back as "". */
  function GetRegistrationData(p: Prefs): RegistrationFields {
    RegistrationFields(
      Lookup(p, KeyRegEmail).GetOr(""), Lookup(p, KeyRegFullName).GetOr(""),
      Lookup(p, KeyRegBirthDate).GetOr(""), Lookup(p, KeyRegIdentity).GetOr(""))
  }

  function ClearRegistrationData(p: Prefs): (r: Prefs)
    ensures r.Keys == p.Keys - RegistrationKeys
    ensures SameOutside(r, p, RegistrationKeys)
    ensures GetRegistrationData(r) == NoRegistration
  {
    p - RegistrationKeys
  }

  /** The profile snapshot, as `getProfileData` returns it. */
  datatype ProfileFields = ProfileFields(
    fullName: string, birthDate: string, identityType: string, institution: string, profilePictureUrl: Option<string>)

  const NoProfile := ProfileFields("", "", "", "", None)

  function SaveProfileData(p: Prefs, d: ProfileFields): (r: Prefs)
    ensures GetProfileData(r) == d
    ensures SameOutside(r, p, ProfileKeys)
  {
    Put(p[KeyProfileFullName := d.fullName][KeyProfileBirthDate := d.birthDate]
         [KeyProfileIdentityType := d.identityType][KeyProfileInstitution := d.institution],
        KeyProfilePictureUrl, d.profilePictureUrl)
  }

  /** Missing text fields read back as "", a missing picture URL as null. */
  function GetProfileData(p: Prefs): ProfileFields {
    ProfileFields(
      Lookup(p, KeyProfileFullName).GetOr(""), Lookup(p, KeyProfileBirthDate).GetOr(""),
      Lookup(p, KeyProfileIdentityType).GetOr(""), Lookup(p, KeyProfileInstitution).GetOr(""),
      Lookup(p, KeyProfilePictureUrl))
  }

  function ClearProfileData(p: Prefs): (r: Prefs)
    ensures r.Keys == p.Keys - ProfileKeys
    ensures SameOutside(r, p, ProfileKeys)
    ensures GetProfileData(r) == NoProfile
  {
    p - ProfileKeys
  }

  function SaveVerificationToken(p: Prefs, token: string): (r: Prefs)
    ensures GetVerificationToken(r) == Some(token)
    ensures SameOutside(r, p, {KeyVerificationToken})
  {
    p[KeyVerificationToken := token]
  }

  function GetVerificationToken(p: Prefs): Option<string> { Lookup(p, KeyVerificationToken) }

  function ClearVerificationToken(p: Prefs): (r: Prefs)
    ensures GetVerificationToken(r) == None
    ensures SameOutside(r, p, {KeyVerificationToken})
  {
    p - {KeyVerificationToken}
  }

  /** The eleven keys are distinct, so the four groups never overlap: the
      two tokens are independent of each other. */
  lemma TokensAreIndependent(p: Prefs, t: string)
    ensures GetToken(SaveVerificationToken(p, t)) == GetToken(p)
    ensures GetVerificationToken(SaveToken(p, t)) == GetVerificationToken(p)
  {
  }

  /** Writing or clearing the registration draft leaves the session token and
      the profile snapshot as they were, and clearing the session token
      leaves the draft. */
  lemma RegistrationIsIndependent(p: Prefs, d: RegistrationFields)
    ensures GetToken(SaveRegistrationData(p, d)) == GetToken(p)
    ensures GetProfileData(SaveRegistrationData(p, d)) == GetProfileData(p)
    ensures GetToken(ClearRegistrationData(p)) == GetToken(p)
    ensures GetProfileData(ClearRegistrationData(p)) == GetProfileData(p)
    ensures GetRegistrationData(ClearToken(p)) == GetRegistrationData(p)
  {
    assert RegistrationKeys !! ProfileKeys;
    assert KeyToken !in RegistrationKeys;
  }

  /** Writing the profile snapshot leaves the draft, and clearing it leaves
      the verification token. */
  lemma ProfileIsIndependent(p: Prefs, f: ProfileFields)
    ensures GetRegistrationData(SaveProfileData(p, f)) == GetRegistrationData(p)
    ensures GetVerificationToken(ClearProfileData(p)) == GetVerificationToken(p)
  {
    assert RegistrationKeys !! ProfileKeys;
    assert KeyVerificationToken !in ProfileKeys;
  }
}

=== FILE: ProfileViewModel.dfy ===
/** The profile view model: one profile fetch mapped into a `Resource<User>`. */
module ProfileViewModel {
  import opened Wrappers
  import opened ClientModels
  import Repo = UserRepositoryImpl

  /** The domain user built from the response, field by field. */
  function ToUser(u: UserResponse): (r: User)
    ensures r.id == u.id && r.email == u.email && r.fullName == u.fullName
    ensures r.birthDate == u.birthDate && r.identityType == u.identityType
    ensures r.institution == u.institution && r.profilePictureUrl == u.profilePictureUrl && r.points == u.points
  {
    User(u.id, u.email, u.fullName, u.birthDate, u.identityType, u.institution, u.profilePictureUrl, u.points)
  }

  function ToResponse(u: User): UserResponse {
    UserResponse(u.id, u.email, u.fullName, u.birthDate, u.identityType, u.institution, u.profilePictureUrl, u.points)
  }

  /** Nothing is lost in the copy. */
  lemma CopyLosesNothing(u: UserResponse)
    ensures ToResponse(ToUser(u)) == u
  {
  }

  /** The state before any fetch is null. */
  const Initial: Option<Resource<User>> := None

  /** The successive profile states of one fetch. */
  function FetchUserProfile(call: Call<UserResponse>): (r: seq<Resource<User>>)
    ensures |r| == 2 && r[0] == Loading
    ensures r[1].Success? <==> call.Ok? && call.body.Some?
    ensures r[1].Success? ==> r[1].data == ToUser(call.body.value)
    ensures call.Ok? && call.body.None? ==> r[1] == Error("Empty response body")
    ensures call.Fail? ==> r[1] == Error("Failed to fetch profile: " + call.message)
    ensures call.Exn? ==> r[1] == Error(call.error.GetOr("An error occurred"))
  {
    var last := match call
      case Ok(Some(b)) => Success(ToUser(b))
      case Ok(None) => Error("Empty response body")
      case Fail(_, m) => Error("Failed to fetch profile: " + m)
      case Exn(e) => Error(e.GetOr("An error occurred"));
    [Loading, last]
  }

  /** The view model and the user repository read the same response into
      the same user, and fail on exactly the same outcomes. */
  lemma AgreesWithRepository(call: Call<UserResponse>)
    ensures FetchUserProfile(call)[1].Success? <==> Repo.GetProfile(call).Returned?
    ensures Repo.GetProfile(call).Returned? ==> FetchUserProfile(call)[1].data == ToUser(Repo.GetProfile(call).value)
  {
  }
}

=== FILE: RegisterPasswordScreen.dfy ===
/** The second registration screen: the live password checklist, the form
    predicate, the entry guard, the register button and the reaction to the
    register state. */
module RegisterPasswordScreen {
  import opened Wrappers
  import opened Chars
  import AVM = AuthViewModel
  import UC = RegisterUseCase

  /** The five live checks; the "special" one is any non-letter-or-digit. */
  datatype Checks = Checks(minLength: bool, lower: bool, upper: bool, digit: bool, special: bool)

  function PasswordChecks(p: string): (r: Checks)
    ensures r.minLength <==> |p| >= 8
    ensures r.lower <==> HasLower(p)
    ensures r.upper <==> HasUpper(p)
    ensures r.digit <==> HasDigit(p)
    ensures r.special <==> HasNonLetterOrDigit(p)
  {
    Checks(|p| >= 8, HasLower(p), HasUpper(p), HasDigit(p), HasNonLetterOrDigit(p))
  }

  predicate AllMet(c: Checks) { c.minLength && c.lower && c.upper && c.digit && c.special }

  predicate PasswordsMatch(p: string, c: string) { p == c && |p| > 0 }

  predicate FormValid(p: string, c: string, termsAccepted: bool) {
    AllMet(PasswordChecks(p)) && PasswordsMatch(p, c) && termsAccepted
  }

  /** A valid form satisfies the use case's match and policy checks, and its
      password is not blank: the use case can only reject it for a stored
      field or the email. */
  lemma ValidFormPassesUseCasePasswordChecks(p: string, c: string, terms: bool)
    requires FormValid(p, c, terms)
    ensures UC.MeetsPolicy(p) && p == c && !IsBlank(p) && !IsBlank(c)
  {
    var i :| 0 <= i < |p| && IsLower(p[i]);
    assert !IsWhitespace(p[i]);
  }

  predicate AnyStoredBlank(d: AVM.RegistrationData) {
    IsBlank(d.email) || IsBlank(d.fullName) || IsBlank(d.birthDate) || IsBlank(d.identityType)
  }

  /** On entry the screen pops back when the first screen's data is incomplete. */
  function PopsBackOnEntry(d: AVM.RegistrationData): (r: bool)
    ensures r <==> IsBlank(d.email) || IsBlank(d.fullName) || IsBlank(d.birthDate) || IsBlank(d.identityType)
  {
    AnyStoredBlank(d)
  }

  datatype ClickAction = NoAction | Snackbar(message: string) | CallRegister

  function OnRegisterClick(formValid: bool, d: AVM.RegistrationData): (r: ClickAction)
    ensures r == CallRegister <==> formValid && !AnyStoredBlank(d)
    ensures r.Snackbar? <==> formValid && AnyStoredBlank(d)
    ensures r.Snackbar? ==> r.message == "Please fill in all registration details"
    ensures r == NoAction <==> !formValid
  {
    if !formValid then NoAction
    else if AnyStoredBlank(d) then Snackbar("Please fill in all registration details")
    else CallRegister
  }

  /** What the screen does when the register state changes. */
  datatype Reaction = Reaction(navigateHome: bool, snackbar: Option<string>)

  function OnRegisterState(vm: AVM.AuthVm): (r: (Reaction, AVM.AuthVm))
    ensures r.0.navigateHome <==> vm.registerState.Some? && vm.registerState.value.Success?
    ensures vm.registerState.Some? && vm.registerState.value.Error? ==>
              r.0.snackbar == Some(vm.registerState.value.message)
    ensures r.0.snackbar.Some? ==> vm.registerState.Some? && vm.registerState.value.Error?
    ensures vm.registerState.Some? && !vm.registerState.value.Loading? ==> r.1 == AVM.ResetRegisterState(vm)
    ensures vm.registerState.None? || vm.registerState.value.Loading? ==> r.1 == vm
  {
    match vm.registerState
    case Some(Success(_)) => (Reaction(true, None), AVM.ResetRegisterState(vm))
    case Some(Error(m)) => (Reaction(false, Some(m)), AVM.ResetRegisterState(vm))
    case _ => (Reaction(false, None), vm)
  }

  /** Whatever `register` ends with, the screen's reaction leaves no register
      state behind. */
  lemma RegisterStateIsConsumed(vm: AVM.AuthVm, repository: Resource<string>)
    requires repository != Loading
    ensures OnRegisterState(AVM.Register(vm, repository).vm).1.registerState == None
  {
  }
}

=== FILE: RegisterScreen.dfy ===
/** The first registration screen: the birth-date auto-formatter, the email
    pattern, the per-field error texts and the Continue-button predicate. */
module RegisterScreen {
  import opened Chars
  import Seqs

  // ---- Birth date ---------------------------------------------------------

  /** The text field holding the birth date and the error shown under it. */
  datatype BirthDateField = BirthDateField(value: string, error: string)

  const BirthDateMissing := "Tanggal lahir tidak boleh kosong"

  function Digits(s: string): (r: string)
    ensures forall c :: c in r ==> IsDigit(c)
  {
    Seqs.Filter(s, IsDigit)
  }

  predicate NotSlash(c: char) { c != '/' }

  /** The text with every `/` removed. */
  function Unslash(s: string): string { Seqs.Filter(s, NotSlash) }

  /** The digits regrouped as `DD/MM/YYYY` while typing: a slash after the
      2nd digit from four digits on, and one after the 4th from six on. */
  function Format(input: string): (r: string)
    ensures var d := Digits(input);
            (|d| <= 3 ==> r == d) &&
            (4 <= |d| <= 5 ==> r == d[..2] + "/" + d[2..]) &&
            (|d| >= 6 ==> r == d[..2] + "/" + d[2..4] + "/" + d[4..])
  {
    var d := Digits(input);
    var f := if |d| >= 4 then d[..2] + "/" + d[2..] else d;
    if |f| >= 7 then f[..5] + "/" + f[5..] else f
  }

  /** The field ignores an input longer than 10 characters. */
  function OnBirthDateChange(field: BirthDateField, input: string): (r: BirthDateField)
    ensures |input| > 10 ==> r == field
    ensures |input| <= 10 ==> r.value == Format(input)
    ensures |input| <= 10 ==> (r.error != "" <==> IsBlank(r.value))
  {
    if |input| <= 10 then
      var f := Format(input);
      BirthDateField(f, if IsBlank(f) then BirthDateMissing else "")
    else field
  }

  lemma {:induction false} DigitsOfDigits(d: string)
    requires forall c :: c in d ==> IsDigit(c)
    ensures Digits(d) == d && Unslash(d) == d
  {
    Seqs.FilterAll(d, IsDigit);
    Seqs.FilterAll(d, NotSlash);
  }

  /** Removing the slashes inserted between digit runs gives their concatenation. */
  lemma {:induction false} DropOneSlash(a: string, b: string)
    requires forall c :: c in a ==> IsDigit(c)
    requires forall c :: c in b ==> IsDigit(c)
    ensures Digits(a + "/" + b) == a + b && Unslash(a + "/" + b) == a + b
  {
    assert a + "/" + b == a + ['/'] + b;
    Seqs.FilterSkip(a, '/', b, IsDigit);
    Seqs.FilterSkip(a, '/', b, NotSlash);
    DigitsOfDigits(a);
    DigitsOfDigits(b);
  }

  lemma {:induction false} DropTwoSlashes(a: string, b: string, c: string)
    requires forall x :: x in a ==> IsDigit(x)
    requires forall x :: x in b ==> IsDigit(x)
    requires forall x :: x in c ==> IsDigit(x)
    ensures Digits(a + "/" + b + "/" + c) == a + b + c && Unslash(a + "/" + b + "/" + c) == a + b + c
  {
    var x := a + "/" + b;
    assert x + "/" + c == x + ['/'] + c;
    Seqs.FilterSkip(x, '/', c, IsDigit);
    Seqs.FilterSkip(x, '/', c, NotSlash);
    DropOneSlash(a, b);
    DigitsOfDigits(c);
  }

  /** The formatted text is the input's digits, in order, with slashes added. */
  lemma {:induction false} FormatKeepsDigits(input: string)
    ensures Unslash(Format(input)) == Digits(input)
    ensures Digits(Format(input)) == Digits(input)
  {
    var d := Digits(input);
    if |d| <= 3 {
      DigitsOfDigits(d);
    } else if |d| <= 5 {
      assert d[..2] + d[2..] == d;
      assert forall c :: c in d[..2] ==> c in d;
      assert forall c :: c in d[2..] ==> c in d;
      DropOneSlash(d[..2], d[2..]);
    } else {
      assert d[..2] + d[2..4] + d[4..] == d;
      assert forall c :: c in d[..2] ==> c in d;
      assert forall c :: c in d[2..4] ==> c in d;
      assert forall c :: c in d[4..] ==> c in d;
      DropTwoSlashes(d[..2], d[2..4], d[4..]);
    }
  }

  /** The formatter depends only on the digits, so it is idempotent. */
  lemma FormatIsIdempotent(input: string)
    ensures Format(Format(input)) == Format(input)
  {
    FormatKeepsDigits(input);
  }

  /** Feeding the field its own value again changes nothing. */
  lemma RetypingIsStable(field: BirthDateField, input: string)
    requires |input| <= 10
    ensures var f := OnBirthDateChange(field, input);
            OnBirthDateChange(f, f.value) == f
  {
    FormatIsIdempotent(input);
  }

  /** The "empty" error shows exactly when the input held no digit at all. */
  lemma {:induction false} EmptyErrorIffNoDigits(field: BirthDateField, input: string)
    requires |input| <= 10
    ensures OnBirthDateChange(field, input).error != "" <==> Digits(input) == ""
  {
    var f := Format(input);
    var d := Digits(input);
    if |d| > 0 {
      assert d[0] in d;
      assert f[0] == d[0];
      assert !IsWhitespace(f[0]);
    }
  }

  // ---- Email --------------------------------------------------------------

  /** The character class `[a-zA-Z0-9._-]`. */
  predicate IsLocalChar(c: char) { IsLetterOrDigit(c) || c == '.' || c == '_' || c == '-' }

  /** `s` splits as local `s[..at]`, `@`, non-empty lower-case label
      `s[at+1..dots]`, one or more dots `s[dots..tld]`, lower-case label
      `s[tld..]`. */
  predicate SplitsAt(s: string, at: int, dots: int, tld: int) {
    0 < at && at + 1 < dots < tld < |s| && s[at] == '@' &&
    (forall q :: 0 <= q < at ==> IsLocalChar(s[q])) &&
    (forall q :: at < q < dots ==> IsLower(s[q])) &&
    (forall q :: dots <= q < tld ==> s[q] == '.') &&
    (forall q :: tld <= q < |s| ==> IsLower(s[q]))
  }

  /** A full match of `[a-zA-Z0-9._-]+@[a-z]+\.+[a-z]+`. */
  predicate EmailMatches(s: string) {
    exists at, dots, tld :: 0 <= at < |s| && 0 <= dots < |s| && 0 <= tld < |s| && SplitsAt(s, at, dots, tld)
  }

  /** After the `@`, all dots are one contiguous block: no letter can sit
      between two dots, so multi-label domains never match. */
  lemma DotsFormOneBlock(s: string, a: int, p: int, q: int, r: int)
    requires 0 <= a < p < q < r < |s| && s[a] == '@'
    requires s[p] == '.' && IsLower(s[q]) && s[r] == '.'
    ensures !EmailMatches(s)
  {
    forall at, dots, tld | 0 <= at < |s| && 0 <= dots < |s| && 0 <= tld < |s|
      ensures !SplitsAt(s, at, dots, tld)
    {
      assert !IsLocalChar(s[a]) && !IsLower(s[a]) && s[a] != '.';
      assert !IsLower(s[p]) && !IsLower(s[r]) && s[q] != '.';
    }
  }

  /** No upper-case letter may follow the `@`. */
  lemma UpperCaseDomainRejected(s: string, a: int, u: int)
    requires 0 <= a < u < |s| && s[a] == '@' && IsUpper(s[u])
    ensures !EmailMatches(s)
  {
    forall at, dots, tld | 0 <= at < |s| && 0 <= dots < |s| && 0 <= tld < |s|
      ensures !SplitsAt(s, at, dots, tld)
    {
      assert !IsLocalChar(s[a]) && !IsLower(s[a]) && s[a] != '.';
      assert !IsLower(s[u]) && s[u] != '.';
    }
  }

  /** The label between the `@` and the dots needs a letter: a dot right
      after the `@` never matches. */
  lemma DotRightAfterAtRejected(s: string, a: int)
    requires 0 <= a && a + 1 < |s| && s[a] == '@' && s[a + 1] == '.'
    ensures !EmailMatches(s)
  {
    forall at, dots, tld | 0 <= at < |s| && 0 <= dots < |s| && 0 <= tld < |s|
      ensures !SplitsAt(s, at, dots, tld)
    {
      assert !IsLocalChar(s[a]) && !IsLower(s[a]) && s[a] != '.';
      assert !IsLower(s[a + 1]);
    }
  }

  lemma Examples()
    ensures EmailMatches("budi@gmail.com")
    ensures !EmailMatches("x@mail.ui.ac.id")
    ensures !EmailMatches("x@Gmail.com")
    ensures !EmailMatches("x@.com")
  {
    assert SplitsAt("budi@gmail.com", 4, 10, 11);
    DotsFormOneBlock("x@mail.ui.ac.id", 1, 6, 7, 9);
    UpperCaseDomainRejected("x@Gmail.com", 1, 2);
    DotRightAfterAtRejected("x@.com", 1);
  }

  // ---- Field errors and the Continue button --------------------------------

  function FullNameError(v: string): (r: string)
    ensures r != "" <==> IsBlank(v)
    ensures r != "" ==> r == "Nama tidak boleh kosong"
  {
    if IsBlank(v) then "Nama tidak boleh kosong" else ""
  }

  function EmailError(v: string): (r: string)
    ensures IsBlank(v) ==> r == "Email tidak boleh kosong"
    ensures !IsBlank(v) && !EmailMatches(v) ==> r == "Format email tidak valid"
    ensures r == "" <==> !IsBlank(v) && EmailMatches(v)
  {
    if IsBlank(v) then "Email tidak boleh kosong"
    else if !EmailMatches(v) then "Format email tidak valid"
    else ""
  }

  /** The predicate as written: the identity test compares a non-null
      string with null, so it never fails. */
  predicate ContinueEnabledAsWritten(fullName: string, birthDate: string, email: string, identity: string) {
    !IsBlank(fullName) && !IsBlank(birthDate) && !IsBlank(email) && EmailMatches(email)
  }

  /** The predicate as intended: an identity must also have been chosen. */
  predicate ContinueEnabled(fullName: string, birthDate: string, email: string, identity: string) {
    ContinueEnabledAsWritten(fullName, birthDate, email, identity) && !IsBlank(identity)
  }

  /** With no identity chosen (the draft's initial ""), the written predicate
      still enables Continue. */
  lemma NoIdentityStillContinues()
    ensures ContinueEnabledAsWritten("Budi", "01/02/2000", "budi@gmail.com", "")
    ensures !ContinueEnabled("Budi", "01/02/2000", "budi@gmail.com", "")
  {
    Examples();
    assert !IsWhitespace("Budi"[0]);
    assert !IsWhitespace("01/02/2000"[0]);
    assert !IsWhitespace("budi@gmail.com"[0]);
  }

  /** Continue is offered exactly when no field error would show, the birth
      date is non-blank and an identity is chosen. */
  lemma ContinueIffNoErrors(fullName: string, birthDate: string, email: string, identity: string)
    ensures ContinueEnabled(fullName, birthDate, email, identity) <==>
            FullNameError(fullName) == "" && EmailError(email) == "" &&
            !IsBlank(birthDate) && !IsBlank(identity)
  {
  }
}

=== FILE: RegisterUseCase.dfy ===
/** The registration use case: four ordered client-side checks, and the
    repository is asked only when all of them pass. */
module RegisterUseCase {
  import opened Wrappers
  import opened Chars

  datatype RegisterArgs = RegisterArgs(
    email: string, fullName: string, birthDate: string, identityType: string,
    password: string, passwordConfirm: string)

  /** Either a rejection with its message, or the arguments the repository
      is called with. */
  datatype Decision = Reject(message: string) | Delegate(args: RegisterArgs)

  const AllFieldsMessage := "All fields must be filled"
  const EmailMessage := "Invalid email format"
  const MismatchMessage := "Passwords do not match"
  const PolicyMessage := "Password does not meet requirements"

  predicate AnyBlank(a: RegisterArgs) {
    IsBlank(a.email) || IsBlank(a.fullName) || IsBlank(a.birthDate) ||
    IsBlank(a.identityType) || IsBlank(a.password) || IsBlank(a.passwordConfirm)
  }

  /** The character class `[A-Za-z0-9+_.-]`. */
  predicate IsLocalChar(c: char) { IsLetterOrDigit(c) || c == '+' || c == '_' || c == '.' || c == '-' }

  /** The characters a regex `.` does not match. */
  predicate IsLineTerminator(c: char) {
    c == '\n' || c == '\r' || c == '\U{85}' || c == '\U{2028}' || c == '\U{2029}'
  }

  /** A full match of `^[A-Za-z0-9+_.-]+@(.+)$`. The local class excludes
      `@`, so the split is at the first `@`, and the rest may hold more. */
  predicate EmailMatches(s: string) {
    exists i :: 0 < i < |s| - 1 && s[i] == '@' && LocalPart(s, i) && DomainPart(s, i)
  }

  predicate LocalPart(s: string, i: int)
    requires 0 <= i <= |s|
  {
    forall j :: 0 <= j < i ==> IsLocalChar(s[j])
  }

  predicate DomainPart(s: string, i: int)
    requires 0 <= i < |s|
  {
    forall j :: i < j < |s| ==> !IsLineTerminator(s[j])
  }

  /** At least 8 characters with a lower-case letter, an upper-case letter,
      a digit and any character that is neither letter nor digit. */
  predicate MeetsPolicy(p: string) {
    |p| >= 8 && HasLower(p) && HasUpper(p) && HasDigit(p) && HasNonLetterOrDigit(p)
  }

  function Decide(a: RegisterArgs): (r: Decision)
    ensures AnyBlank(a) ==> r == Reject(AllFieldsMessage)
    ensures !AnyBlank(a) && !EmailMatches(a.email) ==> r == Reject(EmailMessage)
    ensures !AnyBlank(a) && EmailMatches(a.email) && a.password != a.passwordConfirm ==> r == Reject(MismatchMessage)
    ensures !AnyBlank(a) && EmailMatches(a.email) && a.password == a.passwordConfirm && !MeetsPolicy(a.password)
            ==> r == Reject(PolicyMessage)
    ensures r.Delegate? <==> !AnyBlank(a) && EmailMatches(a.email) && a.password == a.passwordConfirm && MeetsPolicy(a.password)
    ensures r.Delegate? ==> r.args == a
  {
    if AnyBlank(a) then Reject(AllFieldsMessage)
    else if !EmailMatches(a.email) then Reject(EmailMessage)
    else if a.password != a.passwordConfirm then Reject(MismatchMessage)
    else if !MeetsPolicy(a.password) then Reject(PolicyMessage)
    else Delegate(a)
  }

  /** `repository` is what `repository.register` returns for the arguments. */
  function Invoke(a: RegisterArgs, repository: Resource<string>): (r: Resource<string>)
    ensures Decide(a).Reject? ==> r == Error(Decide(a).message)
    ensures Decide(a).Delegate? ==> r == repository
  {
    match Decide(a)
    case Reject(m) => Error(m)
    case Delegate(_) => repository
  }

  /** Anything non-empty after the first `@` is accepted, further `@` included. */
  lemma AnythingAfterAtIsAccepted(local: string, rest: string)
    requires |local| > 0 && forall j :: 0 <= j < |local| ==> IsLocalChar(local[j])
    requires |rest| > 0 && forall j :: 0 <= j < |rest| ==> !IsLineTerminator(rest[j])
    ensures EmailMatches(local + "@" + rest)
  {
    var s := local + "@" + rest;
    assert s[|local|] == '@';
    assert forall j :: |local| < j < |s| ==> s[j] == rest[j - |local| - 1];
    assert LocalPart(s, |local|);
  }

  lemma DoubleAtIsAccepted()
    ensures EmailMatches("a@b@c")
  {
    AnythingAfterAtIsAccepted("a", "b@c");
    assert "a" + "@" + "b@c" == "a@b@c";
  }

  /** An address whose only `@` is its last character is rejected. */
  lemma EmptyDomainIsRejected(local: string)
    requires forall j :: 0 <= j < |local| ==> IsLocalChar(local[j])
    ensures !EmailMatches(local + "@")
  {
    var s := local + "@";
    forall i | 0 < i < |s| - 1
      ensures s[i] != '@'
    {
      assert s[i] == local[i];
    }
  }

  /** With a well-formed rest, a short password is refused by the policy
      check, after the match check has passed. */
  lemma ShortPasswordIsRefused()
    ensures Decide(RegisterArgs("a@b", "Ani", "01/02/2000", "tuli", "abc", "abc")) == Reject(PolicyMessage)
  {
    assert "a@b"[1] == '@';
    assert LocalPart("a@b", 1);
    assert EmailMatches("a@b");
    assert !IsBlank("Ani") by { assert !IsWhitespace("Ani"[0]); }
    assert !IsBlank("01/02/2000") by { assert !IsWhitespace("01/02/2000"[0]); }
    assert !IsBlank("tuli") by { assert !IsWhitespace("tuli"[0]); }
    assert !IsBlank("abc") by { assert !IsWhitespace("abc"[0]); }
    assert !IsBlank("a@b") by { assert !IsWhitespace("a@b"[0]); }
  }
}

=== FILE: Security.dfy ===
/** Password hashing and JWT handling, which the server imports from its
    security module, taken as parameters: `hash` and `verify` stand for the
    bcrypt pair, `decode` for signature-and-expiry checking. */
module Security {
  import opened Wrappers

  datatype Hasher = Hasher(hash: string -> string, verify: (string, string) -> bool)

  /** The claims the server signs or reads back. */
  datatype Claims = Claims(sub: Option<string>, typ: Option<string>, exp: int)

  /** `jwt.decode`: the payload, or the two failures the server tells apart. */
  datatype Decoded = Payload(claims: Claims) | Expired | Malformed

  /** What `create_access_token(data={"sub": sub}, expires_delta)` is asked to sign. */
  datatype AccessToken = AccessToken(sub: string, expiresMinutes: int)

  const AccessTokenExpireMinutes := 30
}

=== FILE: SecurityViewModel.dfy ===
/** The security view model: verifying the current password to obtain a
    single-use verification token, then changing the password with it. */
module SecurityViewModel {
  import opened Wrappers
  import opened Chars
  import PM = PreferenceManager
  import Repo = UserRepositoryImpl

  const SpecialChars := "!@#$"

  /** At least 8 characters with an upper-case letter, a lower-case letter,
      a digit and one of `!@#$`. */
  predicate IsPasswordValid(p: string) {
    |p| >= 8 && HasUpper(p) && HasLower(p) && HasDigit(p) && HasCharIn(p, SpecialChars)
  }

  /** `verificationToken` is the in-memory copy; `prefs` holds the stored one. */
  datatype SecurityVm = SecurityVm(isLoading: bool, verificationToken: Option<string>, prefs: PM.Prefs)

  datatype SecurityEvent = VerifyPassword(currentPassword: string)
                         | ChangePassword(newPassword: string, confirmPassword: string)
                         | ResetState

  datatype UiEvent = ShowError(message: string) | PasswordChanged(message: string)
                   | NavigateToChangePassword | NavigateBack | NavigateToProfile

  /** One handled event: the view model after it, the UI events emitted in
      order, whether `isLoading` was raised meanwhile, the change request
      sent to the repository, if any, and the current password sent to
      `verifyPassword`, if any. */
  datatype Step = Step(vm: SecurityVm, events: seq<UiEvent>, loadingRaised: bool,
                       request: Option<Repo.ChangePasswordRequest>, verified: Option<string>)

  const UnknownError := "Unknown error occurred"

  /** `result` is what `userRepository.verifyPassword` returns for
      `currentPassword`. */
  function Verify(vm: SecurityVm, currentPassword: string, result: KResult<string>): (r: Step)
    ensures r.loadingRaised && !r.vm.isLoading && r.request == None
    ensures r.verified == Some(currentPassword)
    ensures result.KSuccess? ==>
              r.vm.verificationToken == Some(result.value) &&
              r.vm.prefs == PM.SaveVerificationToken(vm.prefs, result.value) &&
              r.events == [NavigateToChangePassword]
    ensures result.KFailure? ==>
              r.vm.verificationToken == vm.verificationToken && r.vm.prefs == vm.prefs &&
              r.events == [ShowError(result.message.GetOr(UnknownError))]
  {
    match result
    case KSuccess(t) => Step(SecurityVm(false, Some(t), PM.SaveVerificationToken(vm.prefs, t)), [NavigateToChangePassword], true, None, Some(currentPassword))
    case KFailure(m) => Step(vm.(isLoading := false), [ShowError(m.GetOr(UnknownError))], true, None, Some(currentPassword))
  }

  /** `result` is what `userRepository.changePassword` returns for the
      request; it is consulted only when a request is sent. */
  function Change(vm: SecurityVm, newPassword: string, confirmPassword: string, result: KResult<string>): (r: Step)
    ensures newPassword != confirmPassword ==>
              r == Step(vm, [ShowError("Passwords do not match")], false, None, None)
    ensures newPassword == confirmPassword && !IsPasswordValid(newPassword) ==>
              r == Step(vm, [ShowError("Password does not meet requirements")], false, None, None)
    ensures newPassword == confirmPassword && IsPasswordValid(newPassword) && PM.GetVerificationToken(vm.prefs).None? ==>
              r == Step(vm, [ShowError("Verification token not found")], false, None, None)
    ensures r.request.Some? <==>
              newPassword == confirmPassword && IsPasswordValid(newPassword) && PM.GetVerificationToken(vm.prefs).Some?
    ensures r.request.Some? ==>
              r.request.value == Repo.MakeChangePasswordRequest(PM.GetVerificationToken(vm.prefs).value, newPassword, confirmPassword) &&
              r.loadingRaised && !r.vm.isLoading && r.vm.verificationToken == vm.verificationToken
    ensures r.request.Some? && result.KSuccess? ==>
              r.vm.prefs == PM.ClearVerificationToken(vm.prefs) &&
              r.events == [PasswordChanged(result.value), NavigateToProfile]
    ensures r.request.Some? && result.KFailure? ==>
              r.vm.prefs == vm.prefs && r.events == [ShowError(result.message.GetOr(UnknownError))]
    ensures r.verified == None
  {
    if newPassword != confirmPassword then Step(vm, [ShowError("Passwords do not match")], false, None, None)
    else if !IsPasswordValid(newPassword) then Step(vm, [ShowError("Password does not meet requirements")], false, None, None)
    else match PM.GetVerificationToken(vm.prefs)
      case None => Step(vm, [ShowError("Verification token not found")], false, None, None)
      case Some(token) =>
        var req := Some(Repo.MakeChangePasswordRequest(token, newPassword, confirmPassword));
        match result
        case KSuccess(m) =>
          Step(vm.(isLoading := false, prefs := PM.ClearVerificationToken(vm.prefs)), [PasswordChanged(m), NavigateToProfile], true, req, None)
        case KFailure(e) => Step(vm.(isLoading := false), [ShowError(e.GetOr(UnknownError))], true, req, None)
  }

  function Reset(vm: SecurityVm): (r: SecurityVm)
    ensures !r.isLoading && r.verificationToken == None
    ensures r.prefs == PM.ClearVerificationToken(vm.prefs)
  {
    SecurityVm(false, None, PM.ClearVerificationToken(vm.prefs))
  }

  /** `onEvent`; `result` is the repository's answer to whichever call the
      event makes. */
  function OnEvent(vm: SecurityVm, e: SecurityEvent, result: KResult<string>): (r: Step)
    ensures e.VerifyPassword? ==> r == Verify(vm, e.currentPassword, result)
    ensures e.ChangePassword? ==> r == Change(vm, e.newPassword, e.confirmPassword, result)
    ensures e.ResetState? ==> r == Step(Reset(vm), [], false, None, None)
  {
    match e
    case VerifyPassword(p) => Verify(vm, p, result)
    case ChangePassword(n, c) => Change(vm, n, c, result)
    case ResetState => Step(Reset(vm), [], false, None, None)
  }

  /** `isLoading` starts false and is false again after every event. */
  lemma LoadingNeverSticks(vm: SecurityVm, e: SecurityEvent, result: KResult<string>)
    requires !vm.isLoading
    ensures !OnEvent(vm, e, result).vm.isLoading
  {
  }

  /** A successful verification followed by a valid change sends the token
      just obtained, and a successful change leaves no stored token, so the
      same token is never sent twice from the store. */
  lemma VerifyThenChange(vm: SecurityVm, current: string, token: string, p: string, message: string, again: KResult<string>)
    requires IsPasswordValid(p)
    ensures var v := Verify(vm, current, KSuccess(token)).vm;
            var c := Change(v, p, p, KSuccess(message));
            c.request == Some(Repo.ChangePasswordRequest(token, p, p)) &&
            Change(c.vm, p, p, again).request == None
  {
  }
}

=== FILE: Seqs.dfy ===
/** Order-preserving filtering and offset/limit paging of query results. */
module Seqs {
  import opened Wrappers

  /** `a` is obtained from `b` by deleting elements, keeping the order. */
  predicate SubseqOf<T(==)>(a: seq<T>, b: seq<T>)
    decreases |b|
  {
    |a| == 0 || (|b| > 0 && ((a[0] == b[0] && SubseqOf(a[1..], b[1..])) || SubseqOf(a, b[1..])))
  }

  /** Kotlin's `filter` / SQL's `WHERE`. */
  function Filter<T>(s: seq<T>, p: T -> bool): (r: seq<T>)
    ensures |r| <= |s|
    ensures forall x :: x in r ==> x in s && p(x)
    ensures forall x :: x in s && p(x) ==> x in r
    decreases |s|
  {
    if |s| == 0 then []
    else if p(s[0]) then [s[0]] + Filter(s[1..], p)
    else Filter(s[1..], p)
  }

  lemma {:induction false} FilterIsSubseq<T>(s: seq<T>, p: T -> bool)
    ensures SubseqOf(Filter(s, p), s)
    decreases |s|
  {
    if |s| == 0 {
    } else {
      FilterIsSubseq(s[1..], p);
      if p(s[0]) {
        var r := Filter(s, p);
        assert r[0] == s[0] && r[1..] == Filter(s[1..], p);
      } else {
        var r := Filter(s, p);
        assert r == Filter(s[1..], p);
        if |r| > 0 {
          assert SubseqOf(r, s[1..]);
        }
      }
    }
  }

  /** Filtering with a predicate that holds everywhere keeps the whole sequence. */
  lemma {:induction false} FilterAll<T>(s: seq<T>, p: T -> bool)
    requires forall x :: x in s ==> p(x)
    ensures Filter(s, p) == s
    decreases |s|
  {
    if |s| > 0 {
      assert forall x :: x in s[1..] ==> x in s;
      FilterAll(s[1..], p);
      assert [s[0]] + s[1..] == s;
    }
  }

  /** Filtering distributes over concatenation. */
  lemma {:induction false} FilterConcat<T>(a: seq<T>, b: seq<T>, p: T -> bool)
    ensures Filter(a + b, p) == Filter(a, p) + Filter(b, p)
    decreases |a|
  {
    if |a| == 0 {
      assert a + b == b;
    } else {
      assert (a + b)[1..] == a[1..] + b;
      FilterConcat(a[1..], b, p);
    }
  }

  /** An element the predicate rejects drops out from between two parts. */
  lemma FilterSkip<T>(a: seq<T>, x: T, b: seq<T>, p: T -> bool)
    requires !p(x)
    ensures Filter(a + [x] + b, p) == Filter(a, p) + Filter(b, p)
  {
    assert Filter([x], p) == [] by { assert [x][1..] == []; }
    FilterConcat(a, [x], p);
    assert Filter(a + [x], p) == Filter(a, p);
    FilterConcat(a + [x], b, p);
  }

  /** Filtering with a predicate that holds nowhere keeps nothing. */
  lemma {:induction false} FilterNone<T>(s: seq<T>, p: T -> bool)
    requires forall x :: x in s ==> !p(x)
    ensures Filter(s, p) == []
    decreases |s|
  {
    if |s| > 0 {
      assert forall x :: x in s[1..] ==> x in s;
      FilterNone(s[1..], p);
    }
  }

  /** The number of elements of `s` that satisfy `p`. */
  function Count<T>(s: seq<T>, p: T -> bool): (n: nat)
    decreases |s|
  {
    if |s| == 0 then 0 else (if p(s[0]) then 1 else 0) + Count(s[1..], p)
  }

  lemma {:induction false} FilterLength<T>(s: seq<T>, p: T -> bool)
    ensures |Filter(s, p)| == Count(s, p)
    decreases |s|
  {
    if |s| > 0 {
      FilterLength(s[1..], p);
    }
  }

  /** SQL's `.first()` after a `WHERE`: the position of the first match. */
  function FindFirst<T>(s: seq<T>, p: T -> bool): (r: Option<nat>)
    ensures r.Some? ==> r.value < |s| && p(s[r.value]) && forall j :: 0 <= j < r.value ==> !p(s[j])
    ensures r.None? ==> forall j :: 0 <= j < |s| ==> !p(s[j])
    decreases |s|
  {
    if |s| == 0 then None
    else if p(s[0]) then Some(0)
    else match FindFirst(s[1..], p)
      case None => None
      case Some(i) => Some(i + 1)
  }

  /** `s` without its element at position `k`. */
  function RemoveAt<T>(s: seq<T>, k: nat): (r: seq<T>)
    requires k < |s|
    ensures |r| == |s| - 1
    ensures forall j :: 0 <= j < k ==> r[j] == s[j]
    ensures forall j :: k <= j < |r| ==> r[j] == s[j + 1]
  {
    s[..k] + s[k + 1..]
  }

  /** What `RemoveAt` keeps: every element at another position. */
  lemma RemoveAtKeepsOthers<T>(s: seq<T>, k: nat)
    requires k < |s|
    ensures forall x :: x in RemoveAt(s, k) ==> x in s
    ensures forall j :: 0 <= j < |s| && j != k ==> s[j] in RemoveAt(s, k)
  {
    var r := RemoveAt(s, k);
    forall x | x in r ensures x in s {
      var j :| 0 <= j < |r| && r[j] == x;
      if j < k { assert s[j] == x; } else { assert s[j + 1] == x; }
    }
    forall j | 0 <= j < |s| && j != k ensures s[j] in r {
      if j < k { assert r[j] == s[j]; } else { assert r[j - 1] == s[j]; }
    }
  }

  function Min(a: nat, b: nat): nat { if a <= b then a else b }

  /** SQL's `OFFSET skip LIMIT limit`. */
  function Page<T>(s: seq<T>, skip: nat, limit: nat): (r: seq<T>)
    ensures |r| == Min(limit, |s| - Min(skip, |s|))
    ensures forall i :: 0 <= i < |r| ==> r[i] == s[skip + i]
  {
    s[Min(skip, |s|)..Min(skip + limit, |s|)]
  }

  /** Kotlin's `split(d)`: every occurrence of `d` separates two parts, and
      empty parts are kept, so there is always one more part than delimiters. */
  function Split<T(==)>(s: seq<T>, d: T): (r: seq<seq<T>>)
    ensures |r| > 0
    decreases |s|
  {
    if |s| == 0 then [[]]
    else
      var rest := Split(s[1..], d);
      if s[0] == d then [[]] + rest else [[s[0]] + rest[0]] + rest[1..]
  }

  /** How many times `d` occurs in `s`. */
  function Occurrences<T(==)>(s: seq<T>, d: T): nat
    decreases |s|
  {
    if |s| == 0 then 0 else (if s[0] == d then 1 else 0) + Occurrences(s[1..], d)
  }

  lemma {:induction false} SplitLength<T>(s: seq<T>, d: T)
    ensures |Split(s, d)| == Occurrences(s, d) + 1
    decreases |s|
  {
    if |s| > 0 {
      SplitLength(s[1..], d);
    }
  }

  /** A delimiter-free prefix is glued onto the first part. */
  lemma {:induction false} SplitPrefix<T>(x: seq<T>, t: seq<T>, d: T)
    requires d !in x
    ensures Split(x + t, d) == [x + Split(t, d)[0]] + Split(t, d)[1..]
    decreases |x|
  {
    if |x| == 0 {
      assert x + t == t;
      var r := Split(t, d);
      assert x + r[0] == r[0];
      assert [r[0]] + r[1..] == r;
    } else {
      assert (x + t)[1..] == x[1..] + t;
      SplitPrefix(x[1..], t, d);
      assert [x[0]] + (x[1..] + Split(t, d)[0]) == x + Split(t, d)[0];
    }
  }

  /** `a d b d c` with delimiter-free `a`, `b`, `c` splits into exactly those three. */
  lemma SplitThree<T>(a: seq<T>, b: seq<T>, c: seq<T>, d: T)
    requires d !in a && d !in b && d !in c
    ensures Split(a + [d] + b + [d] + c, d) == [a, b, c]
  {
    SplitPrefix(c, [], d);
    assert c + [] == c;
    var tail := [d] + c;
    assert Split(tail, d) == [[]] + Split(c, d) by { assert tail[1..] == c; }
    SplitPrefix(b, tail, d);
    assert b + [] == b;
    var mid := [d] + (b + tail);
    assert Split(mid, d) == [[]] + Split(b + tail, d) by { assert mid[1..] == b + tail; }
    SplitPrefix(a, mid, d);
    assert a + [] == a;
    assert a + [d] + b + [d] + c == a + mid;
  }
}

=== FILE: SummaryEndpoint.dfy ===
/** The checks the `/summaries` handlers make on the summary they looked
    up, before handing it to the repository. Each takes that lookup's result. */
module SummaryEndpoint {
  import opened Wrappers
  import opened SummaryRepository

  const CannotUpdatePublished := "Cannot update published summaries"

  /** GET: 404, then 403 unless owner or published. */
  function CheckGet(found: Option<Summary>, caller: int): (r: Reply<Summary>)
    ensures found.None? ==> r == Raise(404, SummaryNotFound)
    ensures found.Some? && found.value.userId != caller && !found.value.isPublished ==> r == Raise(403, NoAccess)
    ensures r.Done? <==> found.Some? && Visible(found.value, caller)
    ensures r.Done? ==> r.value == found.value
  {
    match found
    case None => Raise(404, SummaryNotFound)
    case Some(s) =>
      if s.userId != caller && !s.isPublished then Raise(403, NoAccess) else Done(s)
  }

  /** PUT: 404, then 403 unless owner, then 400 once published. */
  function CheckUpdate(found: Option<Summary>, caller: int): (r: Reply<Summary>)
    ensures found.None? ==> r == Raise(404, SummaryNotFound)
    ensures found.Some? && found.value.userId != caller ==> r == Raise(403, OnlyOwnUpdate)
    ensures found.Some? && found.value.userId == caller && found.value.isPublished ==> r == Raise(400, CannotUpdatePublished)
    ensures r.Done? <==> found.Some? && found.value.userId == caller && !found.value.isPublished
    ensures r.Done? ==> r.value == found.value
  {
    match found
    case None => Raise(404, SummaryNotFound)
    case Some(s) =>
      if s.userId != caller then Raise(403, OnlyOwnUpdate)
      else if s.isPublished then Raise(400, CannotUpdatePublished)
      else Done(s)
  }

  /** DELETE: 404, then 403 unless owner. */
  function CheckDelete(found: Option<Summary>, caller: int): (r: Reply<Summary>)
    ensures found.None? ==> r == Raise(404, SummaryNotFound)
    ensures found.Some? && found.value.userId != caller ==> r == Raise(403, OnlyOwnDelete)
    ensures r.Done? <==> found.Some? && found.value.userId == caller
    ensures r.Done? ==> r.value == found.value
  {
    match found
    case None => Raise(404, SummaryNotFound)
    case Some(s) => if s.userId != caller then Raise(403, OnlyOwnDelete) else Done(s)
  }

  /** POST publish: 404, then 403 unless owner, then 400 once published. */
  function CheckPublish(found: Option<Summary>, caller: int): (r: Reply<Summary>)
    ensures found.None? ==> r == Raise(404, SummaryNotFound)
    ensures found.Some? && found.value.userId != caller ==> r == Raise(403, OnlyOwnPublish)
    ensures found.Some? && found.value.userId == caller && found.value.isPublished ==> r == Raise(400, AlreadyPublished)
    ensures r.Done? <==> found.Some? && found.value.userId == caller && !found.value.isPublished
    ensures r.Done? ==> r.value == found.value
  {
    match found
    case None => Raise(404, SummaryNotFound)
    case Some(s) =>
      if s.userId != caller then Raise(403, OnlyOwnPublish)
      else if s.isPublished then Raise(400, AlreadyPublished)
      else Done(s)
  }

  predicate SameError<A, B>(a: Reply<A>, b: Reply<B>) {
    a.Raise? && b.Raise? && a.status == b.status && a.detail == b.detail
  }

  function Lookup(db: SummaryDb, id: int): Option<Summary> {
    if id in db.summaries then Some(db.summaries[id]) else None
  }

  /** The handlers' checks give the same outcome as the repository's own
      for get, delete and publish; for update the handler is stricter and
      also refuses published summaries, which the repository would change. */
  lemma HandlersAgreeWithRepository(db: SummaryDb, id: int, caller: int, p: SummaryPublish, u: SummaryUpdate)
    ensures CheckGet(Lookup(db, id), caller).Done? <==> GetSummary(db, id, caller).Done?
    ensures CheckGet(Lookup(db, id), caller).Raise? ==> SameError(CheckGet(Lookup(db, id), caller), GetSummary(db, id, caller))
    ensures CheckDelete(Lookup(db, id), caller).Raise? ==> SameError(CheckDelete(Lookup(db, id), caller), DeleteSummary(db, id, caller))
    ensures CheckDelete(Lookup(db, id), caller).Done? <==> DeleteSummary(db, id, caller).Done?
    ensures CheckPublish(Lookup(db, id), caller).Raise? ==> SameError(CheckPublish(Lookup(db, id), caller), PublishSummary(db, id, p, caller))
    ensures CheckPublish(Lookup(db, id), caller).Done? <==> PublishSummary(db, id, p, caller).Done?
    ensures CheckUpdate(Lookup(db, id), caller).Done? ==> UpdateSummary(db, id, u, caller).Done?
    ensures id in db.summaries && db.summaries[id].userId == caller && db.summaries[id].isPublished ==>
      CheckUpdate(Lookup(db, id), caller).Raise? && UpdateSummary(db, id, u, caller).Done?
  {
  }
}

=== FILE: SummaryRepository.dfy ===
/** The server's summary repository: private drafts that their owner may
    publish once, with comments, likes and bookmarks on published ones.
    Summaries are keyed by id; likes and bookmarks are sets of
    (summary id, user id) pairs. */
module SummaryRepository {
  import opened Wrappers
  import opened Toggles
  import Seqs

  datatype Summary = Summary(
    id: int, judul: Option<string>, subjudul: Option<string>, topic: Option<string>,
    isi: string, isPublished: bool, userId: int)

  datatype SummaryComment = SummaryComment(id: int, content: string, summaryId: int, userId: int)

  datatype SummaryDb = SummaryDb(
    summaries: map<int, Summary>, comments: seq<SummaryComment>,
    likes: set<(int, int)>, bookmarks: set<(int, int)>, nextCommentId: int)

  datatype SummaryUpdate = SummaryUpdate(isi: string)
  datatype SummaryPublish = SummaryPublish(judul: string, subjudul: Option<string>, topic: string, isi: string)

  const SummaryNotFound := "Summary not found"
  const NoAccess := "You don't have access to this summary"
  const OnlyOwnUpdate := "You can only update your own summaries"
  const OnlyOwnPublish := "You can only publish your own summaries"
  const AlreadyPublished := "Summary is already published"
  const OnlyOwnDelete := "You can only delete your own summaries"
  const CannotComment := "Cannot comment on unpublished summaries"
  const CannotLike := "Cannot like unpublished summaries"
  const CannotBookmark := "Cannot bookmark unpublished summaries"

  /** The aggregate row of the statistics query; SQL NULLs are None. */
  datatype SummaryStats = SummaryStats(
    summary: Summary, userName: string,
    likeCount: Option<int>, commentCount: Option<int>, bookmarkCount: Option<int>,
    hasLiked: Option<bool>, hasBookmarked: Option<bool>)

  datatype SummaryView = SummaryView(
    summary: Summary, userName: string, likeCount: int, commentCount: int, bookmarkCount: int,
    hasLiked: bool, hasBookmarked: bool, comments: seq<SummaryComment>)

  /** `_format_summary_response`: no row gives no response; missing counts
      read as 0 and missing flags as False; comments start empty. */
  function FormatSummary(data: Option<SummaryStats>): (r: Option<SummaryView>)
    ensures r.None? <==> data.None?
    ensures r.Some? ==> r.value.summary == data.value.summary && r.value.userName == data.value.userName
    ensures r.Some? ==> r.value.likeCount == (if data.value.likeCount.Some? then data.value.likeCount.value else 0)
    ensures r.Some? ==> r.value.commentCount == (if data.value.commentCount.Some? then data.value.commentCount.value else 0)
    ensures r.Some? ==> r.value.bookmarkCount == (if data.value.bookmarkCount.Some? then data.value.bookmarkCount.value else 0)
    ensures r.Some? ==> (r.value.hasLiked <==> data.value.hasLiked == Some(true))
    ensures r.Some? ==> (r.value.hasBookmarked <==> data.value.hasBookmarked == Some(true))
    ensures r.Some? ==> r.value.comments == []
  {
    match data
    case None => None
    case Some(d) =>
      Some(SummaryView(d.summary, d.userName, d.likeCount.GetOr(0), d.commentCount.GetOr(0), d.bookmarkCount.GetOr(0),
                       d.hasLiked.GetOr(false), d.hasBookmarked.GetOr(false), []))
  }

  /** Published, or the caller's own. */
  predicate Visible(s: Summary, caller: int) { s.isPublished || s.userId == caller }

  function CommentsOf(comments: seq<SummaryComment>, id: int): (r: seq<SummaryComment>)
    ensures forall c :: c in r <==> c in comments && c.summaryId == id
    decreases |comments|
  {
    if |comments| == 0 then []
    else (if comments[0].summaryId == id then [comments[0]] else []) + CommentsOf(comments[1..], id)
  }

  /** The comments on other summaries, in table order: a subsequence that
      keeps every one of them. */
  function CommentsNotOn(comments: seq<SummaryComment>, id: int): (r: seq<SummaryComment>)
    ensures forall c :: c in r <==> c in comments && c.summaryId != id
    ensures Seqs.SubseqOf(r, comments)
    ensures |r| == Seqs.Count(comments, (c: SummaryComment) => c.summaryId != id)
    decreases |comments|
  {
    if |comments| == 0 then []
    else
      var rest := CommentsNotOn(comments[1..], id);
      if comments[0].summaryId != id then
        assert ([comments[0]] + rest)[1..] == rest;
        [comments[0]] + rest
      else rest
  }

  /** `get_summary`: 404, then 403 for someone else's draft; the summary
      comes back with its comments. */
  function GetSummary(db: SummaryDb, id: int, caller: int): (r: Reply<(Summary, seq<SummaryComment>)>)
    ensures id !in db.summaries ==> r == Raise(404, SummaryNotFound)
    ensures id in db.summaries && !Visible(db.summaries[id], caller) ==> r == Raise(403, NoAccess)
    ensures r.Done? <==> id in db.summaries && Visible(db.summaries[id], caller)
    ensures r.Done? ==> r.value.0 == db.summaries[id] && forall c :: c in r.value.1 <==> c in db.comments && c.summaryId == id
  {
    if id !in db.summaries then Raise(404, SummaryNotFound)
    else if !Visible(db.summaries[id], caller) then Raise(403, NoAccess)
    else Done((db.summaries[id], CommentsOf(db.comments, id)))
  }

  /** The list filter: `published_only` wins over `private_only`; with
      neither, what the caller may see. */
  predicate Listed(s: Summary, caller: int, publishedOnly: bool, privateOnly: bool) {
    if publishedOnly then s.isPublished
    else if privateOnly then s.userId == caller
    else Visible(s, caller)
  }

  /** `get_summaries`; the query has no order, so the result is a set. */
  function GetSummaries(db: SummaryDb, caller: int, publishedOnly: bool, privateOnly: bool): (r: set<Summary>)
    ensures forall s :: s in r <==> s in db.summaries.Values && Listed(s, caller, publishedOnly, privateOnly)
  {
    set s | s in db.summaries.Values && Listed(s, caller, publishedOnly, privateOnly)
  }

  /** The default listing is the union of the other two, and
      `published_only` decides alone when both flags are set. */
  lemma ListingsCombine(db: SummaryDb, caller: int)
    ensures GetSummaries(db, caller, false, false) == GetSummaries(db, caller, true, false) + GetSummaries(db, caller, false, true)
    ensures GetSummaries(db, caller, true, true) == GetSummaries(db, caller, true, false)
    ensures forall s :: s in GetSummaries(db, caller, false, false) ==> Visible(s, caller)
  {
  }

  /** `update_summary`: owner only; the request's `isi` replaces the stored
      one and nothing else changes. */
  function UpdateSummary(db: SummaryDb, id: int, u: SummaryUpdate, userId: int): (r: Reply<(SummaryDb, Summary)>)
    ensures id !in db.summaries ==> r == Raise(404, SummaryNotFound)
    ensures id in db.summaries && db.summaries[id].userId != userId ==> r == Raise(403, OnlyOwnUpdate)
    ensures r.Done? <==> id in db.summaries && db.summaries[id].userId == userId
    ensures r.Done? ==> r.value.1 == db.summaries[id].(isi := u.isi)
    ensures r.Done? ==> r.value.0 == db.(summaries := db.summaries[id := r.value.1])
  {
    if id !in db.summaries then Raise(404, SummaryNotFound)
    else if db.summaries[id].userId != userId then Raise(403, OnlyOwnUpdate)
    else
      var s := db.summaries[id].(isi := u.isi);
      Done((db.(summaries := db.summaries[id := s]), s))
  }

  /** `publish_summary`: owner only, once; the request fills the title,
      subtitle, topic and text and the summary becomes published. */
  function PublishSummary(db: SummaryDb, id: int, p: SummaryPublish, userId: int): (r: Reply<(SummaryDb, Summary)>)
    ensures id !in db.summaries ==> r == Raise(404, SummaryNotFound)
    ensures id in db.summaries && db.summaries[id].userId != userId ==> r == Raise(403, OnlyOwnPublish)
    ensures id in db.summaries && db.summaries[id].userId == userId && db.summaries[id].isPublished ==> r == Raise(400, AlreadyPublished)
    ensures r.Done? <==> id in db.summaries && db.summaries[id].userId == userId && !db.summaries[id].isPublished
    ensures r.Done? ==> r.value.1.judul == Some(p.judul) && r.value.1.subjudul == p.subjudul && r.value.1.topic == Some(p.topic)
    ensures r.Done? ==> r.value.1.isi == p.isi && r.value.1.id == db.summaries[id].id && r.value.1.userId == userId
    ensures r.Done? ==> r.value.1.isPublished && r.value.0 == db.(summaries := db.summaries[id := r.value.1])
  {
    if id !in db.summaries then Raise(404, SummaryNotFound)
    else
      var s := db.summaries[id];
      if s.userId != userId then Raise(403, OnlyOwnPublish)
      else if s.isPublished then Raise(400, AlreadyPublished)
      else
        var s' := s.(judul := Some(p.judul), subjudul := p.subjudul, topic := Some(p.topic), isi := p.isi, isPublished := true);
        Done((db.(summaries := db.summaries[id := s']), s'))
  }

  /** `delete_summary`: owner only; the summary goes, and the database's
      `ON DELETE CASCADE` on the comment, like and bookmark tables takes
      its comments, likes and bookmarks with it. */
  function DeleteSummary(db: SummaryDb, id: int, userId: int): (r: Reply<(SummaryDb, bool)>)
    ensures id !in db.summaries ==> r == Raise(404, SummaryNotFound)
    ensures id in db.summaries && db.summaries[id].userId != userId ==> r == Raise(403, OnlyOwnDelete)
    ensures r.Done? <==> id in db.summaries && db.summaries[id].userId == userId
    ensures r.Done? ==> r.value.1 && id !in r.value.0.summaries
    ensures r.Done? ==> forall k :: k != id ==> (k in r.value.0.summaries <==> k in db.summaries)
    ensures r.Done? ==> forall k :: k in r.value.0.summaries ==> r.value.0.summaries[k] == db.summaries[k]
    ensures r.Done? ==> forall c :: c in r.value.0.comments <==> c in db.comments && c.summaryId != id
    ensures r.Done? ==> Seqs.SubseqOf(r.value.0.comments, db.comments) &&
                        |r.value.0.comments| == Seqs.Count(db.comments, (c: SummaryComment) => c.summaryId != id)
    ensures r.Done? ==> forall p :: p in r.value.0.likes <==> p in db.likes && p.0 != id
    ensures r.Done? ==> forall p :: p in r.value.0.bookmarks <==> p in db.bookmarks && p.0 != id
    ensures r.Done? ==> r.value.0.nextCommentId == db.nextCommentId
  {
    if id !in db.summaries then Raise(404, SummaryNotFound)
    else if db.summaries[id].userId != userId then Raise(403, OnlyOwnDelete)
    else
      var likes := set p | p in db.likes && p.0 != id;
      var bookmarks := set p | p in db.bookmarks && p.0 != id;
      Done((db.(summaries := db.summaries - {id}, comments := CommentsNotOn(db.comments, id),
                likes := likes, bookmarks := bookmarks), true))
  }

  /** `create_comment`: only on published summaries. */
  function CreateComment(db: SummaryDb, id: int, content: string, userId: int): (r: Reply<(SummaryDb, SummaryComment)>)
    ensures id !in db.summaries ==> r == Raise(404, SummaryNotFound)
    ensures id in db.summaries && !db.summaries[id].isPublished ==> r == Raise(400, CannotComment)
    ensures r.Done? <==> id in db.summaries && db.summaries[id].isPublished
    ensures r.Done? ==> r.value.1 == SummaryComment(db.nextCommentId, content, id, userId)
    ensures r.Done? ==> r.value.0 == db.(comments := db.comments + [r.value.1], nextCommentId := db.nextCommentId + 1)
  {
    if id !in db.summaries then Raise(404, SummaryNotFound)
    else if !db.summaries[id].isPublished then Raise(400, CannotComment)
    else
      var c := SummaryComment(db.nextCommentId, content, id, userId);
      Done((db.(comments := db.comments + [c], nextCommentId := db.nextCommentId + 1), c))
  }

  /** `toggle_like`: only on published summaries; True iff the user had not
      liked it before. */
  function ToggleLike(db: SummaryDb, id: int, userId: int): (r: Reply<(SummaryDb, bool)>)
    ensures id !in db.summaries ==> r == Raise(404, SummaryNotFound)
    ensures id in db.summaries && !db.summaries[id].isPublished ==> r == Raise(400, CannotLike)
    ensures r.Done? <==> id in db.summaries && db.summaries[id].isPublished
    ensures r.Done? ==> (r.value.1 <==> (id, userId) !in db.likes)
    ensures r.Done? ==> r.value.0 == db.(likes := Toggle(db.likes, (id, userId)).0)
  {
    if id !in db.summaries then Raise(404, SummaryNotFound)
    else if !db.summaries[id].isPublished then Raise(400, CannotLike)
    else
      var (likes, added) := Toggle(db.likes, (id, userId));
      Done((db.(likes := likes), added))
  }

  /** `toggle_bookmark`: the same switch on bookmarks. */
  function ToggleBookmark(db: SummaryDb, id: int, userId: int): (r: Reply<(SummaryDb, bool)>)
    ensures id !in db.summaries ==> r == Raise(404, SummaryNotFound)
    ensures id in db.summaries && !db.summaries[id].isPublished ==> r == Raise(400, CannotBookmark)
    ensures r.Done? <==> id in db.summaries && db.summaries[id].isPublished
    ensures r.Done? ==> (r.value.1 <==> (id, userId) !in db.bookmarks)
    ensures r.Done? ==> r.value.0 == db.(bookmarks := Toggle(db.bookmarks, (id, userId)).0)
  {
    if id !in db.summaries then Raise(404, SummaryNotFound)
    else if !db.summaries[id].isPublished then Raise(400, CannotBookmark)
    else
      var (bookmarks, added) := Toggle(db.bookmarks, (id, userId));
      Done((db.(bookmarks := bookmarks), added))
  }

  /** Liking twice, or bookmarking twice, restores the sets. */
  lemma {:induction false} TogglesUndoThemselves(db: SummaryDb, id: int, userId: int)
    requires ToggleLike(db, id, userId).Done?
    ensures ToggleLike(ToggleLike(db, id, userId).value.0, id, userId).Done?
    ensures ToggleLike(ToggleLike(db, id, userId).value.0, id, userId).value.0 == db
    ensures ToggleBookmark(ToggleBookmark(db, id, userId).value.0, id, userId).value.0 == db
  {
    ToggleIsInvolution(db.likes, (id, userId));
    ToggleIsInvolution(db.bookmarks, (id, userId));
  }

  /** Publishing is one-way: a published summary stays published through
      every other operation, and cannot be published again. */
  lemma PublishIsOneWay(db: SummaryDb, id: int, p: SummaryPublish, q: SummaryPublish, u: SummaryUpdate, userId: int, other: int)
    requires PublishSummary(db, id, p, userId).Done?
    ensures
      var db' := PublishSummary(db, id, p, userId).value.0;
      PublishSummary(db', id, q, userId) == Raise(400, AlreadyPublished) &&
      db'.summaries[id].isPublished &&
      (UpdateSummary(db', id, u, userId).Done? ==> UpdateSummary(db', id, u, userId).value.1.isPublished) &&
      (ToggleLike(db', id, other).Done? && CreateComment(db', id, "", other).Done?)
  {
  }
}

=== FILE: Toggles.dfy ===
/** The like and bookmark switches: a membership flip on a set of
    (item, user) pairs that answers whether the pair is now present. */
module Toggles {

  function Toggle<T(==,!new)>(s: set<T>, x: T): (r: (set<T>, bool))
    ensures r.1 <==> x !in s
    ensures x in r.0 <==> r.1
    ensures forall y :: y != x ==> (y in r.0 <==> y in s)
  {
    if x in s then (s - {x}, false) else (s + {x}, true)
  }

  /** Toggling twice restores the set, and the two answers differ. */
  lemma {:induction false} ToggleIsInvolution<T(!new)>(s: set<T>, x: T)
    ensures Toggle(Toggle(s, x).0, x).0 == s
    ensures Toggle(Toggle(s, x).0, x).1 == !Toggle(s, x).1
  {
    var (s1, _) := Toggle(s, x);
    var (s2, _) := Toggle(s1, x);
    forall y ensures y in s2 <==> y in s {
      if y == x {
        assert x in s1 <==> x !in s;
      }
    }
  }
}

=== FILE: TokenManager.dfy ===
/** Session bootstrap: `TokenManager.validateToken` checks the stored session
    token against the profile endpoint, and `MainActivity` turns the answer
    into the start route. */
module TokenManager {
  import opened Wrappers
  import opened ClientModels
  import PM = PreferenceManager

  /** `isTokenValid` is None until the first validation (unknown). */
  datatype TokenManager = TokenManager(prefs: PM.Prefs, isTokenValid: Option<bool>)

  function Init(prefs: PM.Prefs): (r: TokenManager)
    ensures r.isTokenValid == None && r.prefs == prefs
  {
    TokenManager(prefs, None)
  }

  /** What `validateToken` returns, the manager after it, and whether it
      contacted the server at all. */
  datatype Validation = Validation(manager: TokenManager, valid: bool, askedServer: bool)

  /** `profile` is the outcome the profile request would have; it is only
      consulted when a token is stored. A 2xx status counts as valid even
      with an empty body. */
  function ValidateToken(tm: TokenManager, profile: Call<UserResponse>): (r: Validation)
    ensures PM.GetToken(tm.prefs).None? ==>
              !r.valid && !r.askedServer && r.manager == TokenManager(tm.prefs, Some(false))
    ensures PM.GetToken(tm.prefs).Some? ==> r.askedServer
    ensures r.valid <==> PM.GetToken(tm.prefs).Some? && profile.Ok?
    ensures r.valid ==> r.manager.prefs == tm.prefs
    ensures !r.valid ==> r.manager.prefs == PM.ClearToken(tm.prefs)
    ensures r.manager.isTokenValid == Some(r.valid)
  {
    match PM.GetToken(tm.prefs)
    case None => Validation(TokenManager(tm.prefs, Some(false)), false, false)
    case Some(_) =>
      match profile
      case Ok(_) => Validation(TokenManager(tm.prefs, Some(true)), true, true)
      case Fail(_, _) => Validation(ClearToken(tm), false, true)
      case Exn(_) => Validation(ClearToken(tm), false, true)
  }

  function ClearToken(tm: TokenManager): (r: TokenManager)
    ensures PM.GetToken(r.prefs) == None
    ensures PM.SameOutside(r.prefs, tm.prefs, {PM.KeyToken})
    ensures r.isTokenValid == Some(false)
  {
    TokenManager(PM.ClearToken(tm.prefs), Some(false))
  }

  /** After validation the flag is known and says exactly whether a session
      token is still stored. */
  lemma ValidationLeavesFlagInSync(tm: TokenManager, profile: Call<UserResponse>)
    ensures var m := ValidateToken(tm, profile).manager;
            m.isTokenValid == Some(PM.GetToken(m.prefs).Some?)
  {
  }

  datatype Route = Home | Login

  function StartRoute(isValid: bool): (r: Route)
    ensures r == Home <==> isValid
  {
    if isValid then Home else Login
  }

  /** The app opens on Home exactly when a token is stored and the server
      answered the profile request with a 2xx status; otherwise it opens on
      Login, with the session token gone. */
  lemma StartsAtHomeIffServerAccepts(tm: TokenManager, profile: Call<UserResponse>)
    ensures var v := ValidateToken(tm, profile);
            (StartRoute(v.valid) == Home <==> PM.GetToken(tm.prefs).Some? && profile.Ok?) &&
            (StartRoute(v.valid) == Login ==> PM.GetToken(v.manager.prefs) == None)
  {
  }
}

=== FILE: TranslationRepository.dfy ===
/** The server's translation repository: translator profiles and the orders
    placed with them, as two tables with the ids the database hands out next. */
module TranslationRepository {
  import opened Wrappers
  import opened Seqs
  import opened TranslationSchemas

  datatype Translator = Translator(id: int, name: string, alamat: string, availability: bool, profilePic: Option<string>, userId: int)

  datatype Order = Order(id: int, tanggal: string, timeSlot: string, description: string, status: string, userId: int, translatorId: int)

  datatype TranslationDb = TranslationDb(translators: seq<Translator>, orders: seq<Order>, nextTranslatorId: int, nextOrderId: int)

  const TranslatorNotFound := "Translator not found"
  const TranslatorNotAvailable := "Translator is not available"
  const OrderNotFound := "Order not found"
  const NotAuthorizedForOrder := "Not authorized to update this order"

  predicate TranslatorHasId(t: Translator, id: int) { t.id == id }
  predicate TranslatorOfUser(t: Translator, userId: int) { t.userId == userId }
  predicate OrderHasId(o: Order, id: int) { o.id == id }
  predicate OrderOfUser(o: Order, userId: int) { o.userId == userId }
  predicate OrderOfTranslator(o: Order, translatorId: int) { o.translatorId == translatorId }

  function ByUser(userId: int): Order -> bool { o => OrderOfUser(o, userId) }
  function ByTranslator(translatorId: int): Order -> bool { o => OrderOfTranslator(o, translatorId) }

  /** Python truthiness of an optional string. */
  function Truthy(s: Option<string>): Option<string> {
    if s.Some? && s.value != "" then s else None
  }

  /** `create_translator`: the new row takes the caller's id as owner. */
  function CreateTranslator(db: TranslationDb, t: TranslatorBase, userId: int): (r: (TranslationDb, Translator))
    ensures r.1 == Translator(db.nextTranslatorId, t.name, t.alamat, t.availability, Truthy(t.profilePic), userId)
    ensures r.0 == db.(translators := db.translators + [r.1], nextTranslatorId := db.nextTranslatorId + 1)
  {
    var row := Translator(db.nextTranslatorId, t.name, t.alamat, t.availability, Truthy(t.profilePic), userId);
    (db.(translators := db.translators + [row], nextTranslatorId := db.nextTranslatorId + 1), row)
  }

  /** `get_translator`. */
  function GetTranslator(db: TranslationDb, id: int): (r: Option<Translator>)
    ensures r.Some? <==> exists i :: 0 <= i < |db.translators| && db.translators[i].id == id
    ensures r.Some? ==> r.value in db.translators && r.value.id == id
  {
    match FindFirst(db.translators, t => TranslatorHasId(t, id))
    case None => None
    case Some(i) => Some(db.translators[i])
  }

  /** `get_translator_by_user_id`: the first profile the user owns. */
  function GetTranslatorByUserId(db: TranslationDb, userId: int): (r: Option<Translator>)
    ensures r.Some? <==> exists i :: 0 <= i < |db.translators| && db.translators[i].userId == userId
    ensures r.Some? ==> r.value in db.translators && r.value.userId == userId
  {
    match FindFirst(db.translators, t => TranslatorOfUser(t, userId))
    case None => None
    case Some(i) => Some(db.translators[i])
  }

  /** `get_translators`: one page, and the number of all translators. */
  function GetTranslators(db: TranslationDb, skip: nat, limit: nat): (r: (seq<Translator>, nat))
    ensures r.1 == |db.translators|
    ensures |r.0| <= limit
    ensures |r.0| == Seqs.Min(limit, |db.translators| - Seqs.Min(skip, |db.translators|))
    ensures forall i :: 0 <= i < |r.0| ==> skip + i < |db.translators| && r.0[i] == db.translators[skip + i]
  {
    (Page(db.translators, skip, limit), |db.translators|)
  }

  /** `update_translator`: 404 for an unknown id, else every field of the
      request replaces the stored one; id and owner stay. */
  function UpdateTranslator(db: TranslationDb, id: int, u: TranslatorBase): (r: Reply<(TranslationDb, Translator)>)
    ensures r.Raise? <==> GetTranslator(db, id).None?
    ensures r.Raise? ==> r == Raise(404, TranslatorNotFound)
    ensures r.Done? ==> r.value.1 == Translator(id, u.name, u.alamat, u.availability, u.profilePic, GetTranslator(db, id).value.userId)
    ensures r.Done? ==> r.value.0.orders == db.orders && |r.value.0.translators| == |db.translators|
    ensures r.Done? ==> forall i :: 0 <= i < |db.translators| && db.translators[i].id != id ==> r.value.0.translators[i] == db.translators[i]
  {
    match FindFirst(db.translators, t => TranslatorHasId(t, id))
    case None => Raise(404, TranslatorNotFound)
    case Some(i) =>
      var row := db.translators[i].(name := u.name, alamat := u.alamat, availability := u.availability, profilePic := u.profilePic);
      Done((db.(translators := db.translators[i := row]), row))
  }

  /** `create_order`: 404 for an unknown translator, 400 for an unavailable
      one, else a new `pending` order with the request's translator. */
  function CreateOrder(db: TranslationDb, o: OrderCreate, userId: int): (r: Reply<(TranslationDb, Order)>)
    ensures GetTranslator(db, o.translatorId).None? ==> r == Raise(404, TranslatorNotFound)
    ensures GetTranslator(db, o.translatorId).Some? && !GetTranslator(db, o.translatorId).value.availability
      ==> r == Raise(400, TranslatorNotAvailable)
    ensures r.Done? <==> GetTranslator(db, o.translatorId).Some? && GetTranslator(db, o.translatorId).value.availability
    ensures r.Done? ==> r.value.1 == Order(db.nextOrderId, o.tanggal, o.timeSlot, o.description, Pending, userId, o.translatorId)
    ensures r.Done? ==> r.value.0 == db.(orders := db.orders + [r.value.1], nextOrderId := db.nextOrderId + 1)
  {
    match GetTranslator(db, o.translatorId)
    case None => Raise(404, TranslatorNotFound)
    case Some(t) =>
      if !t.availability then Raise(400, TranslatorNotAvailable)
      else
        var row := Order(db.nextOrderId, o.tanggal, o.timeSlot, o.description, Pending, userId, o.translatorId);
        Done((db.(orders := db.orders + [row], nextOrderId := db.nextOrderId + 1), row))
  }

  /** `get_user_orders`: a page of the user's orders, and how many there are. */
  function GetUserOrders(db: TranslationDb, userId: int, skip: nat, limit: nat): (r: (seq<Order>, nat))
    ensures r.1 == Count(db.orders, ByUser(userId))
    ensures |r.0| <= limit
    ensures forall o :: o in r.0 ==> o in db.orders && o.userId == userId
    ensures r.0 == Page(Filter(db.orders, ByUser(userId)), skip, limit)
  {
    FilterLength(db.orders, ByUser(userId));
    var mine := Filter(db.orders, ByUser(userId));
    var page := Page(mine, skip, limit);
    assert forall o :: o in page ==> o in mine;
    (page, |mine|)
  }

  /** `get_translator_orders`: the same, for orders placed with a translator. */
  function GetTranslatorOrders(db: TranslationDb, translatorId: int, skip: nat, limit: nat): (r: (seq<Order>, nat))
    ensures r.1 == Count(db.orders, ByTranslator(translatorId))
    ensures |r.0| <= limit
    ensures forall o :: o in r.0 ==> o in db.orders && o.translatorId == translatorId
    ensures r.0 == Page(Filter(db.orders, ByTranslator(translatorId)), skip, limit)
  {
    FilterLength(db.orders, ByTranslator(translatorId));
    var theirs := Filter(db.orders, ByTranslator(translatorId));
    var page := Page(theirs, skip, limit);
    assert forall o :: o in page ==> o in theirs;
    (page, |theirs|)
  }

  /** A first page at least as long as the total lists every matching order. */
  lemma {:induction false} FullPageListsEveryOrder(db: TranslationDb, userId: int, limit: nat)
    requires limit >= GetUserOrders(db, userId, 0, limit).1
    ensures forall o :: o in db.orders && o.userId == userId ==> o in GetUserOrders(db, userId, 0, limit).0
  {
    var mine := Filter(db.orders, ByUser(userId));
    FilterLength(db.orders, ByUser(userId));
    assert Page(mine, 0, limit) == mine;
  }

  /** `get_order`. */
  function GetOrder(db: TranslationDb, id: int): (r: Option<Order>)
    ensures r.Some? <==> exists i :: 0 <= i < |db.orders| && db.orders[i].id == id
    ensures r.Some? ==> r.value in db.orders && r.value.id == id
  {
    match FindFirst(db.orders, o => OrderHasId(o, id))
    case None => None
    case Some(i) => Some(db.orders[i])
  }

  /** The repository's own rule: the client, or the user whose (first)
      translator profile the order was placed with. */
  predicate MayUpdateOrder(db: TranslationDb, o: Order, userId: int) {
    o.userId == userId ||
    (GetTranslatorByUserId(db, userId).Some? && GetTranslatorByUserId(db, userId).value.id == o.translatorId)
  }

  /** `update_order_status`: 404, then 403 unless `MayUpdateOrder`, then only
      the status of that order changes. */
  function UpdateOrderStatus(db: TranslationDb, id: int, status: string, userId: int): (r: Reply<(TranslationDb, Order)>)
    ensures GetOrder(db, id).None? ==> r == Raise(404, OrderNotFound)
    ensures GetOrder(db, id).Some? && !MayUpdateOrder(db, GetOrder(db, id).value, userId)
      ==> r == Raise(403, NotAuthorizedForOrder)
    ensures r.Done? <==> GetOrder(db, id).Some? && MayUpdateOrder(db, GetOrder(db, id).value, userId)
    ensures r.Done? ==> r.value.1 == GetOrder(db, id).value.(status := status)
    ensures r.Done? ==> r.value.0.translators == db.translators && |r.value.0.orders| == |db.orders|
    ensures r.Done? ==> forall i :: 0 <= i < |db.orders| && db.orders[i].id != id ==> r.value.0.orders[i] == db.orders[i]
    ensures r.Done? ==> GetOrder(r.value.0, id) == Some(r.value.1)
  {
    match FindFirst(db.orders, o => OrderHasId(o, id))
    case None => Raise(404, OrderNotFound)
    case Some(i) =>
      var o := db.orders[i];
      if !MayUpdateOrder(db, o, userId) then Raise(403, NotAuthorizedForOrder)
      else
        var row := o.(status := status);
        var db' := db.(orders := db.orders[i := row]);
        assert FindFirst(db'.orders, o => OrderHasId(o, id)) == Some(i) by {
          assert forall j :: 0 <= j < i ==> db'.orders[j] == db.orders[j];
          assert OrderHasId(db'.orders[i], id);
        }
        Done((db', row))
  }
}

=== FILE: TranslationSchemas.dfy ===
/** The server's translator and translation-order request schemas. */
module TranslationSchemas {
  import opened Wrappers
  import opened Chars

  const MaxName := 100
  const MaxAlamat := 255
  const MaxDescription := 500

  /** `TranslatorBase`, shared by `TranslatorCreate` and `TranslatorUpdate`;
      URL syntax of `profile_pic` is not part of this model. */
  datatype TranslatorBase = TranslatorBase(name: string, alamat: string, availability: bool, profilePic: Option<string>)

  /** A request body as sent: `availability` may be omitted. */
  datatype TranslatorBody = TranslatorBody(name: string, alamat: string, availability: Option<bool>, profilePic: Option<string>)

  /** Parsing a body: an omitted `availability` means the translator is available. */
  function ReadTranslator(b: TranslatorBody): (r: TranslatorBase)
    ensures r.availability <==> b.availability != Some(false)
    ensures r.name == b.name && r.alamat == b.alamat && r.profilePic == b.profilePic
  {
    TranslatorBase(b.name, b.alamat, b.availability.GetOr(true), b.profilePic)
  }

  predicate ValidTranslator(t: TranslatorBase) {
    1 <= |t.name| <= MaxName && 1 <= |t.alamat| <= MaxAlamat
  }

  /** `TranslationOrderBase` / `TranslationOrderCreate`; the date is kept as
      text and the time slot is free-form here. */
  datatype OrderCreate = OrderCreate(tanggal: string, timeSlot: string, description: string, translatorId: int)

  predicate ValidOrder(o: OrderCreate) { 1 <= |o.description| <= MaxDescription }

  const Pending := "pending"
  const Confirmed := "confirmed"
  const Cancelled := "cancelled"
  const Completed := "completed"

  /** The `TranslationOrderUpdate.status` pattern `^(pending|confirmed|cancelled|completed)$`. */
  predicate StatusMatches(s: string) {
    s == Pending || s == Confirmed || s == Cancelled || s == Completed
  }

  /** The pattern is anchored at both ends: a status with anything
      non-empty added before or after it no longer matches. */
  lemma PatternIsAnchored(s: string, extra: string)
    ensures StatusMatches(s) && extra != [] ==> !StatusMatches(s + extra) && !StatusMatches(extra + s)
    ensures !StatusMatches("pending ") && !StatusMatches("xconfirmed") && !StatusMatches("Completed")
  {
    if StatusMatches(s) && extra != [] {
      // Only `pending` is shorter than another status, and it differs from
      // the longer ones in its first and in its last letter.
      var t, u := s + extra, extra + s;
      assert t[0] == s[0] && u[|u| - 1] == s[|s| - 1];
      assert |t| > |s| && |u| > |s|;
    }
  }

  /** `TranslationOrder.user_identity_type`: the lowercased identity of the
      ordering user, or None without a user. */
  function UserIdentityType(userIdentity: Option<string>): (r: Option<string>)
    ensures r.None? <==> userIdentity.None?
    ensures r.Some? ==> |r.value| == |userIdentity.value| && forall i :: 0 <= i < |r.value| ==> !IsUpper(r.value[i])
    ensures r.Some? ==> ToLower(r.value) == ToLower(userIdentity.value)
  {
    match userIdentity
    case None => None
    case Some(s) =>
      ToLowerIsIdempotent(s);
      Some(ToLower(s))
  }
}

=== FILE: TranslationService.dfy ===
/** The server's translation service: the role checks and lifecycle rules
    in front of the repository. The caller's identity arrives as the text of
    its enum value and is compared lowercased. */
module TranslationService {
  import opened Wrappers
  import opened Chars
  import opened TranslationSchemas
  import opened TranslationRepository

  const OnlyAdminCreatesTranslators := "Only admin can create JBI translators"
  const NotAuthorizedForTranslator := "Not authorized to update this translator profile"
  const CannotOrder := "JBI and dengar users cannot create translation orders"
  const TranslatorProfileNotFound := "Translator profile not found"
  const OnlyAdminConfirms := "Only admin can confirm or cancel orders"
  const OnlyOwnerMarksCompleted := "Only the order owner can mark it as completed"
  const OnlyConfirmedMarkedCompleted := "Only confirmed orders can be marked as completed"
  const OnlyOwnerCompletes := "Only the order owner can complete this order"
  const OnlyConfirmedCompleted := "Only confirmed orders can be completed"

  /** The bookable time slots, in the order the service lists them. */
  const TimeSlots: seq<string> := [
    "08.00 - 09.00", "08.00 - 10.00", "09.00 - 10.00", "09.00 - 11.00",
    "10.00 - 12.00", "10.00 - 11.00", "11.00 - 12.00", "11.00 - 13.00",
    "12.00 - 13.00", "12.00 - 14.00", "13.00 - 14.00", "13.00 - 15.00",
    "14.00 - 15.00", "14.00 - 16.00", "15.00 - 16.00", "15.00 - 17.00",
    "16.00 - 17.00", "16.00 - 18.00", "17.00 - 18.00", "17.00 - 19.00",
    "18.00 - 19.00"]

  /** Python's rendering of a list of strings: `['a', 'b']`. */
  function ListRepr(items: seq<string>): string {
    "[" + Joined(items) + "]"
  }

  function Joined(items: seq<string>): string
    decreases |items|
  {
    if |items| == 0 then ""
    else "'" + items[0] + "'" + (if |items| == 1 then "" else ", " + Joined(items[1..]))
  }

  function InvalidTimeSlot(): string {
    "Invalid time slot. Valid options are: " + ListRepr(TimeSlots)
  }

  predicate IsAdmin(identity: string) { ToLower(identity) == "admin" }

  /** `create_translator`: admins only. */
  function CreateTranslator(db: TranslationDb, t: TranslatorBase, userId: int, identity: string): (r: Reply<(TranslationDb, Translator)>)
    ensures r.Raise? <==> !IsAdmin(identity)
    ensures r.Raise? ==> r == Raise(403, OnlyAdminCreatesTranslators)
    ensures r.Done? ==> r.value == TranslationRepository.CreateTranslator(db, t, userId)
    ensures r.Done? ==> r.value.1.userId == userId && |r.value.0.translators| == |db.translators| + 1
  {
    if !IsAdmin(identity) then Raise(403, OnlyAdminCreatesTranslators)
    else Done(TranslationRepository.CreateTranslator(db, t, userId))
  }

  /** `get_translator`: 404 for an unknown id. */
  function GetTranslator(db: TranslationDb, id: int): (r: Reply<Translator>)
    ensures r.Raise? <==> TranslationRepository.GetTranslator(db, id).None?
    ensures r.Raise? ==> r == Raise(404, TranslatorNotFound)
    ensures r.Done? ==> r.value in db.translators && r.value.id == id
  {
    match TranslationRepository.GetTranslator(db, id)
    case None => Raise(404, TranslatorNotFound)
    case Some(t) => Done(t)
  }

  datatype Paginated<+T> = Paginated(items: seq<T>, total: nat)

  /** `get_translators`: the repository's page and total, unchanged. */
  function GetTranslators(db: TranslationDb, skip: nat, limit: nat): (r: Paginated<Translator>)
    ensures (r.items, r.total) == TranslationRepository.GetTranslators(db, skip, limit)
    ensures r.total == |db.translators|
  {
    var (items, total) := TranslationRepository.GetTranslators(db, skip, limit);
    Paginated(items, total)
  }

  /** `update_translator`: 404, then 403 unless the caller owns the profile. */
  function UpdateTranslator(db: TranslationDb, id: int, u: TranslatorBase, userId: int): (r: Reply<(TranslationDb, Translator)>)
    ensures TranslationRepository.GetTranslator(db, id).None? ==> r == Raise(404, TranslatorNotFound)
    ensures r.Done? <==> TranslationRepository.GetTranslator(db, id).Some? && TranslationRepository.GetTranslator(db, id).value.userId == userId
    ensures r.Done? ==> r == TranslationRepository.UpdateTranslator(db, id, u)
    ensures TranslationRepository.GetTranslator(db, id).Some? && TranslationRepository.GetTranslator(db, id).value.userId != userId
      ==> r == Raise(403, NotAuthorizedForTranslator)
  {
    match TranslationRepository.GetTranslator(db, id)
    case None => Raise(404, TranslatorNotFound)
    case Some(t) =>
      if t.userId != userId then Raise(403, NotAuthorizedForTranslator)
      else TranslationRepository.UpdateTranslator(db, id, u)
  }

  predicate MayOrder(identity: string) { ToLower(identity) != "jbi" && ToLower(identity) != "dengar" }

  /** `create_order`: the identity check comes before any lookup; then 404,
      400 for an unavailable translator, 400 for a slot outside the list,
      and the repository's own checks. The service's `translator_id` is used
      for its lookup only: the repository reads the order's own. */
  function CreateOrder(db: TranslationDb, o: OrderCreate, translatorId: int, userId: int, identity: string)
    : (r: Reply<(TranslationDb, Order)>)
    ensures !MayOrder(identity) ==> r == Raise(403, CannotOrder)
    ensures MayOrder(identity) && TranslationRepository.GetTranslator(db, translatorId).None? ==> r == Raise(404, TranslatorNotFound)
    ensures (MayOrder(identity) && TranslationRepository.GetTranslator(db, translatorId).Some? &&
             !TranslationRepository.GetTranslator(db, translatorId).value.availability)
      ==> r == Raise(400, TranslatorNotAvailable)
    ensures r.Done? ==> MayOrder(identity) && o.timeSlot in TimeSlots
    ensures (MayOrder(identity) && TranslationRepository.GetTranslator(db, translatorId).Some? &&
             TranslationRepository.GetTranslator(db, translatorId).value.availability)
      ==> r == (if o.timeSlot in TimeSlots then TranslationRepository.CreateOrder(db, o, userId) else Raise(400, InvalidTimeSlot()))
    ensures r.Done? ==> r.value.1.status == Pending && r.value.1.userId == userId
  {
    if !MayOrder(identity) then Raise(403, CannotOrder)
    else match TranslationRepository.GetTranslator(db, translatorId)
      case None => Raise(404, TranslatorNotFound)
      case Some(t) =>
        if !t.availability then Raise(400, TranslatorNotAvailable)
        else if o.timeSlot !in TimeSlots then Raise(400, InvalidTimeSlot())
        else TranslationRepository.CreateOrder(db, o, userId)
  }

  /** `get_user_orders`: the repository's page and total, unchanged. */
  function GetUserOrders(db: TranslationDb, userId: int, skip: nat, limit: nat): (r: Paginated<Order>)
    ensures (r.items, r.total) == TranslationRepository.GetUserOrders(db, userId, skip, limit)
    ensures forall o :: o in r.items ==> o.userId == userId
  {
    var (items, total) := TranslationRepository.GetUserOrders(db, userId, skip, limit);
    Paginated(items, total)
  }

  /** `get_translator_orders`: 404 without a translator profile, else the
      orders of the caller's (first) profile. */
  function GetTranslatorOrders(db: TranslationDb, userId: int, skip: nat, limit: nat): (r: Reply<Paginated<Order>>)
    ensures r.Raise? <==> GetTranslatorByUserId(db, userId).None?
    ensures r.Raise? ==> r == Raise(404, TranslatorProfileNotFound)
    ensures r.Done? ==>
      (r.value.items, r.value.total) == TranslationRepository.GetTranslatorOrders(db, GetTranslatorByUserId(db, userId).value.id, skip, limit)
  {
    match GetTranslatorByUserId(db, userId)
    case None => Raise(404, TranslatorProfileNotFound)
    case Some(t) =>
      var (items, total) := TranslationRepository.GetTranslatorOrders(db, t.id, skip, limit);
      Done(Paginated(items, total))
  }

  /** `update_order_status` on a status the schema accepted: 404; then
      confirming or cancelling needs an admin; completing needs the owner
      and a confirmed order; `pending` has no rule here. The repository's
      client-or-translator check follows in every case. */
  function UpdateOrderStatus(db: TranslationDb, id: int, status: string, userId: int, identity: string)
    : (r: Reply<(TranslationDb, Order)>)
    ensures GetOrder(db, id).None? ==> r == Raise(404, OrderNotFound)
    ensures GetOrder(db, id).Some? && (status == Confirmed || status == Cancelled) && !IsAdmin(identity)
      ==> r == Raise(403, OnlyAdminConfirms)
    ensures GetOrder(db, id).Some? && status == Completed && GetOrder(db, id).value.userId != userId
      ==> r == Raise(403, OnlyOwnerMarksCompleted)
    ensures (GetOrder(db, id).Some? && status == Completed && GetOrder(db, id).value.userId == userId &&
             GetOrder(db, id).value.status != Confirmed)
      ==> r == Raise(400, OnlyConfirmedMarkedCompleted)
    ensures r.Done? ==> r == TranslationRepository.UpdateOrderStatus(db, id, status, userId)
    ensures r.Done? && status == Completed ==> GetOrder(db, id).value.status == Confirmed
    ensures (GetOrder(db, id).Some? && !((status == Confirmed || status == Cancelled) && !IsAdmin(identity)) &&
             !(status == Completed && (GetOrder(db, id).value.userId != userId || GetOrder(db, id).value.status != Confirmed)))
      ==> r == TranslationRepository.UpdateOrderStatus(db, id, status, userId)
  {
    match GetOrder(db, id)
    case None => Raise(404, OrderNotFound)
    case Some(o) =>
      if (status == Confirmed || status == Cancelled) && !IsAdmin(identity) then Raise(403, OnlyAdminConfirms)
      else if status == Completed && o.userId != userId then Raise(403, OnlyOwnerMarksCompleted)
      else if status == Completed && o.status != Confirmed then Raise(400, OnlyConfirmedMarkedCompleted)
      else TranslationRepository.UpdateOrderStatus(db, id, status, userId)
  }

  /** `complete_order`: 404, 403 unless the owner, 400 unless confirmed, then
      the order becomes completed. */
  function CompleteOrder(db: TranslationDb, id: int, userId: int): (r: Reply<(TranslationDb, Order)>)
    ensures GetOrder(db, id).None? ==> r == Raise(404, OrderNotFound)
    ensures GetOrder(db, id).Some? && GetOrder(db, id).value.userId != userId ==> r == Raise(403, OnlyOwnerCompletes)
    ensures GetOrder(db, id).Some? && GetOrder(db, id).value.userId == userId && GetOrder(db, id).value.status != Confirmed
      ==> r == Raise(400, OnlyConfirmedCompleted)
    ensures r.Done? <==> GetOrder(db, id).Some? && GetOrder(db, id).value.userId == userId && GetOrder(db, id).value.status == Confirmed
    ensures r.Done? ==> r.value.1 == GetOrder(db, id).value.(status := Completed)
    ensures r.Done? ==> r.value.0.translators == db.translators && |r.value.0.orders| == |db.orders|
    ensures r.Done? ==> forall i :: 0 <= i < |db.orders| && db.orders[i].id != id ==> r.value.0.orders[i] == db.orders[i]
    ensures r.Done? ==> GetOrder(r.value.0, id) == Some(r.value.1)
  {
    match GetOrder(db, id)
    case None => Raise(404, OrderNotFound)
    case Some(o) =>
      if o.userId != userId then Raise(403, OnlyOwnerCompletes)
      else if o.status != Confirmed then Raise(400, OnlyConfirmedCompleted)
      else TranslationRepository.UpdateOrderStatus(db, id, Completed, userId)
  }

  /** Being an admin is not enough to confirm: the admin must also be the
      client or own the translator profile the order was placed with. */
  lemma AdminsAreStillGated(db: TranslationDb, id: int, userId: int, identity: string)
    requires IsAdmin(identity)
    requires GetOrder(db, id).Some? && !MayUpdateOrder(db, GetOrder(db, id).value, userId)
    ensures UpdateOrderStatus(db, id, Confirmed, userId, identity) == Raise(403, NotAuthorizedForOrder)
    ensures UpdateOrderStatus(db, id, Cancelled, userId, identity) == Raise(403, NotAuthorizedForOrder)
  {
  }

  /** Completing an order twice fails the second time: it is no longer
      confirmed. */
  lemma {:induction false} CompletionHappensOnce(db: TranslationDb, id: int, userId: int)
    requires CompleteOrder(db, id, userId).Done?
    ensures CompleteOrder(CompleteOrder(db, id, userId).value.0, id, userId) == Raise(400, OnlyConfirmedCompleted)
  {
    var db' := CompleteOrder(db, id, userId).value.0;
    assert GetOrder(db', id) == Some(GetOrder(db, id).value.(status := Completed));
  }

  /** The two-digit hour written at `s[k]`, `s[k + 1]`. */
  function HourAt(s: string, k: nat): int
    requires k + 2 <= |s|
  {
    (s[k] as int - '0' as int) * 10 + (s[k + 1] as int - '0' as int)
  }

  /** `s` reads `HH.00 - HH.00`, starting on the hour between 08.00 and
      18.00 and lasting one or two hours. */
  predicate OfficeHoursSlot(s: string) {
    |s| == 13 && IsDigit(s[0]) && IsDigit(s[1]) && s[2] == '.' && s[3] == '0' && s[4] == '0' &&
    s[5] == ' ' && s[6] == '-' && s[7] == ' ' && IsDigit(s[8]) && IsDigit(s[9]) &&
    s[10] == '.' && s[11] == '0' && s[12] == '0' &&
    8 <= HourAt(s, 0) <= 18 && 1 <= HourAt(s, 8) - HourAt(s, 0) <= 2 && HourAt(s, 8) <= 19
  }

  /** Every bookable slot is an office-hours slot of one or two hours, and
      no slot is listed twice. */
  lemma TimeSlotsAreOfficeHours()
    ensures forall i :: 0 <= i < |TimeSlots| ==> OfficeHoursSlot(TimeSlots[i])
    ensures forall i, j :: 0 <= i < j < |TimeSlots| ==> TimeSlots[i] != TimeSlots[j]
  {
    forall i | 0 <= i < |TimeSlots| ensures OfficeHoursSlot(TimeSlots[i]) {
      var s := TimeSlots[i];
      assert |s| == 13;
    }
  }
}

=== FILE: UserEndpoint.dfy ===
/** The server's `/users` handlers that decide something: resolving the
    caller from the bearer token, issuing a password-change token, and
    accepting it once. A decoded token is a parameter; the clock is an
    integer number of seconds. */
module UserEndpoint {
  import opened Wrappers
  import opened UserRepository
  import Security

  const CredentialsError := "Could not validate credentials"
  const InvalidCurrentPassword := "Invalid current password"
  const InvalidVerificationToken := "Invalid verification token"
  const ExpiredVerificationToken := "Verification token has expired. Please verify your current password again."
  const PasswordChanged := "Password successfully changed"
  const PasswordChangeType := "password_change"
  /** Five minutes, in seconds. */
  const VerificationLifetime := 5 * 60

  /** `get_current_user`: a token that does not decode, has no subject, or
      names no stored email gives the same 401. */
  function GetCurrentUser(users: seq<UserRow>, token: Security.Decoded): (r: Reply<UserRow>)
    ensures r.Done? <==>
      token.Payload? && token.claims.sub.Some? &&
      exists i :: 0 <= i < |users| && users[i].email == token.claims.sub.value
    ensures r.Done? ==> r.value in users && r.value.email == token.claims.sub.value
    ensures r.Raise? ==> r == Raise(401, CredentialsError)
  {
    match token
    case Payload(claims) =>
      if claims.sub.None? then Raise(401, CredentialsError)
      else (match GetUserByEmail(users, claims.sub.value)
        case None => Raise(401, CredentialsError)
        case Some(u) => Done(u))
    case Expired => Raise(401, CredentialsError)
    case Malformed => Raise(401, CredentialsError)
  }

  /** `verify_current_password`: the claims to sign for a correct password,
      else 400. */
  function VerifyCurrentPassword(u: UserRow, currentPassword: string, h: Security.Hasher, now: int): (r: Reply<Security.Claims>)
    ensures r.Done? <==> h.verify(currentPassword, u.passwordHash)
    ensures r.Done? ==> r.value == Security.Claims(Some(u.email), Some(PasswordChangeType), now + VerificationLifetime)
    ensures r.Raise? ==> r == Raise(400, InvalidCurrentPassword)
  {
    match VerifyPassword(u, currentPassword, h)
    case Passed(_) => Done(Security.Claims(Some(u.email), Some(PasswordChangeType), now + VerificationLifetime))
    case InvalidPasswordError => Raise(400, InvalidCurrentPassword)
  }

  datatype PasswordChange = PasswordChange(message: string, used: set<string>, user: UserRow)

  /** `change_password`: an expired token, an undecodable one, one of another
      type or for another user are refused before the repository runs; the
      repository's own 400 for a used token passes through. */
  function ChangePassword(
    used: set<string>, u: UserRow, token: string, decoded: Security.Decoded,
    newPassword: string, h: Security.Hasher): (r: Reply<PasswordChange>)
    ensures decoded.Expired? ==> r == Raise(400, ExpiredVerificationToken)
    ensures decoded.Malformed? ==> r == Raise(400, InvalidVerificationToken)
    ensures decoded.Payload? && (decoded.claims.typ != Some(PasswordChangeType) || decoded.claims.sub != Some(u.email))
      ==> r == Raise(400, InvalidVerificationToken)
    ensures r.Done? <==>
      decoded.Payload? && decoded.claims.typ == Some(PasswordChangeType) && decoded.claims.sub == Some(u.email) &&
      !IsTokenUsed(used, token)
    ensures r.Done? ==> r.value == PasswordChange(PasswordChanged, used + {token}, u.(passwordHash := h.hash(newPassword)))
  {
    match decoded
    case Expired => Raise(400, ExpiredVerificationToken)
    case Malformed => Raise(400, InvalidVerificationToken)
    case Payload(claims) =>
      if claims.typ != Some(PasswordChangeType) || claims.sub != Some(u.email) then
        Raise(400, InvalidVerificationToken)
      else match UserRepository.ChangePassword(used, u, newPassword, token, h)
        case Raise(s, d) => Raise(s, d)
        case Done((used', u')) => Done(PasswordChange(PasswordChanged, used', u'))
  }

  /** A token issued for `u`, presented before it expires, changes `u`'s
      password once; presented again it is refused, and another user
      cannot use it at all. */
  lemma {:induction false} IssuedTokenWorksOnce(
    used: set<string>, u: UserRow, v: UserRow, current: string, token: string,
    p1: string, p2: string, h: Security.Hasher, now: int)
    requires VerifyCurrentPassword(u, current, h, now).Done?
    requires !IsTokenUsed(used, token)
    requires v.email != u.email
    ensures
      var decoded := Security.Payload(VerifyCurrentPassword(u, current, h, now).value);
      var first := ChangePassword(used, u, token, decoded, p1, h);
      first.Done? &&
      ChangePassword(first.value.used, first.value.user, token, decoded, p2, h) == Raise(400, TokenAlreadyUsed) &&
      ChangePassword(used, v, token, decoded, p1, h) == Raise(400, InvalidVerificationToken)
  {
    var claims := VerifyCurrentPassword(u, current, h, now).value;
    assert claims.sub == Some(u.email) && claims.typ == Some(PasswordChangeType);
    var first := ChangePassword(used, u, token, Security.Payload(claims), p1, h);
    assert first.value.user.email == u.email;
    assert IsTokenUsed(first.value.used, token);
  }

  /** `get_current_user` as written: the module imported as `jwt` has no
      `JWTError`, so any exception leaving the `try` block, the decoder's
      own and the handler's 401 alike, fails while the `except` clause is
      matched and becomes a 500. Only the lookup after the block answers 401. */
  function GetCurrentUserAsWritten(users: seq<UserRow>, token: Security.Decoded): (r: Reply<UserRow>)
    ensures r == Raise(500, InternalServerError) <==> !(token.Payload? && token.claims.sub.Some?)
    ensures r == Raise(401, CredentialsError) <==>
      token.Payload? && token.claims.sub.Some? &&
      !exists i :: 0 <= i < |users| && users[i].email == token.claims.sub.value
    ensures r.Done? ==> r.value in users && r.value.email == token.claims.sub.value
  {
    match token
    case Payload(claims) =>
      if claims.sub.None? then Raise(500, InternalServerError)
      else (match GetUserByEmail(users, claims.sub.value)
        case None => Raise(401, CredentialsError)
        case Some(u) => Done(u))
    case Expired => Raise(500, InternalServerError)
    case Malformed => Raise(500, InternalServerError)
  }

  /** The handler as written and as intended accept the same callers; they
      differ exactly on the tokens refused inside the `try` block. */
  lemma CurrentUserDiffersOnlyInsideTry(users: seq<UserRow>, token: Security.Decoded)
    ensures GetCurrentUserAsWritten(users, token).Done? <==> GetCurrentUser(users, token).Done?
    ensures GetCurrentUserAsWritten(users, token) != GetCurrentUser(users, token) <==>
      !(token.Payload? && token.claims.sub.Some?)
  {
  }

  /** `change_password` as written: the first clause catches an expired
      token; every other exception leaving the `try` block, the handler's own
      400 and the repository's used-token 400 included, reaches
      `except jwt.JWTError` and becomes a 500. */
  function ChangePasswordAsWritten(
    used: set<string>, u: UserRow, token: string, decoded: Security.Decoded,
    newPassword: string, h: Security.Hasher): (r: Reply<PasswordChange>)
    ensures decoded.Expired? ==> r == Raise(400, ExpiredVerificationToken)
    ensures r == Raise(500, InternalServerError) <==> !decoded.Expired? && !r.Done?
    ensures r.Done? <==>
      decoded.Payload? && decoded.claims.typ == Some(PasswordChangeType) && decoded.claims.sub == Some(u.email) &&
      !IsTokenUsed(used, token)
    ensures r.Done? ==> r.value == PasswordChange(PasswordChanged, used + {token}, u.(passwordHash := h.hash(newPassword)))
  {
    match decoded
    case Expired => Raise(400, ExpiredVerificationToken)
    case Malformed => Raise(500, InternalServerError)
    case Payload(claims) =>
      if claims.typ != Some(PasswordChangeType) || claims.sub != Some(u.email) then
        Raise(500, InternalServerError)
      else match UserRepository.ChangePassword(used, u, newPassword, token, h)
        case Raise(_, _) => Raise(500, InternalServerError)
        case Done((used', u')) => Done(PasswordChange(PasswordChanged, used', u'))
  }

  /** As written, every refusal of the intended handler other than the
      expired token turns into a 500; successes agree. */
  lemma ChangePasswordDiffersOnlyInRefusals(
    used: set<string>, u: UserRow, token: string, decoded: Security.Decoded, p: string, h: Security.Hasher)
    ensures ChangePasswordAsWritten(used, u, token, decoded, p, h).Done? ==>
      ChangePasswordAsWritten(used, u, token, decoded, p, h) == ChangePassword(used, u, token, decoded, p, h)
    ensures ChangePassword(used, u, token, decoded, p, h).Raise? && !decoded.Expired? ==>
      ChangePasswordAsWritten(used, u, token, decoded, p, h) == Raise(500, InternalServerError)
  {
  }

  /** As written, a token issued for `u` still changes the password once,
      but presenting it again, or for another user, is a 500 rather than
      a 400. */
  lemma {:induction false} IssuedTokenRefusalsAreServerErrors(
    used: set<string>, u: UserRow, v: UserRow, current: string, token: string,
    p1: string, p2: string, h: Security.Hasher, now: int)
    requires VerifyCurrentPassword(u, current, h, now).Done?
    requires !IsTokenUsed(used, token)
    requires v.email != u.email
    ensures
      var decoded := Security.Payload(VerifyCurrentPassword(u, current, h, now).value);
      var first := ChangePasswordAsWritten(used, u, token, decoded, p1, h);
      first.Done? &&
      ChangePasswordAsWritten(first.value.used, first.value.user, token, decoded, p2, h) == Raise(500, InternalServerError) &&
      ChangePasswordAsWritten(used, v, token, decoded, p1, h) == Raise(500, InternalServerError)
  {
    var claims := VerifyCurrentPassword(u, current, h, now).value;
    assert claims.sub == Some(u.email) && claims.typ == Some(PasswordChangeType);
    var first := ChangePasswordAsWritten(used, u, token, Security.Payload(claims), p1, h);
    assert first.value.user.email == u.email;
    assert IsTokenUsed(first.value.used, token);
  }
}

=== FILE: UserRepository.dfy ===
/** The server's user repository: profile updates, password checks and the
    single-use verification tokens of the password change. The `users` table
    is a sequence of rows in query order, `used_tokens` a set of strings. */
module UserRepository {
  import opened Wrappers
  import opened Seqs
  import Security
  import UserSchemas

  datatype UserRow = UserRow(
    id: int, email: string, fullName: string, birthDate: string, identityType: string,
    institution: Option<string>, profilePictureUrl: Option<string>,
    passwordHash: string, points: int)

  /** Either the repository's value or its `InvalidPasswordError`. */
  datatype Checked<+T> = Passed(value: T) | InvalidPasswordError

  const TokenAlreadyUsed := "This verification token has already been used"

  /** Every email names at most one row (the column is unique). */
  predicate UniqueEmails(users: seq<UserRow>) {
    forall i, j :: 0 <= i < j < |users| ==> users[i].email != users[j].email
  }

  predicate HasEmail(u: UserRow, email: string) { u.email == email }

  /** `get_user_by_email`: the first row with that email. */
  function GetUserByEmail(users: seq<UserRow>, email: string): (r: Option<UserRow>)
    ensures r.Some? <==> exists i :: 0 <= i < |users| && users[i].email == email
    ensures r.Some? ==> r.value in users && r.value.email == email
  {
    match FindFirst(users, u => HasEmail(u, email))
    case None => None
    case Some(i) => Some(users[i])
  }

  /** With unique emails the row found is the only one with that email. */
  lemma FoundRowIsTheOnlyOne(users: seq<UserRow>, email: string, k: nat)
    requires UniqueEmails(users)
    requires k < |users| && users[k].email == email
    ensures GetUserByEmail(users, email) == Some(users[k])
  {
    var i := FindFirst(users, u => HasEmail(u, email)).value;
    assert HasEmail(users[i], email);
  }

  /** `update_profile`: a field changes only when the request supplies a
      non-None value for it; the identity branch is unreachable because the
      request schema has no identity field. */
  function UpdateProfile(u: UserRow, update: UserSchemas.UserProfileUpdate): (r: UserRow)
    ensures r.fullName == (if update.fullName.Some? then update.fullName.value else u.fullName)
    ensures r.birthDate == (if update.birthDate.Some? then update.birthDate.value else u.birthDate)
    ensures r.institution == (if update.institution.Some? then update.institution else u.institution)
    ensures r.profilePictureUrl == (if update.profilePictureUrl.Some? then update.profilePictureUrl else u.profilePictureUrl)
    ensures r.id == u.id && r.email == u.email && r.identityType == u.identityType
    ensures r.passwordHash == u.passwordHash && r.points == u.points
  {
    u.(fullName := update.fullName.GetOr(u.fullName),
       birthDate := update.birthDate.GetOr(u.birthDate),
       institution := if update.institution.Some? then update.institution else u.institution,
       profilePictureUrl := if update.profilePictureUrl.Some? then update.profilePictureUrl else u.profilePictureUrl)
  }

  /** Applying the same update twice is the same as applying it once, and an
      empty update changes nothing. */
  lemma UpdateProfileIsIdempotent(u: UserRow, update: UserSchemas.UserProfileUpdate)
    ensures UpdateProfile(UpdateProfile(u, update), update) == UpdateProfile(u, update)
    ensures UpdateProfile(u, UserSchemas.UserProfileUpdate(None, None, None, None)) == u
  {
  }

  /** `verify_password`: True when the hash verifies, else the error. */
  function VerifyPassword(u: UserRow, currentPassword: string, h: Security.Hasher): (r: Checked<bool>)
    ensures r == Passed(true) <==> h.verify(currentPassword, u.passwordHash)
    ensures r != Passed(false)
  {
    if !h.verify(currentPassword, u.passwordHash) then InvalidPasswordError else Passed(true)
  }

  /** `is_token_used`. */
  predicate IsTokenUsed(used: set<string>, token: string) { token in used }

  /** `invalidate_token`: records the token and nothing else. */
  function InvalidateToken(used: set<string>, token: string): (r: set<string>)
    ensures IsTokenUsed(r, token)
    ensures forall t :: t != token ==> (IsTokenUsed(r, t) <==> IsTokenUsed(used, t))
  {
    used + {token}
  }

  /** `change_password`: a used token gives 400 and changes nothing;
      otherwise the token is recorded and the new password's hash stored. */
  function ChangePassword(used: set<string>, u: UserRow, newPassword: string, token: string, h: Security.Hasher)
    : (r: Reply<(set<string>, UserRow)>)
    ensures IsTokenUsed(used, token) <==> r == Raise(400, TokenAlreadyUsed)
    ensures r.Done? ==> r.value.0 == InvalidateToken(used, token)
    ensures r.Done? ==> r.value.1 == u.(passwordHash := h.hash(newPassword))
  {
    if IsTokenUsed(used, token) then Raise(400, TokenAlreadyUsed)
    else
      var used' := InvalidateToken(used, token);
      Done((used', u.(passwordHash := h.hash(newPassword))))
  }

  /** A verification token changes the password at most once. */
  lemma TokenIsSingleUse(used: set<string>, u: UserRow, p1: string, p2: string, token: string, h: Security.Hasher)
    requires ChangePassword(used, u, p1, token, h).Done?
    ensures
      var (used', u') := ChangePassword(used, u, p1, token, h).value;
      ChangePassword(used', u', p2, token, h) == Raise(400, TokenAlreadyUsed)
  {
    var (used', u') := ChangePassword(used, u, p1, token, h).value;
    assert IsTokenUsed(used', token);
  }

  predicate OtherId(u: UserRow, id: int) { u.id != id }

  /** `delete_user`: the row goes only when the password verifies. */
  function DeleteUser(users: seq<UserRow>, u: UserRow, password: string, h: Security.Hasher): (r: Checked<seq<UserRow>>)
    ensures r.InvalidPasswordError? <==> !h.verify(password, u.passwordHash)
    ensures r.Passed? ==> forall x :: x in r.value <==> x in users && x.id != u.id
    ensures r.Passed? ==> SubseqOf(r.value, users)
  {
    if !h.verify(password, u.passwordHash) then InvalidPasswordError
    else
      FilterIsSubseq(users, x => OtherId(x, u.id));
      Passed(Filter(users, x => OtherId(x, u.id)))
  }
}

=== FILE: UserRepositoryImpl.dfy ===
/** The client's user repository. `verifyPassword` and `changePassword` are
    declared to return the body itself, so Retrofit reports a non-2xx status
    by throwing; both wrap everything into a Kotlin `Result`. `getProfile`
    turns the non-success cases into thrown exceptions. */
module UserRepositoryImpl {
  import opened Wrappers
  import opened ClientModels

  datatype VerifyPasswordResponse = VerifyPasswordResponse(verificationToken: string)
  datatype ChangePasswordResponse = ChangePasswordResponse(message: string)

  datatype ChangePasswordRequest = ChangePasswordRequest(
    verificationToken: string, newPassword: string, newPasswordConfirm: string)

  function VerifyPassword(call: Attempt<VerifyPasswordResponse>): (r: KResult<string>)
    ensures r.KSuccess? <==> call.Returned?
    ensures call.Returned? ==> r.value == call.value.verificationToken
    ensures call.Threw? ==> r == KFailure(call.message)
  {
    match call
    case Returned(b) => KSuccess(b.verificationToken)
    case Threw(m) => KFailure(m)
  }

  function MakeChangePasswordRequest(token: string, newPassword: string, confirmPassword: string): (r: ChangePasswordRequest)
    ensures r.verificationToken == token && r.newPassword == newPassword && r.newPasswordConfirm == confirmPassword
  {
    ChangePasswordRequest(token, newPassword, confirmPassword)
  }

  /** `call` is the outcome of sending `MakeChangePasswordRequest` of the arguments. */
  function ChangePassword(call: Attempt<ChangePasswordResponse>): (r: KResult<string>)
    ensures r.KSuccess? <==> call.Returned?
    ensures call.Returned? ==> r.value == call.value.message
    ensures call.Threw? ==> r == KFailure(call.message)
  {
    match call
    case Returned(b) => KSuccess(b.message)
    case Threw(m) => KFailure(m)
  }

  function GetProfile(call: Call<UserResponse>): (r: Attempt<UserResponse>)
    ensures r.Returned? <==> call.Ok? && call.body.Some?
    ensures r.Returned? ==> r.value == call.body.value
    ensures call.Ok? && call.body.None? ==> r == Threw(Some("Profile data is null"))
    ensures call.Fail? ==> r == Threw(Some("Failed to get profile: " + call.message))
    ensures call.Exn? ==> r == Threw(call.error)
  {
    match call
    case Ok(Some(b)) => Returned(b)
    case Ok(None) => Threw(Some("Profile data is null"))
    case Fail(_, m) => Threw(Some("Failed to get profile: " + m))
    case Exn(e) => Threw(e)
  }
}

=== FILE: UserSchemas.dfy ===
/** The server's user request schemas: the password policy and the
    confirmation rule of `UserCreate` and `ChangePasswordRequest`, and the
    identity literal. */
module UserSchemas {
  import opened Wrappers
  import opened Chars

  /** The characters of the class `[!@#$%^&*(),.?":{}|<>]`. */
  const ServerSpecials := "!@#$%^&*(),.?\":{}|<>"

  /** The password failures, in the order they are checked. */
  datatype PasswordError = TooShort | NoLowercase | NoUppercase | NoNumber | NoSpecial

  /** The validator's own messages; the length message comes from the
      schema library and is not part of this model. */
  function Message(e: PasswordError): Option<string> {
    match e
    case TooShort => None
    case NoLowercase => Some("Password must contain at least one lowercase letter")
    case NoUppercase => Some("Password must contain at least one uppercase letter")
    case NoNumber => Some("Password must contain at least one number")
    case NoSpecial => Some("Password must contain at least one special character")
  }

  predicate ServerPolicy(p: string) {
    |p| >= 8 && HasLower(p) && HasUpper(p) && HasDigit(p) && HasCharIn(p, ServerSpecials)
  }

  /** The length constraint runs before the validator, and the validator
      stops at its first failing test. */
  function CheckPassword(p: string): (r: Option<PasswordError>)
    ensures r.None? <==> ServerPolicy(p)
    ensures r == Some(TooShort) <==> |p| < 8
    ensures r == Some(NoLowercase) <==> |p| >= 8 && !HasLower(p)
    ensures r == Some(NoUppercase) <==> |p| >= 8 && HasLower(p) && !HasUpper(p)
    ensures r == Some(NoNumber) <==> |p| >= 8 && HasLower(p) && HasUpper(p) && !HasDigit(p)
    ensures r == Some(NoSpecial) <==> |p| >= 8 && HasLower(p) && HasUpper(p) && HasDigit(p) && !HasCharIn(p, ServerSpecials)
  {
    if |p| < 8 then Some(TooShort)
    else if !HasLower(p) then Some(NoLowercase)
    else if !HasUpper(p) then Some(NoUppercase)
    else if !HasDigit(p) then Some(NoNumber)
    else if !HasCharIn(p, ServerSpecials) then Some(NoSpecial)
    else None
  }

  datatype SchemaError = PasswordInvalid(error: PasswordError) | PasswordsDoNotMatch | IdentityNotAllowed

  /** The errors for a password field and its confirmation: the confirmation
      is compared only when the password itself was accepted, since a
      rejected field never reaches the later validator's `values`. */
  function CheckPasswordPair(p: string, confirm: string): (r: seq<SchemaError>)
    ensures r == [] <==> ServerPolicy(p) && p == confirm
    ensures PasswordsDoNotMatch in r <==> ServerPolicy(p) && p != confirm
    ensures !ServerPolicy(p) ==> r == [PasswordInvalid(CheckPassword(p).value)]
  {
    match CheckPassword(p)
    case Some(e) => [PasswordInvalid(e)]
    case None => if p != confirm then [PasswordsDoNotMatch] else []
  }

  predicate IdentityAllowed(s: string) { s == "tuli" || s == "dengar" }

  /** `UserCreate`; email and date parsing are not part of this model. */
  datatype UserCreate = UserCreate(
    email: string, fullName: string, birthDate: string, identityType: string,
    password: string, passwordConfirm: string)

  /** Errors in field order: identity, then password and confirmation. */
  function CheckUserCreate(u: UserCreate): (r: seq<SchemaError>)
    ensures r == [] <==> IdentityAllowed(u.identityType) && ServerPolicy(u.password) && u.password == u.passwordConfirm
    ensures IdentityNotAllowed in r <==> !IdentityAllowed(u.identityType)
  {
    (if IdentityAllowed(u.identityType) then [] else [IdentityNotAllowed]) + CheckPasswordPair(u.password, u.passwordConfirm)
  }

  datatype ChangePasswordRequest = ChangePasswordRequest(verificationToken: string, newPassword: string, newPasswordConfirm: string)

  /** The same policy and confirmation rule, on `new_password`. */
  function CheckChangePasswordRequest(c: ChangePasswordRequest): (r: seq<SchemaError>)
    ensures r == [] <==> ServerPolicy(c.newPassword) && c.newPassword == c.newPasswordConfirm
    ensures r == CheckPasswordPair(c.newPassword, c.newPasswordConfirm)
  {
    CheckPasswordPair(c.newPassword, c.newPasswordConfirm)
  }

  /** `UserProfileUpdate`: every field may be omitted (None). */
  datatype UserProfileUpdate = UserProfileUpdate(
    fullName: Option<string>, birthDate: Option<string>, institution: Option<string>, profilePictureUrl: Option<string>)

  /** While the password fails the policy, the confirmation is never looked
      at: whatever it holds, a sign-up or a password change reports the same
      errors, the policy error last, and never a mismatch. */
  lemma MismatchHiddenByPolicyFailure(u: UserCreate, cp: ChangePasswordRequest, confirm: string)
    ensures !ServerPolicy(u.password) ==>
      CheckUserCreate(u.(passwordConfirm := confirm)) == CheckUserCreate(u) &&
      PasswordsDoNotMatch !in CheckUserCreate(u) &&
      CheckUserCreate(u)[|CheckUserCreate(u)| - 1] == PasswordInvalid(CheckPassword(u.password).value)
    ensures !ServerPolicy(cp.newPassword) ==>
      CheckChangePasswordRequest(cp.(newPasswordConfirm := confirm)) == CheckChangePasswordRequest(cp) &&
      CheckChangePasswordRequest(cp) == [PasswordInvalid(CheckPassword(cp.newPassword).value)]
  {
  }
}

=== FILE: Wrappers.dfy ===
/** Value types shared by the client and server models: optional values, the
    client's three-state `Resource`, Kotlin's `Result`, the outcome of one
    Retrofit call, and the server's HTTP reply. */
module Wrappers {

  /** A nullable value. */
  datatype Option<+T> = None | Some(value: T) {
    /** Kotlin's `x ?: default`. */
    function GetOr(default: T): (r: T)
      ensures Some? ==> r == value
      ensures None? ==> r == default
    {
      match this
      case Some(v) => v
      case None => default
    }
  }

  /** The client's `Resource<T>`: an operation in flight, finished with a value,
      or finished with an error message. */
  datatype Resource<+T> = Loading | Success(data: T) | Error(message: string)

  /** Kotlin's `Result<T>`; a failure carries the exception's message, which may be null. */
  datatype KResult<+T> = KSuccess(value: T) | KFailure(message: Option<string>)

  /** What one Retrofit call gives the client: a 2xx response whose body may be
      absent, a non-2xx response with its status message, or a thrown exception
      whose message may be null. */
  datatype Call<+B> = Ok(body: Option<B>) | Fail(code: int, message: string) | Exn(error: Option<string>)

  /** A call whose Retrofit declaration returns the body type itself: it either
      returns the body or throws (Retrofit throws on a non-2xx status). */
  datatype Attempt<+T> = Returned(value: T) | Threw(message: Option<string>)

  /** The server's answer to one request: a value, or an `HTTPException` with its
      status code and detail. */
  datatype Reply<+T> = Done(value: T) | Raise(status: int, detail: string)

  /** FastAPI's reply to an exception no handler catches. */
  const InternalServerError := "Internal Server Error"
}
